=== FILE: README.md ===
# Task manager backend and route guard, in Dafny

This project models the core of a small task-management web application:

- an ASP.NET Core backend where users sign up, log in with a JWT bearer token, and create, list, edit and delete their own tasks;
- an administrator area that lists users, toggles their activation, summarises the system, and reads, edits, creates and deletes anyone's task;
- on the client, the route table that guards each page with the `token` and `role` read from local storage when `App` last rendered, and the task list's text filter and post-delete update.

The database is a pair of tables keyed by id (`Store`: `users` and `tasks`).
Every controller action is a pure function from the request, the store and an optional store failure (`fault`) to a `Step`: the reply and the store after the request.
A reply is one of three things:

- `Ok(value)`;
- `Fail(status, message, error)`;
- `Unhandled`, for an exception the action does not catch, which the host's exception handler turns into a 500.

Modules follow the program's structure:

| module | file | models |
|---|---|---|
| `Base`, `Seqs`, `Ascii` | base.dfy, seqs.dfy, ascii.dfy | `Option`, `Int32`, `DateTime` ticks; sequence utilities; ASCII lower-casing |
| `Int32Text` | int32_text.dfy | `int.ToString()` and `int.TryParse` |
| `Models` | models.dfy | `User`, `UserTask`, `CreateTaskDto`, `LoginRequest`, the two tables, key generation |
| `Claims` | claims.dfy | claims, `GetCurrentUserId`, `FindFirstValue`, `IsInRole` |
| `Digest` | digest.dfy | `ComputeSha256Hash`: UTF-8, `BitConverter.ToString`, dash removal, lower-casing |
| `Tokens` | tokens.dfy | the two JWT issuers and the bearer-token check of the host |
| `Access` | access.dfy | `[Authorize]` and `[Authorize(Roles = "Admin")]` |
| `Http` | http.dfy | replies and status codes |
| `Auth` | auth.dfy | `AuthController` |
| `Tasks` | tasks.dfy | `BaseTaskController` and `TasksController` |
| `Counting` | counting.dfy | `CountAsync` over a table |
| `AdminDashboard` | admin_dashboard.dfy | `AdminDashboardController` |
| `AdminTasks` | admin_tasks.dfy | `AdminTasksController` |
| `Dashboard` | dashboard.dfy | `BaseDashboardController` and `DashboardController` |
| `Routes` | routes.dfy | `App` (client route guard) |
| `TaskList` | task_list.dfy | `TaskList` filter and delete update |

## Model

| member | source | states |
|---|---|---|
| Models.NewUser | backend/Models/User.cs:6-23 | A fresh account has role "User", is active, has no name and no last login, and is stamped with the creation time. |
| Models.NewUserTask | backend/Models/UserTask.cs:7-29 | A fresh task is "Pending" with priority "Normal" and has no description or due date. |
| Models.FromDto | backend/Controllers/TasksController.cs:27-35 | A created task carries exactly the payload's five fields, its new key and the given owner; a null description is stored as null. It is built only from a payload with a title, status and priority. |
| Models.WithDto | backend/Controllers/TasksController.cs:118-122 | An edit replaces exactly the five payload fields, a null description included; the id and the owner are kept. |
| Models.NextId | backend/Models/UserTask.cs:9 | A generated key is positive and not in use; generation fails only when the largest `int` key is taken. |
| Models.TasksWhere | backend/Controllers/TasksController.cs:59-60 | `Where(p)` lists each stored task satisfying `p` once, and nothing else, in ascending id order. |
| Models.TasksWhereLocal | backend/Controllers/TasksController.cs:59-60 | `Where(p)` depends only on the rows satisfying `p`: two stores that agree on them give the same list. |
| Models.Owner | backend/Models/UserTask.cs:24-28 | The `User` navigation property is present exactly when a user has the task's `UserId`, and is that user. |
| Http.ServerFault | backend/Controllers/AdminDashboardController.cs:32-36 | The admin 500 reply carries the fixed message and the exception's text. |
| Int32Text.Int32ToString | backend/Controllers/AuthController.cs:68 | `Id.ToString()` is a '-' exactly for negatives, followed by decimal digits. |
| Int32Text.ParseNumeral | backend/Controllers/BaseTaskController.cs:23 | The text between the skipped white space parses exactly when it is an optional sign and at least one digit whose signed value fits an `int`. That value is the result, and a negative result needs a '-'. |
| Int32Text.TryParseInt32 | backend/Controllers/BaseTaskController.cs:23 | `int.TryParse` (integer style) succeeds exactly when the text, with white space skipped at both ends, is a signed numeral within `int` range. The result is that numeral's value. |
| Int32Text.TrimShape | backend/Controllers/BaseTaskController.cs:23 | Skipping white space removes it from the two ends and nothing else; what is left neither starts nor ends with white space. |
| Int32Text.PaddingIgnored | backend/Controllers/BaseTaskController.cs:23 | White space added on either side of a text does not change what is left after skipping. |
| Int32Text.WhiteIgnored | backend/Controllers/BaseTaskController.cs:23 | `TryParse` gives the same answer with or without white space around the text. |
| Int32Text.PaddedRoundTrip | backend/Controllers/BaseTaskController.cs:23 | An id written by `ToString`, with any white space around it, reads back as itself. |
| Int32Text.BlankRejected | backend/Controllers/BaseTaskController.cs:23 | Text of white space alone, the empty text included, does not parse. |
| Int32Text.Int32RoundTrip | backend/Controllers/BaseTaskController.cs:23 | Every `int` written by `ToString` is read back by `TryParse` as itself. |
| Int32Text.CanonicalNumeral | backend/Controllers/BaseTaskController.cs:23 | A parsed numeral with no '+', no leading zero and no "-0" is, without its surrounding white space, exactly what `ToString` writes for its value. |
| Int32Text.ParseExamples | backend/Controllers/BaseTaskController.cs:23 | "42" parses to 42; "abc" and "" do not parse. |
| Int32Text.SignExamples | backend/Controllers/BaseTaskController.cs:23 | "-" does not parse; "+7", "7" and "-7" parse with their sign. |
| Int32Text.WhiteExamples | backend/Controllers/BaseTaskController.cs:23 | White space inside a numeral ("4 2") is refused, and so is a lone space. |
| Int32Text.OverflowRejected | backend/Controllers/BaseTaskController.cs:23 | One past the largest `int` is refused. |
| Claims.GetCurrentUserId | backend/Controllers/BaseTaskController.cs:18-27 | Without an id claim there is no user id; any user id comes from an id claim. |
| Claims.FirstIdClaimDecides | backend/Controllers/BaseTaskController.cs:20-26 | The first claim of type NameIdentifier or "id" alone decides: the result is the parse of its value, whatever follows. |
| Claims.NumericIdClaim | backend/Controllers/BaseTaskController.cs:20-24 | A NameIdentifier claim "42" gives user id 42. |
| Claims.ShortIdClaim | backend/Controllers/BaseTaskController.cs:20-24 | The short "id" claim is read when it is the first id claim. |
| Claims.UnparseableIdClaimShadows | backend/Controllers/BaseTaskController.cs:20-26 | An unparseable first id claim gives no user id even when a good one follows. |
| Claims.FindFirstValue | backend/Controllers/BaseDashboardController.cs:43 | `FindFirstValue(type)` is absent exactly when no claim has that type. |
| Digest.Utf8 | backend/Controllers/AuthController.cs:60 | UTF-8 encodes each character in one to four bytes. |
| Digest.ConverterPipeline | backend/Controllers/AuthController.cs:61 | Writing the bytes with dashes in upper case, removing the dashes and lower-casing gives plain lower-case hex. |
| Digest.HexRoundTrip | backend/Controllers/AuthController.cs:61 | Lower-case hex decodes back to the bytes it was written from. |
| Digest.ComputeSha256Hash | backend/Controllers/AuthController.cs:57-62 | The stored hash is 64 lower-case hex digits that decode to the SHA-256 digest of the password's UTF-8 bytes. |
| Tokens.SigningKey | backend/Services/TokenService.cs:27-45 | A signing key exists exactly when "Jwt:Key" is configured and its UTF-8 is at least 32 bytes, the 256 bits HMAC-SHA256 needs. A missing, empty or shorter key makes token writing throw. |
| Tokens.KeySizeBounds | backend/Services/TokenService.cs:27-45 | A key of 32 or more characters, like the test configuration's, signs; one under 8 characters, the empty one included, never does. An ASCII key signs exactly when it has at least 32 characters. |
| Tokens.LoginClaimsId | backend/Controllers/AuthController.cs:66-71 | The login token's claims give back the account's id to `GetCurrentUserId`. |
| Tokens.LoginClaimsName | backend/Controllers/AuthController.cs:66-71 | The login token's Name claim is the account's email. |
| Tokens.LoginClaimsRole | backend/Controllers/AuthController.cs:66-71 | The login token is in exactly one role: the account's. |
| Tokens.GenerateJwtToken | backend/Controllers/AuthController.cs:64-84 | The login token fails exactly when there is no usable signing key, so that login throws. Otherwise its claims are exactly the account's id (NameIdentifier), email (Name) and role, in that order. It lives two hours and is signed with the configured key. It carries the configured issuer and audience, each left out of the token when the setting is missing or empty. |
| Tokens.GenerateToken | backend/Services/TokenService.cs:16-55 | The service token fails, and the exception is re-thrown, exactly when there is no usable signing key. Otherwise its claims are exactly email (Name), role and the id under "UserId", in that order, so `GetCurrentUserId` finds no id. It lives seven days. It uses the configured issuer as both issuer and audience, left out when the setting is missing or empty. |
| Tokens.Authenticate | backend/Program.cs:39-48 | An accepted token is signed with the configured key. Its issuer is not blank and equals the configured one. The configured audience and the token's are not blank and are equal up to one trailing '/'. It has not expired beyond the clock skew, and its claims become the request's. |
| Tokens.LoginTokenRoundTrip | backend/Program.cs:39-48 | Within its two hours a login token is accepted exactly when neither "Jwt:Issuer" nor "Jwt:Audience" is blank, and then yields the account's id and role. |
| Tokens.ServiceTokenNeedsIssuerAsAudience | backend/Services/TokenService.cs:38-39 | A live service token is accepted exactly when "Jwt:Issuer" and "Jwt:Audience" are not blank and equal up to one trailing '/'. |
| Tokens.ExpiredTokenRejected | backend/Program.cs:47 | A token past its expiry plus the clock skew is refused. |
| Access.Identity | backend/Program.cs:34-49 | A request without a bearer token has no identity; otherwise its identity is what the token check yields. |
| Access.Authorize | backend/Controllers/AdminDashboardController.cs:13 | No identity is challenged (401); a request proceeds exactly when it has an identity in the required role, if any; otherwise it is forbidden (403). |
| Access.AdminGateAdmitsAdminLogins | backend/Controllers/AdminDashboardController.cs:13 | A fresh login token passes the administrator gate exactly when the account's role is "Admin" and neither the issuer nor the audience setting is blank. |
| Auth.Registered | backend/Controllers/AuthController.cs:33-34 | The stored account keeps every bound field except the password, which becomes its hash, and gets its key. |
| Auth.InsertKey | backend/Controllers/AuthController.cs:34-35 | A submitted non-zero `Id` is kept when free and makes the insert fail when taken; `Id` 0 takes a generated key. |
| Auth.Signup | backend/Controllers/AuthController.cs:14-38 | A body that fails validation gets the automatic 400 and no change, before the store is touched. A taken email gives 400 "Email already exists" and no change; otherwise exactly one account is added under an unused key; a store failure is not caught. |
| Auth.FindAccount | backend/Controllers/AuthController.cs:44-45 | The lookup finds a stored account exactly when one has that email and password hash. |
| Auth.Login | backend/Controllers/AuthController.cs:40-55 | A body that fails validation gets the automatic 400 and no change. Without a matching account: 401 "Invalid email or password" and no change; with one: its `LastLogin` is stamped and the reply carries a token for it, its role and its name. |
| Auth.SignupKeepsEmailsDistinct | backend/Controllers/AuthController.cs:30-35 | Signup never creates a second account with an email already in use. |
| Auth.LoginIgnoresActivation | backend/Controllers/AuthController.cs:44-48 | Whether login succeeds does not depend on `IsActive`. |
| Auth.SignupThenLogin | backend/Controllers/AuthController.cs:27-55 | Right after a signup, logging in with the same email and password succeeds and answers for the new account. |
| Auth.SignupWrites | backend/Controllers/AuthController.cs:33-35 | A successful signup stores the registered account under its insert key. |
| Auth.OnlyAccountFound | backend/Controllers/AuthController.cs:44-45 | With distinct emails, the lookup returns the one matching account. |
| Auth.FailedLoginsLookAlike | backend/Controllers/AuthController.cs:47-48 | A wrong email and a wrong password get the same reply. |
| Tasks.HandleServerError | backend/Controllers/BaseTaskController.cs:29-34 | Every caught failure is a 500 with the fixed message and no exception text. |
| Tasks.ServerErrorHidesException | backend/Controllers/BaseTaskController.cs:29-34 | The reply is the same whatever the exception and the action. |
| Tasks.OwnerIs | backend/Controllers/TasksController.cs:60 | The filter holds exactly for the tasks of that owner. |
| Tasks.DueKey | backend/Controllers/TasksController.cs:61 | A task without a due date sorts below every task with one. |
| Tasks.GetTasks | backend/Controllers/TasksController.cs:50-71 | No user id: 401; a failure: 500; otherwise the caller's tasks, each once and nothing else, latest due date first, undated last. |
| Tasks.ByDueFacts | backend/Controllers/TasksController.cs:59-62 | Sorting the caller's rows by due date keeps exactly the caller's tasks, in due-date order. |
| Tasks.GetTaskById | backend/Controllers/TasksController.cs:74-98 | Succeeds exactly when the task exists and is the caller's; another user's task gets the same 404 as a missing one. |
| Tasks.CreateTask | backend/Controllers/TasksController.cs:18-47 | Adds exactly one task, under an unused key, owned by the caller and holding the payload. A missing body, or a payload without a title, status or priority, is a 500 and no change. |
| Tasks.UpdateTask | backend/Controllers/TasksController.cs:101-133 | Succeeds exactly for the caller's own task and a body with a title, status and priority; it then replaces exactly the payload fields. For an owned task, any other body is a 500. |
| Tasks.DeleteTask | backend/Controllers/TasksController.cs:136-163 | Succeeds exactly for the caller's own task, and removes only it. |
| Tasks.OthersTasksUntouched | backend/Controllers/TasksController.cs:145-154 | No task action of a user changes another user's tasks or the users table. |
| Tasks.CreateKeepsOthers | backend/Controllers/TasksController.cs:27-38 | Creating a task leaves every other user's tasks as they were. |
| Tasks.UpdateKeepsOthers | backend/Controllers/TasksController.cs:110-124 | Editing a task leaves every other user's tasks as they were. |
| Tasks.DeleteKeepsOthers | backend/Controllers/TasksController.cs:145-154 | Deleting a task leaves every other user's tasks as they were. |
| Tasks.ForeignTaskLooksMissing | backend/Controllers/TasksController.cs:83-90 | Reading, editing or deleting another user's task answers as if it did not exist. |
| Tasks.GetTasksIgnoresOthers | backend/Controllers/TasksController.cs:59-62 | The task list does not depend on other users' tasks. |
| Tasks.UpdateThenGet | backend/Controllers/TasksController.cs:110-124 | After an edit, reading the task gives the payload's fields, with the same owner. |
| Tasks.DeleteThenGet | backend/Controllers/TasksController.cs:145-154 | After a delete, reading the task gives 404. |
| Tasks.OwnListHolds | backend/Controllers/TasksController.cs:59-60 | A list of the caller's tasks holds key `id` exactly when the caller owns that task, and shows it as stored. |
| Tasks.ListedIffFound | backend/Controllers/TasksController.cs:59-84 | A task is in the caller's list exactly when the caller can read it by id, and the list shows what the read returns. |
| Tasks.CreateThenListed | backend/Controllers/TasksController.cs:27-38 | After a create, the caller's list holds a task under a previously free key, carrying the payload and owned by the caller. |
| Tasks.ServiceTokenLockedOut | backend/Controllers/BaseTaskController.cs:20 | A token from `TokenService` gets 401 from every task action: its "UserId" claim is not an id claim. |
| Counting.StatusIs | backend/Controllers/AdminDashboardController.cs:49-51 | The filter holds exactly for tasks with that status. |
| Counting.OwnStatusIs | backend/Controllers/BaseDashboardController.cs:27-33 | The filter holds exactly for that owner's tasks with that status. |
| Counting.TaskCountBound | backend/Controllers/AdminDashboardController.cs:49-51 | No task count exceeds the number of tasks. |
| Counting.UserCountBound | backend/Controllers/AdminDashboardController.cs:45-47 | No user count exceeds the number of users. |
| Counting.ExclusiveCounts | backend/Controllers/AdminDashboardController.cs:49-51 | Counts under mutually exclusive conditions add up to at most the number of tasks. |
| Counting.ExclusiveCountsWithin | backend/Controllers/BaseDashboardController.cs:27-33 | Counts under exclusive conditions that each imply a fourth add up to at most the count under the fourth. |
| Counting.CountAfterInsert | backend/Controllers/AdminDashboardController.cs:166-167 | Adding a task under a fresh key raises each count it satisfies by one and leaves the others. |
| Counting.CountAfterRemove | backend/Controllers/AdminDashboardController.cs:114-115 | Removing a task lowers each count it satisfied by one and leaves the others. |
| Counting.UserCountAfterReplace | backend/Controllers/AdminDashboardController.cs:92-93 | Replacing an account changes each user count by what the new row adds less what the old one did. |
| AdminDashboard.GetAllUsers | backend/Controllers/AdminDashboardController.cs:19-37 | Lists exactly the active non-administrators, each once, as id, name and email; a failure gives 500 with the exception text. |
| AdminDashboard.ListedOnce | backend/Controllers/AdminDashboardController.cs:24-27 | No account appears twice in the user list. |
| AdminDashboard.TaskStatsOf | backend/Controllers/AdminDashboardController.cs:49-51 | The three task counts are the numbers of tasks with each status, and together do not exceed the number of tasks. |
| AdminDashboard.NewUserCutoff | backend/Controllers/AdminDashboardController.cs:47 | The cutoff for new users is exactly seven days before now. |
| AdminDashboard.UserStatsOf | backend/Controllers/AdminDashboardController.cs:45-47 | Total, active and recently joined users are the counts of all, of active, and of those created since the cutoff; neither part exceeds the total. |
| AdminDashboard.LatestTasks | backend/Controllers/AdminDashboardController.cs:53-56 | The latest tasks are stored tasks in strictly descending id order, at most ten, and every other task has a smaller id. |
| AdminDashboard.LatestAreLargest | backend/Controllers/AdminDashboardController.cs:55-56 | Taking the last rows of an ascending list leaves out only smaller ids. |
| AdminDashboard.RecentOf | backend/Controllers/AdminDashboardController.cs:57 | A recent-task entry shows the task's id, title and status and its owner's name, or "Unknown" without an owner. |
| AdminDashboard.RecentTasks | backend/Controllers/AdminDashboardController.cs:53-58 | The recent tasks are the ten (or all, if fewer) highest-id tasks, newest first, each with its owner's name. |
| AdminDashboard.UserRows | backend/Controllers/AdminDashboardController.cs:60-63 | Every account appears once, most recently created first. |
| AdminDashboard.GetAdminSummary | backend/Controllers/AdminDashboardController.cs:40-80 | The summary holds the task counts by status, the user totals, the recent tasks and all users newest first; a failure gives 500 with the exception text. |
| AdminDashboard.ToggleUserActivation | backend/Controllers/AdminDashboardController.cs:83-103 | A missing user gives 404, an administrator 400; otherwise only that account's `IsActive` flips and the message says which way. |
| AdminDashboard.ToggleTwiceRestores | backend/Controllers/AdminDashboardController.cs:92 | Toggling twice restores the store. |
| AdminDashboard.ToggleFlipsListing | backend/Controllers/AdminDashboardController.cs:88-96 | A toggle moves the account into the user list exactly when it was not there. |
| AdminDashboard.ToggleMovesActiveCount | backend/Controllers/AdminDashboardController.cs:88-96 | A toggle moves the active-user count by one, up or down as the flag goes. |
| AdminDashboard.GetTaskById | backend/Controllers/AdminDashboardController.cs:128-144 | Any existing task is returned without its owner; a missing one is 404. |
| AdminDashboard.DeleteTask | backend/Controllers/AdminDashboardController.cs:106-125 | Any existing task is removed and nothing else changes; a missing one is 404. |
| AdminDashboard.DeleteThenGet | backend/Controllers/AdminDashboardController.cs:111-115 | After a delete, reading the task gives 404. |
| AdminDashboard.CreateTask | backend/Controllers/AdminDashboardController.cs:147-177 | A task is added, once, only for an existing, active, non-administrator account; otherwise 400 "Invalid or inactive user". A payload without a title, status or priority is a 500 carrying the failed save's message. |
| AdminDashboard.AssignableIffListed | backend/Controllers/AdminDashboardController.cs:152-154 | The accounts an administrator may assign tasks to are exactly those the user list shows. |
| AdminDashboard.CreateCountsOnce | backend/Controllers/AdminDashboardController.cs:156-167 | Creating a task raises its status's count by one and leaves the other status counts. |
| AdminTasks.AssigneeName | backend/Controllers/AdminTasksController.cs:49 | The assignee is the owner's name, or "Unassigned" without an owner or name. |
| AdminTasks.GetTaskById | backend/Controllers/AdminTasksController.cs:24-57 | Any existing task is returned with its assignee; a missing one is 404. |
| AdminTasks.UpdateTaskByAdmin | backend/Controllers/AdminTasksController.cs:60-111 | Any existing task gets the payload fields and keeps its owner, whatever `UserId` the payload names. A rejected body is 400. A payload without a title, status or priority is a 500 carrying the failed save's message, and nothing is written. |
| AdminTasks.ListingOf | backend/Controllers/AdminTasksController.cs:121-130 | A listed task carries its owner's name, or none without an owner. |
| AdminTasks.GetAllTasks | backend/Controllers/AdminTasksController.cs:114-142 | Every task is listed exactly once with its assignee. |
| AdminTasks.DeleteTask | backend/Controllers/AdminTasksController.cs:145-169 | Any existing task is removed and nothing else changes; a missing one is 404. |
| AdminTasks.UpdateThenGet | backend/Controllers/AdminTasksController.cs:81-87 | After an edit, reading the task gives the payload's fields and the same assignee. |
| AdminTasks.ListedIffFound | backend/Controllers/AdminTasksController.cs:119-131 | A task is in the list exactly when reading it by id succeeds. |
| AdminTasks.OwnerDeleteIsAdminDelete | backend/Controllers/AdminTasksController.cs:150-157 | When an owner's delete succeeds, an administrator's delete of the same key succeeds and leaves the same store. |
| AdminTasks.AdminDeletesAgree | backend/Controllers/AdminTasksController.cs:145-169 | The two administrator delete endpoints give the same reply and the same store. |
| Dashboard.GetUserSummary | backend/Controllers/BaseDashboardController.cs:22-36 | A summary exists exactly for a stored user, and counts that user's tasks by status, which together do not exceed the user's tasks. |
| Dashboard.EmailIs | backend/Controllers/BaseDashboardController.cs:50 | The filter holds exactly for accounts with that email. |
| Dashboard.FindByEmail | backend/Controllers/BaseDashboardController.cs:50 | An account is found exactly when one has the email, and it is the lowest-keyed one. |
| Dashboard.NameClaim | backend/Controllers/BaseDashboardController.cs:43-48 | The email is the first Name claim, when it exists and is not empty. |
| Dashboard.GetCurrentUserSummary | backend/Controllers/BaseDashboardController.cs:41-59 | A summary exists exactly when the token has an email that some account has, and is that account's summary. |
| Dashboard.GetSummary | backend/Controllers/DasboardController.cs:15-34 | No email or no account: 401; a failure: 500 with no detail; otherwise the caller's summary. |
| Dashboard.LoginTokenSummary | backend/Controllers/BaseDashboardController.cs:43-58 | With distinct emails, a login token's summary is that of the account whose id the token carries. |
| Dashboard.ServiceTokenSummary | backend/Controllers/BaseDashboardController.cs:43 | Under one configuration, the token `TokenService` issues for an account gets the same summary as the login token for that account. |
| Dashboard.SummaryAfterInsert | backend/Controllers/BaseDashboardController.cs:27-33 | Adding a task moves only its owner's count for its status, by one. |
| Dashboard.SummaryAfterRemove | backend/Controllers/BaseDashboardController.cs:27-33 | Removing a task lowers only its owner's count for its status, by one. |
| Dashboard.OwnCreateCounted | backend/Controllers/TasksController.cs:27-38 | Creating one's own task raises one's own count for its status by one. |
| Dashboard.OwnDeleteUncounted | backend/Controllers/TasksController.cs:153-154 | Deleting one's own task lowers one's own count for its status by one. |
| Dashboard.AdminCreateCounted | backend/Controllers/AdminDashboardController.cs:156-167 | A task an administrator creates is counted for the assignee and for no one else. |
| Routes.Match | frontend/src/App.tsx:24-44 | A matched page's path pattern fits the path: static segments are equal ignoring case, and the `:id` segment is taken exactly. |
| Routes.MatchComplete | frontend/src/App.tsx:24-44 | Whenever a page's pattern fits a path, the router finds that page: no two routes fit the same path. |
| Routes.MatchPathOf | frontend/src/App.tsx:26-43 | Every page is reached by its own path: no route shadows another. |
| Routes.RequiredRole | frontend/src/App.tsx:32-43 | Only "/" and "/login" are open; every other page requires "User" or "Admin". |
| Routes.Resolve | frontend/src/App.tsx:26-43 | "/" redirects to "/login", "/login" renders, and a guarded page renders exactly for a token and its role, else redirects. |
| Routes.Navigate | frontend/src/App.tsx:24-44 | Following a path gives the guarded outcome of the page it matches, and nothing for an unknown path. |
| Routes.GuardedPages | frontend/src/App.tsx:32-43 | Exactly six pages require "User" and four require "Admin"; without the token and role they redirect to "/login". |
| Routes.OneRolePerPage | frontend/src/App.tsx:32-43 | No guarded page renders for two different roles. |
| Routes.TokenContentIgnored | frontend/src/App.tsx:19-20 | Only a token's presence matters, not its content. |
| TaskList.ShownBy | frontend/src/pages/TaskList.tsx:90-94 | The filter keeps a row exactly when both text filters match it. |
| TaskList.FilteredTasks | frontend/src/pages/TaskList.tsx:90-94 | The shown rows are the rows passing both filters, in the list's order. There are exactly as many as rows pass, repeats counted. |
| TaskList.NoFilterShowsAll | frontend/src/pages/TaskList.tsx:90-94 | With both filters empty, every row is shown. |
| TaskList.EmptyFilterRedundant | frontend/src/pages/TaskList.tsx:91-92 | The empty-filter short-circuit changes nothing: every string includes the empty one. |
| TaskList.AfterDelete | frontend/src/pages/TaskList.tsx:83 | After a delete the list keeps, in order, exactly the rows with another id. |
| TaskList.DeleteCommutesWithFilter | frontend/src/pages/TaskList.tsx:83-94 | Filtering after a delete equals deleting from the filtered list. |
| TaskList.DeleteAbsentKeeps | frontend/src/pages/TaskList.tsx:83 | Deleting an id not in the list leaves it unchanged. |

## Where the code and the documented design disagree

The model follows the code in each case.

- Login does not look at `IsActive`, so a deactivated account can still log in (`Auth.LoginIgnoresActivation`).
- Signup binds the whole `User` body, so `Role`, `IsActive`, `Id` and `CreatedAt` come from the request. The design says they are assigned by the server.
- The design calls emails case-insensitive. The code compares them with `==` inside the database queries of signup, login and the dashboard, which leaves case to the column's collation. The model compares them exactly (see "Left out").
- The login reply holds only `token`, `role` and `fullName`, without the email or user id.
- The bearer-token check follows the library's default five-minute clock skew, so a token is accepted until `expires + ClockSkew`, not strictly before `expires`.
- The administrator controllers put the exception's text in their 500 replies (`error`). The design says internal detail is never returned.
- Signup and Login catch nothing: a store failure is `Unhandled` and becomes the host's generic 500.
- A `TokenService` token has a "UserId" claim, which `GetCurrentUserId` does not read. Every task action therefore refuses it (`Tasks.ServiceTokenLockedOut`), while the dashboard accepts it by email (`Dashboard.ServiceTokenSummary`).
- The user dashboard finds the caller by the Name (email) claim, not by the id claim. When two accounts share an email, the lowest key is taken.
- An administrator's token on a user API (for example `api/dashboard`) is accepted, because those controllers only require authentication. On the client, the route guard sends an administrator away from user pages.

## Left out

- Logging (Serilog), CORS, Swagger and the request pipeline are left out. They do not change any reply.
- SHA-256 itself is a parameter `sha`. The model states the hash's format and its relation to the digest, not the digest's bits.
- JWT compact serialisation and the HMAC-SHA256 signature are left out. A token is kept as the structured value its issuer builds, and the signature check is "signed with the configured key".
- Concurrency and the asynchronous calls are left out. Each request is one atomic step on the store.
- The clock is a parameter `now`.
- `AddDays(-7)` is modelled as plain subtraction of seven days. `DateTime`'s lower range limit is not modelled.
- Any store exception is the single parameter `fault`, except a save rejected for a null required column (`Models.Storable`). Which statement throws is not distinguished, and a failed write leaves the store unchanged. It also stands for the foreign key on `UserTask.UserId` (UserTask.cs:25): a task created for a caller id with no account makes the save throw. `Tasks.CreateTask` answers Ok for such an id only when `fault` is `None`, which the real store does not allow.
- Key generation is "one past the largest key in use" (`Models.NextId`). The database's identity column may skip values; only freshness is relied upon.
- Signup with a non-zero `Id` stores the account under that key when it is free. A SQL Server identity column would refuse it; that case falls under `fault`.
- Table enumeration order without `OrderBy` is modelled as ascending key. The database does not promise one.
- Equal due dates and equal creation times sort in table order. The database gives no tie order.
- Text lower-casing (`ToLower`, `toLowerCase`) is ASCII-only. Culture-specific and non-ASCII case mappings are not modelled.
- The unreachable `ModelState` branch of `UpdateTaskByAdmin` is folded into the automatic 400 (`valid`). `[ApiController]` answers before the action runs.
- Model validation on the controllers with `[ApiController]` (`AuthController`, `AdminDashboardController`, `AdminTasksController`) is the single flag `valid`. It covers a body that did not bind and one that failed `[Required]`, `[EmailAddress]` or an implicit non-null check. Which field failed, and the problem-details body, are not modelled.
- Auth.Login: the declaration of `LoginRequest` is not part of this model, so its validation attributes are unknown. Login takes the same `valid` flag as signup.
- `TasksController` has no `[ApiController]`, so nothing answers 400 there. A missing body is a null DTO and a 500; those actions take `Option<CreateTaskDto>`. A text property the body leaves out binds null.
- Models.FromDto: a null `Title`, `Status` or `Priority` is modelled as a save that throws, because the `[Required]` columns are NOT NULL on SQL Server. A store without that constraint would keep the null; such a task is not representable here.
- Auth.SignupKeepsEmailsDistinct: string comparisons inside queries are modelled as exact comparisons. This covers the emails in signup, login and the dashboard lookup, the statuses in the counts, and the `Role != "Admin"` filter of the administrator's user list (AdminDashboardController.cs:25). SQL Server compares under the column's collation, and the usual default ignores case and trailing spaces. Under such a collation, signup also refuses an email differing only in case, and login also matches one. The model proves distinctness under exact comparison only.
- The 256-bit minimum for an HMAC-SHA256 key is the one current versions of the JWT library enforce; which version the backend builds against is not part of this model.
- AdminDashboard.AssignableIffListed: this lemma and AdminDashboard.ToggleFlipsListing hold only under exact comparison. The user list filters the role inside the query, under the collation, while activation toggling and task assignment compare `Role == "Admin"` in C#, ordinally. An account whose role is "admin" or "Admin " is missing from the list under a case-insensitive collation, yet it can be toggled and assigned tasks.
- Int32Text.TryParseInt32: only the invariant culture's '-' and '+' signs are modelled. Other cultures' negative signs, and the trailing NUL characters .NET also skips, are not.
- The JSON shapes of the replies are datatypes with the same fields. Property-name casing and serialisation are not modelled.
- On the client, `fetch`, the confirmation dialog, date formatting and the other pages' rendering are left out. Only the route guard and the list's filter and delete update are modelled.
- Routes.Match: the router's ranking, trailing slashes and percent-decoding of segments are not modelled. A path is given as its segments.
- TaskList.FilteredTasks: `task.status` and `task.title` are taken to be strings. The crash on a null title is not modelled.

=== FILE: access.dfy ===
/**
 * The `[Authorize]` and `[Authorize(Roles = "Admin")]` gates in front of the
 * controllers: a request without an accepted bearer token is challenged
 * (401), and one whose principal lacks the required role is forbidden (403),
 * before any action code runs.
 */
module Access {
  import opened Base
  import opened Models
  import opened Claims
  import opened Tokens

  const Forbidden: nat := 403

  /** What the gate does with a request. */
  datatype Gate = Proceed(claims: seq<Claim>) | Challenge | Forbid {
    function Status(): nat
      requires !Proceed?
    {
      if Challenge? then 401 else Forbidden
    }
  }

  /** The request's identity: the claims of its bearer token, when the host accepts it. */
  function Identity(config: Config, bearer: Option<Jwt>, now: DateTime): (r: Option<seq<Claim>>)
    ensures bearer.None? ==> r.None?
    ensures r.Some? ==> r == Authenticate(config, bearer.value, now)
  {
    match bearer
    case None => None
    case Some(token) => Authenticate(config, token, now)
  }

  /** `[Authorize]` (no role) or `[Authorize(Roles = role)]`. */
  function Authorize(identity: Option<seq<Claim>>, role: Option<string>): (r: Gate)
    ensures identity.None? ==> r == Challenge
    ensures r.Proceed? <==> identity.Some? && (role.None? || IsInRole(identity.value, role.value))
    ensures r.Proceed? ==> r.claims == identity.value
    ensures r.Forbid? ==> identity.Some? && role.Some? && !IsInRole(identity.value, role.value)
  {
    match identity
    case None => Challenge
    case Some(claims) =>
      if role.None? || IsInRole(claims, role.value) then Proceed(claims) else Forbid
  }

  /**
   * The admin controllers are reached with a live login token exactly when
   * the token was issued to an account whose role is "Admin".
   */
  lemma AdminGateAdmitsAdminLogins(config: Config, u: User, issued: DateTime, now: DateTime)
    requires SigningKey(config).Some?
    requires issued <= now <= AddHours(issued, LoginTokenHours)
    ensures var token := GenerateJwtToken(config, u, issued);
            token.Some? &&
            (Authorize(Identity(config, token, now), Some("Admin")).Proceed?
             <==> u.role == "Admin" && !Blank(config.Get(IssuerSetting)) && !Blank(config.Get(AudienceSetting)))
  {
    LoginTokenRoundTrip(config, u, issued, now);
    LoginClaimsRole(u);
  }
}

=== FILE: admin_dashboard.dfy ===
/**
 * `AdminDashboardController` (behind `[Authorize(Roles = "Admin")]`): the
 * list of assignable users, the dashboard summary, activation toggling,
 * and task lookup, deletion and creation on a user's behalf. Every action
 * catches its exceptions and answers 500 with a fixed message and the
 * exception text.
 */
module AdminDashboard {
  import opened Base
  import opened Seqs
  import opened Models
  import opened Http
  import opened Counting

  const UsersError: string := "Error fetching users"
  const SummaryError: string := "Error retrieving admin summary"
  const ToggleError: string := "Error toggling user activation"
  const UserNotFound: string := "User not found"
  const AdminLocked: string := "Cannot change activation status for Admin users"
  const Activated: string := "User activated successfully"
  const Deactivated: string := "User deactivated successfully"
  const TaskNotFound: string := "Task not found"
  const TaskDeleted: string := "Task deleted successfully"
  const DeleteError: string := "Error deleting task"
  const TaskError: string := "Error retrieving task"
  const InvalidUser: string := "Invalid or inactive user"
  const TaskCreated: string := "Task created successfully"
  const CreateError: string := "Error creating task"
  const UnknownUser: string := "Unknown"

  /** How many tasks the summary lists (`Take(10)`). */
  const RecentLimit: nat := 10
  /** How far back a user counts as new (`AddDays(-7)`). */
  const NewUserDays: nat := 7

  /** An active account that is not an administrator: listed, and assignable. */
  predicate Listed(u: User) {
    u.role != RoleAdmin && u.isActive
  }

  /** One entry of the user list: `new { u.Id, u.FullName, u.Email }`. */
  datatype UserListItem = UserListItem(id: Int32, fullName: Option<string>, email: string)

  function ListItem(u: User): UserListItem {
    UserListItem(u.id, u.fullName, u.email)
  }

  /** `v` lists exactly the listed accounts, each as stored, in table order. */
  predicate ListsActiveUsers(st: Store, v: seq<UserListItem>) {
    && (forall i :: 0 <= i < |v| ==> v[i].id in st.users && Listed(st.users[v[i].id]) && v[i] == ListItem(st.users[v[i].id]))
    && (forall k :: k in st.users && Listed(st.users[k]) ==> ListItem(st.users[k]) in v)
    && (forall i, j :: 0 <= i < j < |v| ==> v[i].id < v[j].id)
  }

  /** `GET api/admin-dashboard/users`. */
  function GetAllUsers(st: Store, fault: Option<string>): (r: Step<seq<UserListItem>>)
    ensures r.store == st
    ensures fault.Some? ==> r.reply == ServerFault(UsersError, fault.value)
    ensures r.reply.Ok? <==> fault.None?
    ensures r.reply.Ok? ==> ListsActiveUsers(st, r.reply.value)
  {
    if fault.Some? then Step(ServerFault(UsersError, fault.value), st)
    else
      ListedRows(st);
      Step(Ok(MapSeq(UsersWhere(st, Listed), ListItem)), st)
  }

  lemma ListedRows(st: Store)
    ensures ListsActiveUsers(st, MapSeq(UsersWhere(st, Listed), ListItem))
  {
    var rows := UsersWhere(st, Listed);
    var v := MapSeq(rows, ListItem);
    forall k | k in st.users && Listed(st.users[k])
      ensures ListItem(st.users[k]) in v
    {
      var j :| 0 <= j < |rows| && rows[j] == st.users[k];
      assert v[j] == ListItem(st.users[k]);
    }
  }

  /** An account can be listed at most once: the list is keyed by account. */
  lemma ListedOnce(st: Store, v: seq<UserListItem>, i: nat, j: nat)
    requires ListsActiveUsers(st, v)
    requires i < |v| && j < |v| && v[i].id == v[j].id
    ensures i == j
  {
  }

  /** The `taskStats` block: task counts by status. */
  datatype TaskStats = TaskStats(completed: nat, pending: nat, inProgress: nat)

  /** The `userStats` block: all accounts, active ones, and ones created in the last week. */
  datatype UserStats = UserStats(total: nat, active: nat, joined: nat)

  /** One of the latest tasks: id, title, status and the owner's name (`"Unknown"` without an owner). */
  datatype RecentTask = RecentTask(id: Int32, title: string, status: string, user: Option<string>)

  /** One row of the account table of the summary. */
  datatype UserRow = UserRow(id: Int32, fullName: Option<string>, email: string, role: string,
                             isActive: bool, createdAt: DateTime)

  datatype AdminSummary = AdminSummary(taskStats: TaskStats, userStats: UserStats,
                                       recentTasks: seq<RecentTask>, users: seq<UserRow>)

  /** The three task counts; a task in any other status is counted in none of them. */
  function TaskStatsOf(st: Store): (s: TaskStats)
    ensures s.completed == TaskCount(st, StatusIs(StatusCompleted))
    ensures s.pending == TaskCount(st, StatusIs(StatusPending))
    ensures s.inProgress == TaskCount(st, StatusIs(StatusInProgress))
    ensures s.completed + s.pending + s.inProgress <= |st.tasks|
  {
    assert |StatusCompleted| != |StatusPending| && |StatusCompleted| != |StatusInProgress|;
    assert |StatusPending| != |StatusInProgress|;
    ExclusiveCounts(st, StatusIs(StatusCompleted), StatusIs(StatusPending), StatusIs(StatusInProgress));
    TaskStats(TaskCount(st, StatusIs(StatusCompleted)), TaskCount(st, StatusIs(StatusPending)),
              TaskCount(st, StatusIs(StatusInProgress)))
  }

  /** `u => u.IsActive`. */
  predicate IsActive(u: User) {
    u.isActive
  }

  /** `u => u.CreatedAt >= cutoff`. */
  function JoinedSince(cutoff: int): (p: User -> bool)
    ensures forall u :: p(u) <==> u.createdAt as int >= cutoff
  {
    (u: User) => u.createdAt as int >= cutoff
  }

  /** The cutoff for a new account: seven days before `now`. */
  function NewUserCutoff(now: DateTime): (c: int)
    ensures now - c == NewUserDays * 24 * 3600 * TicksPerSecond
  {
    now - NewUserDays * TicksPerDay
  }

  /** The account counts at time `now`. */
  function UserStatsOf(st: Store, now: DateTime): (s: UserStats)
    ensures s.total == |st.users|
    ensures s.active == UserCount(st, IsActive)
    ensures s.joined == UserCount(st, JoinedSince(NewUserCutoff(now)))
    ensures s.active <= s.total && s.joined <= s.total
  {
    UserCountBound(st, IsActive);
    UserCountBound(st, JoinedSince(NewUserCutoff(now)));
    UserStats(|st.users|, UserCount(st, IsActive), UserCount(st, JoinedSince(NewUserCutoff(now))))
  }

  /**
   * `r` is what `OrderByDescending(t => t.Id).Take(10)` gives: stored
   * tasks, largest id first, ten of them or all when there are fewer, and
   * no task left out has a larger id than one taken.
   */
  predicate NewestFirst(st: Store, r: seq<UserTask>) {
    && |r| == (if |st.tasks| < RecentLimit then |st.tasks| else RecentLimit)
    && (forall i :: 0 <= i < |r| ==> r[i].id in st.tasks && st.tasks[r[i].id] == r[i])
    && (forall i, j :: 0 <= i < j < |r| ==> r[i].id > r[j].id)
    && (forall k :: k in st.tasks && st.tasks[k] !in r ==> forall i :: 0 <= i < |r| ==> k < r[i].id)
  }

  /** The latest tasks of the summary. */
  function LatestTasks(st: Store): (r: seq<UserTask>)
    ensures NewestFirst(st, r)
  {
    LatestFacts(st);
    Take(Reverse(TasksInOrder(st)), RecentLimit)
  }

  lemma LatestFacts(st: Store)
    ensures NewestFirst(st, Take(Reverse(TasksInOrder(st)), RecentLimit))
  {
    LatestOfRows(st, TasksInOrder(st));
  }

  /** The latest tasks, taken from the tasks in ascending id order. */
  lemma LatestOfRows(st: Store, rows: seq<UserTask>)
    requires |rows| == |st.tasks|
    requires forall i :: 0 <= i < |rows| ==> rows[i].id in st.tasks && st.tasks[rows[i].id] == rows[i]
    requires forall k :: k in st.tasks ==> st.tasks[k] in rows
    requires forall i, j :: 0 <= i < j < |rows| ==> rows[i].id < rows[j].id
    ensures NewestFirst(st, Take(Reverse(rows), RecentLimit))
  {
    var r := Take(Reverse(rows), RecentLimit);
    assert forall i :: 0 <= i < |r| ==> r[i] == rows[|rows| - 1 - i];
    TailNewestFirst(st, rows, r);
  }

  /** The last tasks in ascending id order, read backwards, are the latest tasks. */
  lemma TailNewestFirst(st: Store, rows: seq<UserTask>, r: seq<UserTask>)
    requires |rows| == |st.tasks|
    requires forall i :: 0 <= i < |rows| ==> rows[i].id in st.tasks && st.tasks[rows[i].id] == rows[i]
    requires forall k :: k in st.tasks ==> st.tasks[k] in rows
    requires forall i, j :: 0 <= i < j < |rows| ==> rows[i].id < rows[j].id
    requires |r| == if |rows| < RecentLimit then |rows| else RecentLimit
    requires forall i :: 0 <= i < |r| ==> r[i] == rows[|rows| - 1 - i]
    ensures NewestFirst(st, r)
  {
    forall i | 0 <= i < |r|
      ensures r[i].id in st.tasks && st.tasks[r[i].id] == r[i]
    {
      assert r[i] == rows[|rows| - 1 - i];
    }
    forall i, j | 0 <= i < j < |r|
      ensures r[i].id > r[j].id
    {
      assert r[i] == rows[|rows| - 1 - i] && r[j] == rows[|rows| - 1 - j];
    }
    LatestAreLargest(st, rows, r);
  }

  /** A task left out of the latest ones has a smaller id than every one taken. */
  lemma LatestAreLargest(st: Store, rows: seq<UserTask>, r: seq<UserTask>)
    requires forall k :: k in st.tasks ==> st.tasks[k] in rows
    requires forall i, j :: 0 <= i < j < |rows| ==> rows[i].id < rows[j].id
    requires |r| <= |rows|
    requires forall i :: 0 <= i < |r| ==> r[i] == rows[|rows| - 1 - i]
    ensures forall k :: k in st.tasks && st.tasks[k] !in r ==> forall i :: 0 <= i < |r| ==> k < r[i].id
  {
    assert forall jj :: |rows| - |r| <= jj < |rows| ==> rows[jj] in r by {
      forall jj | |rows| - |r| <= jj < |rows|
        ensures rows[jj] in r
      {
        assert r[|rows| - 1 - jj] == rows[jj];
      }
    }
    forall k, i | k in st.tasks && st.tasks[k] !in r && 0 <= i < |r|
      ensures k < r[i].id
    {
      var j :| 0 <= j < |rows| && rows[j] == st.tasks[k];
      assert j < |rows| - |r|;
      assert r[i] == rows[|rows| - 1 - i];
    }
  }

  /** The summary entry of a task: `User` is the owner's name when there is an owner, else "Unknown". */
  function RecentOf(st: Store, t: UserTask): (e: RecentTask)
    ensures e.id == t.id && e.title == t.title && e.status == t.status
    ensures t.userId in st.users ==> e.user == st.users[t.userId].fullName
    ensures t.userId !in st.users ==> e.user == Some(UnknownUser)
  {
    var user := match Owner(st, t)
      case None => Some(UnknownUser)
      case Some(u) => u.fullName;
    RecentTask(t.id, t.title, t.status, user)
  }

  /**
   * `r` is the `recentTasks` block: the tasks with the largest ids, ten of
   * them or all when there are fewer, largest first, each with its owner's
   * name; every task left out has a smaller id than every one listed.
   */
  predicate ListsRecentTasks(st: Store, r: seq<RecentTask>) {
    && |r| == (if |st.tasks| < RecentLimit then |st.tasks| else RecentLimit)
    && (forall i :: 0 <= i < |r| ==> r[i].id in st.tasks && r[i] == RecentOf(st, st.tasks[r[i].id]))
    && (forall i, j :: 0 <= i < j < |r| ==> r[i].id > r[j].id)
    && (forall k :: k in st.tasks && (forall i :: 0 <= i < |r| ==> r[i].id != k) ==>
          forall i :: 0 <= i < |r| ==> k < r[i].id)
  }

  /** The `recentTasks` block. */
  function RecentTasks(st: Store): (r: seq<RecentTask>)
    ensures ListsRecentTasks(st, r)
  {
    var latest := LatestTasks(st);
    RecentOfLatest(st, latest);
    MapSeq(latest, (t: UserTask) => RecentOf(st, t))
  }

  /** Naming the owners of the latest tasks gives the `recentTasks` block. */
  lemma RecentOfLatest(st: Store, latest: seq<UserTask>)
    requires NewestFirst(st, latest)
    ensures ListsRecentTasks(st, MapSeq(latest, (t: UserTask) => RecentOf(st, t)))
  {
    var r := MapSeq(latest, (t: UserTask) => RecentOf(st, t));
    forall k | k in st.tasks && (forall i :: 0 <= i < |r| ==> r[i].id != k)
      ensures forall i :: 0 <= i < |r| ==> k < r[i].id
    {
      forall i | 0 <= i < |latest|
        ensures latest[i] != st.tasks[k]
      {
        assert r[i].id == latest[i].id;
      }
    }
  }

  function RowOf(u: User): UserRow {
    UserRow(u.id, u.fullName, u.email, u.role, u.isActive, u.createdAt)
  }

  /** `OrderByDescending(u => u.CreatedAt)`. */
  function CreatedKey(u: User): int {
    u.createdAt
  }

  /** `r` holds every account once, as stored, newest first. */
  predicate AllUsersNewestFirst(st: Store, r: seq<UserRow>) {
    && |r| == |st.users|
    && (forall i :: 0 <= i < |r| ==> r[i].id in st.users && r[i] == RowOf(st.users[r[i].id]))
    && (forall k :: k in st.users ==> RowOf(st.users[k]) in r)
    && (forall i, j :: 0 <= i < j < |r| ==> r[i].createdAt >= r[j].createdAt)
  }

  /** The `users` block. */
  function UserRows(st: Store): (r: seq<UserRow>)
    ensures AllUsersNewestFirst(st, r)
  {
    UserRowsFacts(st);
    MapSeq(SortDescBy(UsersInOrder(st), CreatedKey), RowOf)
  }

  lemma UserRowsFacts(st: Store)
    ensures AllUsersNewestFirst(st, MapSeq(SortDescBy(UsersInOrder(st), CreatedKey), RowOf))
  {
    UserRowsOfRows(st, UsersInOrder(st));
  }

  /** The account table, sorted from the users in ascending id order. */
  lemma UserRowsOfRows(st: Store, rows: seq<User>)
    requires |rows| == |st.users|
    requires forall i :: 0 <= i < |rows| ==> rows[i].id in st.users && st.users[rows[i].id] == rows[i]
    requires forall k :: k in st.users ==> st.users[k] in rows
    ensures AllUsersNewestFirst(st, MapSeq(SortDescBy(rows, CreatedKey), RowOf))
  {
    var sorted := SortDescBy(rows, CreatedKey);
    SortKeepsElements(rows, CreatedKey);
    forall x | x in sorted
      ensures x.id in st.users && st.users[x.id] == x
    {
      assert x in rows;
    }
    RowsOfSorted(st, sorted);
  }

  /** Projecting accounts sorted newest first gives the account table. */
  lemma RowsOfSorted(st: Store, sorted: seq<User>)
    requires |sorted| == |st.users|
    requires forall x :: x in sorted ==> x.id in st.users && st.users[x.id] == x
    requires forall k :: k in st.users ==> st.users[k] in sorted
    requires SortedDesc(sorted, CreatedKey)
    ensures AllUsersNewestFirst(st, MapSeq(sorted, RowOf))
  {
    var r := MapSeq(sorted, RowOf);
    forall i | 0 <= i < |r|
      ensures r[i].id in st.users && r[i] == RowOf(st.users[r[i].id])
    {
      assert sorted[i] in sorted;
    }
    forall k | k in st.users
      ensures RowOf(st.users[k]) in r
    {
      var j :| 0 <= j < |sorted| && sorted[j] == st.users[k];
      assert r[j] == RowOf(st.users[k]);
    }
    forall i, j | 0 <= i < j < |r|
      ensures r[i].createdAt >= r[j].createdAt
    {
      assert CreatedKey(sorted[i]) >= CreatedKey(sorted[j]);
    }
  }

  /** `GET api/admin-dashboard/summary` at time `now`. */
  function GetAdminSummary(st: Store, now: DateTime, fault: Option<string>): (r: Step<AdminSummary>)
    ensures r.store == st
    ensures fault.Some? ==> r.reply == ServerFault(SummaryError, fault.value)
    ensures r.reply.Ok? <==> fault.None?
    ensures r.reply.Ok? ==> var s := r.reply.value;
              && s.taskStats.completed == TaskCount(st, StatusIs(StatusCompleted))
              && s.taskStats.pending == TaskCount(st, StatusIs(StatusPending))
              && s.taskStats.inProgress == TaskCount(st, StatusIs(StatusInProgress))
              && s.taskStats.completed + s.taskStats.pending + s.taskStats.inProgress <= |st.tasks|
              && s.userStats.total == |st.users|
              && s.userStats.active == UserCount(st, IsActive) <= s.userStats.total
              && s.userStats.joined == UserCount(st, JoinedSince(NewUserCutoff(now))) <= s.userStats.total
              && ListsRecentTasks(st, s.recentTasks)
              && AllUsersNewestFirst(st, s.users)
  {
    if fault.Some? then Step(ServerFault(SummaryError, fault.value), st)
    else Step(Ok(AdminSummary(TaskStatsOf(st), UserStatsOf(st, now), RecentTasks(st), UserRows(st))), st)
  }

  /** The body of a successful toggle. */
  datatype ToggleResult = ToggleResult(message: string, userId: Int32, isActive: bool)

  /** `PUT api/admin-dashboard/toggle-active/{id}`. */
  function ToggleUserActivation(st: Store, id: Int32, fault: Option<string>): (r: Step<ToggleResult>)
    ensures !r.reply.Ok? ==> r.store == st
    ensures fault.Some? ==> r.reply == ServerFault(ToggleError, fault.value)
    ensures fault.None? && id !in st.users ==> r.reply == Refuse(NotFound, UserNotFound)
    ensures fault.None? && id in st.users && st.users[id].role == RoleAdmin ==> r.reply == Refuse(BadRequest, AdminLocked)
    ensures r.reply.Ok? <==> fault.None? && id in st.users && st.users[id].role != RoleAdmin
    ensures r.reply.Ok? ==>
              && r.store.tasks == st.tasks
              && r.store.users.Keys == st.users.Keys
              && r.store.users[id] == st.users[id].(isActive := !st.users[id].isActive)
              && (forall k :: k in st.users && k != id ==> r.store.users[k] == st.users[k])
    ensures r.reply.Ok? ==> r.reply.value.userId == id && r.reply.value.isActive == r.store.users[id].isActive
    ensures r.reply.Ok? ==> (r.reply.value.message == Activated <==> r.reply.value.isActive)
  {
    if fault.Some? then Step(ServerFault(ToggleError, fault.value), st)
    else if id !in st.users then Step(Refuse(NotFound, UserNotFound), st)
    else if st.users[id].role == RoleAdmin then Step(Refuse(BadRequest, AdminLocked), st)
    else
      var u := st.users[id].(isActive := !st.users[id].isActive);
      assert |Activated| != |Deactivated|;
      Step(Ok(ToggleResult(if u.isActive then Activated else Deactivated, u.id, u.isActive)), PutUser(st, u))
  }

  /** Toggling the same account twice leaves the store as it was. */
  lemma ToggleTwiceRestores(st: Store, id: Int32)
    requires ToggleUserActivation(st, id, None).reply.Ok?
    ensures var once := ToggleUserActivation(st, id, None).store;
            var twice := ToggleUserActivation(once, id, None);
            twice.reply.Ok? && twice.store == st
  {
    var once := ToggleUserActivation(st, id, None).store;
    var twice := ToggleUserActivation(once, id, None).store;
    assert twice.users == st.users;
  }

  /** A toggled account appears in the user list exactly when it did not before. */
  lemma ToggleFlipsListing(st: Store, id: Int32)
    requires ToggleUserActivation(st, id, None).reply.Ok?
    ensures var after := ToggleUserActivation(st, id, None).store;
            Listed(after.users[id]) <==> !Listed(st.users[id])
    ensures var after := ToggleUserActivation(st, id, None).store;
            forall k :: k in st.users && k != id ==> (Listed(after.users[k]) <==> Listed(st.users[k]))
  {
  }

  /** A toggle moves the active count by exactly one, in the direction of the new flag. */
  lemma ToggleMovesActiveCount(st: Store, id: Int32)
    requires ToggleUserActivation(st, id, None).reply.Ok?
    ensures var after := ToggleUserActivation(st, id, None).store;
            if st.users[id].isActive then UserCount(after, IsActive) + 1 == UserCount(st, IsActive)
            else UserCount(after, IsActive) == UserCount(st, IsActive) + 1
  {
    var after := ToggleUserActivation(st, id, None).store;
    UserCountAfterReplace(st, after.users[id], IsActive);
  }

  /** Task details: `new { Id, Title, Description, DueDate, Status, Priority }`. */
  datatype TaskDetails = TaskDetails(id: Int32, title: string, description: Option<string>,
                                     dueDate: Option<DateTime>, status: string, priority: string)

  function DetailsOf(t: UserTask): TaskDetails {
    TaskDetails(t.id, t.title, t.description, t.dueDate, t.status, t.priority)
  }

  /** `GET api/admin-dashboard/tasks/{id}`: any user's task. */
  function GetTaskById(st: Store, id: Int32, fault: Option<string>): (r: Step<TaskDetails>)
    ensures r.store == st
    ensures fault.Some? ==> r.reply == ServerFault(TaskError, fault.value)
    ensures fault.None? && id !in st.tasks ==> r.reply == Refuse(NotFound, TaskNotFound)
    ensures r.reply.Ok? <==> fault.None? && id in st.tasks
    ensures r.reply.Ok? ==> r.reply.value == DetailsOf(st.tasks[id]) && r.reply.value.id == id
  {
    if fault.Some? then Step(ServerFault(TaskError, fault.value), st)
    else if id !in st.tasks then Step(Refuse(NotFound, TaskNotFound), st)
    else Step(Ok(DetailsOf(st.tasks[id])), st)
  }

  /** `DELETE api/admin-dashboard/delete-task/{id}`: any user's task. */
  function DeleteTask(st: Store, id: Int32, fault: Option<string>): (r: Step<string>)
    ensures !r.reply.Ok? ==> r.store == st
    ensures fault.Some? ==> r.reply == ServerFault(DeleteError, fault.value)
    ensures fault.None? && id !in st.tasks ==> r.reply == Refuse(NotFound, TaskNotFound)
    ensures r.reply.Ok? <==> fault.None? && id in st.tasks
    ensures r.reply.Ok? ==> r.reply.value == TaskDeleted
    ensures r.reply.Ok? ==> r.store.users == st.users && r.store.tasks.Keys == st.tasks.Keys - {id}
    ensures r.reply.Ok? ==> forall k :: k in r.store.tasks ==> r.store.tasks[k] == st.tasks[k]
  {
    if fault.Some? then Step(ServerFault(DeleteError, fault.value), st)
    else if id !in st.tasks then Step(Refuse(NotFound, TaskNotFound), st)
    else Step(Ok(TaskDeleted), RemoveTask(st, id))
  }

  /** After a delete the task's details are gone. */
  lemma DeleteThenGet(st: Store, id: Int32)
    requires DeleteTask(st, id, None).reply.Ok?
    ensures GetTaskById(DeleteTask(st, id, None).store, id, None).reply == Refuse(NotFound, TaskNotFound)
  {
  }

  /** The owner a new task may be given: an active account that is not an administrator. */
  predicate Assignable(st: Store, userId: Int32) {
    userId in st.users && Listed(st.users[userId])
  }

  /**
   * `POST api/admin-dashboard/create-task`. `valid` is whether model
   * binding accepted the body; `[ApiController]` answers 400 before the
   * action runs otherwise. The task is owned by the payload's `UserId`.
   * A payload missing a required field makes the save throw.
   */
  function CreateTask(st: Store, model: CreateTaskDto, valid: bool, fault: Option<string>): (r: Step<string>)
    ensures !r.reply.Ok? ==> r.store == st
    ensures !valid ==> r.reply == Refuse(BadRequest, ValidationTitle)
    ensures valid && fault.Some? ==> r.reply == ServerFault(CreateError, fault.value)
    ensures valid && fault.None? && !Assignable(st, model.userId) ==> r.reply == Refuse(BadRequest, InvalidUser)
    ensures valid && fault.None? && Assignable(st, model.userId) && !Storable(model) ==>
              r.reply == ServerFault(CreateError, SaveFailed)
    ensures r.reply.Ok? <==> valid && fault.None? && Assignable(st, model.userId) && Storable(model)
                             && NextId(st.tasks.Keys).Some?
    ensures r.reply.Ok? ==> r.reply.value == TaskCreated
    ensures r.reply.Ok? ==> exists k :: k !in st.tasks && r.store == PutTask(st, FromDto(model, k, model.userId))
  {
    if !valid then Step(Refuse(BadRequest, ValidationTitle), st)
    else if fault.Some? then Step(ServerFault(CreateError, fault.value), st)
    else if !Assignable(st, model.userId) then Step(Refuse(BadRequest, InvalidUser), st)
    else if !Storable(model) then Step(ServerFault(CreateError, SaveFailed), st)
    else
      match NextId(st.tasks.Keys)
      case None => Step(ServerFault(CreateError, ""), st)
      case Some(k) => Step(Ok(TaskCreated), PutTask(st, FromDto(model, k, model.userId)))
  }

  /**
   * The accounts a task can be created for are exactly the accounts the
   * user list shows.
   */
  lemma AssignableIffListed(st: Store, userId: Int32)
    ensures var v := GetAllUsers(st, None).reply.value;
            Assignable(st, userId) <==> exists i :: 0 <= i < |v| && v[i].id == userId
  {
    var v := GetAllUsers(st, None).reply.value;
    if Assignable(st, userId) {
      var i :| 0 <= i < |v| && v[i] == ListItem(st.users[userId]);
    }
  }

  /**
   * A created task adds one to the summary count of its status and nothing
   * to the others.
   */
  lemma CreateCountsOnce(st: Store, model: CreateTaskDto, s: string)
    requires CreateTask(st, model, true, None).reply.Ok?
    ensures var after := CreateTask(st, model, true, None).store;
            TaskCount(after, StatusIs(s)) == TaskCount(st, StatusIs(s)) + (if model.status == Some(s) then 1 else 0)
  {
    var after := CreateTask(st, model, true, None).store;
    var k :| k !in st.tasks && after == PutTask(st, FromDto(model, k, model.userId));
    CountAfterInsert(st, FromDto(model, k, model.userId), StatusIs(s));
  }
}

=== FILE: admin_tasks.dfy ===
/**
 * `AdminTasksController` (behind `[Authorize(Roles = "Admin")]`): an
 * administrator reads, edits, lists and deletes any user's task. Every
 * action catches its exceptions and answers 500 with a fixed message and
 * the exception text.
 */
module AdminTasks {
  import opened Base
  import opened Seqs
  import opened Models
  import opened Http
  import opened Claims
  import Tasks
  import AdminDashboard

  const NotFoundOrUnauthorized: string := "Task not found or unauthorized"
  const Unassigned: string := "Unassigned"
  const TaskError: string := "Error retrieving task"
  const UpdateError: string := "Error updating task"
  const TasksError: string := "Error retrieving tasks"
  const TaskUpdated: string := "Task updated successfully by admin!"

  /** A task with the name of the account it is assigned to. */
  datatype AssignedTask = AssignedTask(id: Int32, title: string, description: Option<string>,
                                       dueDate: Option<DateTime>, status: string, priority: string,
                                       assignedTo: string)

  /** `task.User?.FullName ?? "Unassigned"`. */
  function AssigneeName(st: Store, t: UserTask): (name: string)
    ensures t.userId in st.users && st.users[t.userId].fullName.Some? ==> name == st.users[t.userId].fullName.value
    ensures t.userId !in st.users ==> name == Unassigned
    ensures t.userId in st.users && st.users[t.userId].fullName.None? ==> name == Unassigned
  {
    match Owner(st, t)
    case Some(u) => u.fullName.GetOr(Unassigned)
    case None => Unassigned
  }

  function AssignedOf(st: Store, t: UserTask): AssignedTask {
    AssignedTask(t.id, t.title, t.description, t.dueDate, t.status, t.priority, AssigneeName(st, t))
  }

  /** `GET api/admin/tasks/{id}`. */
  function GetTaskById(st: Store, id: Int32, fault: Option<string>): (r: Step<AssignedTask>)
    ensures r.store == st
    ensures fault.Some? ==> r.reply == ServerFault(TaskError, fault.value)
    ensures fault.None? && id !in st.tasks ==> r.reply == Refuse(NotFound, NotFoundOrUnauthorized)
    ensures r.reply.Ok? <==> fault.None? && id in st.tasks
    ensures r.reply.Ok? ==> r.reply.value == AssignedOf(st, st.tasks[id]) && r.reply.value.id == id
  {
    if fault.Some? then Step(ServerFault(TaskError, fault.value), st)
    else if id !in st.tasks then Step(Refuse(NotFound, NotFoundOrUnauthorized), st)
    else Step(Ok(AssignedOf(st, st.tasks[id])), st)
  }

  /** The task echoed back by an update, with its owner's key. */
  datatype UpdatedTask = UpdatedTask(id: Int32, title: string, description: Option<string>,
                                     dueDate: Option<DateTime>, status: string, priority: string,
                                     userId: Int32)

  datatype UpdateResult = UpdateResult(message: string, task: UpdatedTask)

  function UpdatedOf(t: UserTask): UpdatedTask {
    UpdatedTask(t.id, t.title, t.description, t.dueDate, t.status, t.priority, t.userId)
  }

  /**
   * `PUT api/admin/tasks/{id}`. `valid` is whether model binding accepted
   * the body; `[ApiController]` answers 400 before the action runs
   * otherwise, so the action's own `ModelState` check never fires. The
   * owner is kept whatever `UserId` the payload names. A payload missing a
   * required field makes the save throw, and nothing is written.
   */
  function UpdateTaskByAdmin(st: Store, id: Int32, dto: CreateTaskDto, valid: bool, fault: Option<string>): (r: Step<UpdateResult>)
    ensures !r.reply.Ok? ==> r.store == st
    ensures !valid ==> r.reply == Refuse(BadRequest, ValidationTitle)
    ensures valid && fault.Some? ==> r.reply == ServerFault(UpdateError, fault.value)
    ensures valid && fault.None? && id !in st.tasks ==> r.reply == Refuse(NotFound, NotFoundOrUnauthorized)
    ensures valid && fault.None? && id in st.tasks && !Storable(dto) ==> r.reply == ServerFault(UpdateError, SaveFailed)
    ensures r.reply.Ok? <==> valid && fault.None? && id in st.tasks && Storable(dto)
    ensures r.reply.Ok? ==> r.store == PutTask(st, WithDto(st.tasks[id], dto))
    ensures r.reply.Ok? ==> r.reply.value.message == TaskUpdated && r.reply.value.task == UpdatedOf(r.store.tasks[id])
    ensures r.reply.Ok? ==> r.reply.value.task.userId == st.tasks[id].userId
  {
    if !valid then Step(Refuse(BadRequest, ValidationTitle), st)
    else if fault.Some? then Step(ServerFault(UpdateError, fault.value), st)
    else if id !in st.tasks then Step(Refuse(NotFound, NotFoundOrUnauthorized), st)
    else if !Storable(dto) then Step(ServerFault(UpdateError, SaveFailed), st)
    else
      var t := WithDto(st.tasks[id], dto);
      Step(Ok(UpdateResult(TaskUpdated, UpdatedOf(t))), PutTask(st, t))
  }

  /** An entry of the task list: `AssignedTo = t.User.FullName`, null when there is no owner. */
  datatype TaskListing = TaskListing(id: Int32, title: string, description: Option<string>,
                                     dueDate: Option<DateTime>, status: string, priority: string,
                                     assignedTo: Option<string>)

  function ListingOf(st: Store, t: UserTask): (e: TaskListing)
    ensures e.id == t.id
    ensures t.userId in st.users ==> e.assignedTo == st.users[t.userId].fullName
    ensures t.userId !in st.users ==> e.assignedTo == None
  {
    var name := match Owner(st, t)
      case Some(u) => u.fullName
      case None => None;
    TaskListing(t.id, t.title, t.description, t.dueDate, t.status, t.priority, name)
  }

  /** `v` lists every stored task once, with its assignee, in table order. */
  predicate ListsAllTasks(st: Store, v: seq<TaskListing>) {
    && |v| == |st.tasks|
    && (forall i :: 0 <= i < |v| ==> v[i].id in st.tasks && v[i] == ListingOf(st, st.tasks[v[i].id]))
    && (forall k :: k in st.tasks ==> ListingOf(st, st.tasks[k]) in v)
    && (forall i, j :: 0 <= i < j < |v| ==> v[i].id < v[j].id)
  }

  /** `GET api/admin/tasks`. */
  function GetAllTasks(st: Store, fault: Option<string>): (r: Step<seq<TaskListing>>)
    ensures r.store == st
    ensures fault.Some? ==> r.reply == ServerFault(TasksError, fault.value)
    ensures r.reply.Ok? <==> fault.None?
    ensures r.reply.Ok? ==> ListsAllTasks(st, r.reply.value)
  {
    if fault.Some? then Step(ServerFault(TasksError, fault.value), st)
    else
      AllTasksFacts(st);
      Step(Ok(MapSeq(TasksInOrder(st), (t: UserTask) => ListingOf(st, t))), st)
  }

  lemma AllTasksFacts(st: Store)
    ensures ListsAllTasks(st, MapSeq(TasksInOrder(st), (t: UserTask) => ListingOf(st, t)))
  {
    ListingsOfRows(st, TasksInOrder(st));
  }

  /** Listing the tasks in ascending id order gives the task list. */
  lemma ListingsOfRows(st: Store, rows: seq<UserTask>)
    requires |rows| == |st.tasks|
    requires forall i :: 0 <= i < |rows| ==> rows[i].id in st.tasks && st.tasks[rows[i].id] == rows[i]
    requires forall k :: k in st.tasks ==> st.tasks[k] in rows
    requires forall i, j :: 0 <= i < j < |rows| ==> rows[i].id < rows[j].id
    ensures ListsAllTasks(st, MapSeq(rows, (t: UserTask) => ListingOf(st, t)))
  {
    var v := MapSeq(rows, (t: UserTask) => ListingOf(st, t));
    forall k | k in st.tasks
      ensures ListingOf(st, st.tasks[k]) in v
    {
      var j :| 0 <= j < |rows| && rows[j] == st.tasks[k];
      assert v[j] == ListingOf(st, st.tasks[k]);
    }
  }

  /** `DELETE api/admin/tasks/{id}`: any user's task, with the messages of `AdminDashboard.DeleteTask`. */
  function DeleteTask(st: Store, id: Int32, fault: Option<string>): (r: Step<string>)
    ensures !r.reply.Ok? ==> r.store == st
    ensures fault.Some? ==> r.reply == ServerFault(AdminDashboard.DeleteError, fault.value)
    ensures fault.None? && id !in st.tasks ==> r.reply == Refuse(NotFound, AdminDashboard.TaskNotFound)
    ensures r.reply.Ok? <==> fault.None? && id in st.tasks
    ensures r.reply.Ok? ==> r.reply.value == AdminDashboard.TaskDeleted
    ensures r.reply.Ok? ==> r.store.users == st.users && r.store.tasks.Keys == st.tasks.Keys - {id}
    ensures r.reply.Ok? ==> forall k :: k in r.store.tasks ==> r.store.tasks[k] == st.tasks[k]
  {
    if fault.Some? then Step(ServerFault(AdminDashboard.DeleteError, fault.value), st)
    else if id !in st.tasks then Step(Refuse(NotFound, AdminDashboard.TaskNotFound), st)
    else Step(Ok(AdminDashboard.TaskDeleted), RemoveTask(st, id))
  }

  /** An update never moves a task to another owner, and a read after it shows the payload. */
  lemma UpdateThenGet(st: Store, id: Int32, dto: CreateTaskDto)
    requires UpdateTaskByAdmin(st, id, dto, true, None).reply.Ok?
    ensures var after := UpdateTaskByAdmin(st, id, dto, true, None).store;
            var got := GetTaskById(after, id, None).reply;
            && after.tasks[id].userId == st.tasks[id].userId
            && got.Ok?
            && Some(got.value.title) == dto.title && got.value.description == dto.description
            && got.value.dueDate == Some(dto.dueDate) && Some(got.value.status) == dto.status
            && Some(got.value.priority) == dto.priority
            && got.value.assignedTo == AssigneeName(st, st.tasks[id])
  {
  }

  /** The list shows exactly the tasks a lookup by id finds. */
  lemma ListedIffFound(st: Store, id: Int32)
    ensures var v := GetAllTasks(st, None).reply.value;
            (exists i :: 0 <= i < |v| && v[i].id == id) <==> GetTaskById(st, id, None).reply.Ok?
  {
    var v := GetAllTasks(st, None).reply.value;
    if id in st.tasks {
      var i :| 0 <= i < |v| && v[i] == ListingOf(st, st.tasks[id]);
    }
  }

  /**
   * Whenever an owner's delete of their own task succeeds, an
   * administrator's delete of the same key succeeds too and leaves the same
   * store.
   */
  lemma OwnerDeleteIsAdminDelete(claims: seq<Claim>, st: Store, id: Int32)
    requires Tasks.DeleteTask(claims, st, id, None).reply.Ok?
    ensures DeleteTask(st, id, None).reply.Ok?
    ensures DeleteTask(st, id, None).store == Tasks.DeleteTask(claims, st, id, None).store
  {
  }

  /** The two administrator delete endpoints answer alike and leave the same store. */
  lemma AdminDeletesAgree(st: Store, id: Int32, fault: Option<string>)
    ensures DeleteTask(st, id, fault).reply == AdminDashboard.DeleteTask(st, id, fault).reply
    ensures DeleteTask(st, id, fault).store == AdminDashboard.DeleteTask(st, id, fault).store
  {
  }
}

=== FILE: ascii.dfy ===
/**
 * ASCII text operations: `toLowerCase` / `ToLower`, `String.includes`,
 * and the ordinal case-insensitive comparison .NET uses for claim types
 * and react-router uses for path segments. Characters outside 'A'..'Z'
 * are left alone (no Unicode case mapping).
 */
module Ascii {
  import opened Seqs

  predicate IsUpper(c: char) {
    'A' <= c <= 'Z'
  }

  predicate IsLower(c: char) {
    'a' <= c <= 'z'
  }

  function LowerChar(c: char): (r: char)
    ensures IsUpper(c) ==> IsLower(r) && r as int - c as int == 32
    ensures !IsUpper(c) ==> r == c
    ensures !IsUpper(r)
  {
    if IsUpper(c) then (c as int + 32) as char else c
  }

  /** `toLowerCase()` restricted to ASCII letters. */
  function ToLower(s: string): (r: string)
    ensures |r| == |s|
    ensures forall i :: 0 <= i < |s| ==> r[i] == LowerChar(s[i])
  {
    MapSeq(s, LowerChar)
  }

  lemma ToLowerAppend(a: string, b: string)
    ensures ToLower(a + b) == ToLower(a) + ToLower(b)
  {
  }

  /** Lower-casing twice is lower-casing once. */
  lemma ToLowerIdempotent(s: string)
    ensures ToLower(ToLower(s)) == ToLower(s)
  {
  }

  /** `t` occurs in `s` starting at position `i`. */
  predicate OccursAt(s: string, t: string, i: int) {
    0 <= i <= |s| - |t| && s[i..i + |t|] == t
  }

  /** `s.includes(t)`: `t` occurs in `s` at some position. */
  predicate Includes(s: string, t: string) {
    exists i | 0 <= i <= |s| - |t| :: OccursAt(s, t, i)
  }

  /** The empty string occurs in every string. */
  lemma IncludesEmpty(s: string)
    ensures Includes(s, "")
  {
    assert OccursAt(s, "", 0);
  }

  /** Ordinal comparison ignoring ASCII case (`StringComparison.OrdinalIgnoreCase`). */
  predicate EqualsIgnoreCase(a: string, b: string) {
    ToLower(a) == ToLower(b)
  }
}

=== FILE: auth.dfy ===
/**
 * `AuthController`: signup stores the submitted account with its password
 * replaced by the SHA-256 digest in lowercase hex; login looks the account
 * up by email and digest, stamps `LastLogin`, and answers with a login
 * token. Neither action catches a store fault, so a fault escapes as an
 * unhandled exception (500 from the host).
 */
module Auth {
  import opened Base
  import opened Seqs
  import opened Models
  import opened Claims
  import opened Digest
  import opened Tokens
  import opened Http

  const EmailExists: string := "Email already exists"
  const SignupSuccessful: string := "Signup successful"
  const InvalidCredentials: string := "Invalid email or password"

  /** Some stored account has exactly this email (ordinal comparison). */
  predicate EmailTaken(st: Store, email: string) {
    exists k :: k in st.users && st.users[k].email == email
  }

  /** No two stored accounts share an email. */
  predicate EmailsDistinct(st: Store) {
    forall a, b :: a in st.users && b in st.users && a != b ==> st.users[a].email != st.users[b].email
  }

  /** An account with this email whose stored hash is this digest. */
  predicate Matches(u: User, email: string, digest: string) {
    u.email == email && u.passwordHash == digest
  }

  predicate HasAccount(st: Store, email: string, digest: string) {
    exists k :: k in st.users && Matches(st.users[k], email, digest)
  }

  /** The row signup writes for `newUser` under key `id`: the password replaced by its digest. */
  function Registered(newUser: User, id: Int32, sha: seq<byte> -> Digest32): (u: User)
    ensures u.id == id && u.email == newUser.email
    ensures u.passwordHash == ComputeSha256Hash(sha, newUser.passwordHash)
    ensures HexDecode(u.passwordHash) == sha(Utf8(newUser.passwordHash))
    ensures u.role == newUser.role && u.isActive == newUser.isActive && u.fullName == newUser.fullName
    ensures u.createdAt == newUser.createdAt && u.lastLogin == newUser.lastLogin
  {
    newUser.(id := id, passwordHash := ComputeSha256Hash(sha, newUser.passwordHash))
  }

  /**
   * The key the insert ends up with: a generated one for `Id = 0`, the
   * submitted one otherwise; `None` when the insert throws (the submitted
   * key is taken, or no key is left).
   */
  function InsertKey(st: Store, newUser: User): (r: Option<Int32>)
    ensures r.Some? ==> r.value !in st.users
    ensures newUser.id != 0 ==> (r.Some? <==> newUser.id !in st.users)
    ensures newUser.id != 0 && r.Some? ==> r.value == newUser.id
  {
    if newUser.id == 0 then NextId(st.users.Keys)
    else if newUser.id in st.users then None
    else Some(newUser.id)
  }

  /**
   * `POST api/auth/signup` with the bound `User` body. `valid` is whether
   * the body passed model validation (`[Required]` email and password
   * hash, a well-formed email); when it did not, the controller's API
   * behaviour answers 400 before the action runs. `fault` is a store failure.
   */
  function Signup(st: Store, newUser: User, sha: seq<byte> -> Digest32, valid: bool, fault: Option<string>): (r: Step<string>)
    ensures !valid ==> r == Step(Refuse(BadRequest, ValidationTitle), st)
    ensures !r.reply.Ok? ==> r.store == st
    ensures valid && fault.Some? ==> r.reply.Unhandled?
    ensures valid && fault.None? && EmailTaken(st, newUser.email) ==> r.reply == Refuse(BadRequest, EmailExists)
    ensures r.reply.Fail? ==> r.reply == Refuse(BadRequest, EmailExists) || r.reply == Refuse(BadRequest, ValidationTitle)
    ensures r.reply.Ok? ==> valid && fault.None? && !EmailTaken(st, newUser.email)
    ensures valid && fault.None? && !EmailTaken(st, newUser.email) && newUser.id != 0 ==>
              (r.reply.Ok? <==> newUser.id !in st.users)
    ensures r.reply.Ok? ==> r.reply.value == SignupSuccessful
    ensures r.reply.Ok? ==> r.store.tasks == st.tasks
    ensures r.reply.Ok? ==> exists k :: k !in st.users && r.store.users == st.users[k := Registered(newUser, k, sha)]
  {
    if !valid then Step(Refuse(BadRequest, ValidationTitle), st)
    else if fault.Some? then Step(Unhandled, st)
    else if EmailTaken(st, newUser.email) then Step(Refuse(BadRequest, EmailExists), st)
    else
      match InsertKey(st, newUser)
      case None => Step(Unhandled, st)
      case Some(k) => Step(Ok(SignupSuccessful), PutUser(st, Registered(newUser, k, sha)))
  }

  /** The body of a successful login. */
  datatype LoginResult = LoginResult(token: Jwt, role: string, fullName: Option<string>)

  /**
   * `FirstOrDefaultAsync` over the users table: the first account in table
   * order with this email and stored digest.
   */
  function FindAccount(st: Store, email: string, digest: string): (r: Option<User>)
    ensures r.Some? <==> HasAccount(st, email, digest)
    ensures r.Some? ==> r.value.id in st.users && st.users[r.value.id] == r.value
    ensures r.Some? ==> Matches(r.value, email, digest)
  {
    var rows := UsersInOrder(st);
    var found := FirstMatch(rows, u => Matches(u, email, digest));
    if found.Some? then
      assert exists i :: 0 <= i < |rows| && rows[i] == found.value;
      found
    else
      None
  }

  /** `after` is `before` with account `k`'s `LastLogin` set to `now`, and nothing else changed. */
  predicate Stamped(before: Store, after: Store, k: Int32, now: DateTime)
    requires k in before.users
  {
    after == PutUser(before, before.users[k].(lastLogin := Some(now)))
  }

  /** A login reply for account `u` at time `now`: its role, name, and a two-hour token naming its key. */
  predicate Answers(res: LoginResult, u: User, now: DateTime) {
    && res.role == u.role
    && res.fullName == u.fullName
    && GetCurrentUserId(res.token.claims) == Some(u.id)
    && res.token.expires == AddHours(now, LoginTokenHours)
  }

  /**
   * `POST api/auth/login` at time `now`. `valid` is whether the body bound
   * and passed model validation; when it did not, the answer is the
   * automatic 400. The first account in table order whose email and
   * stored digest match succeeds; `IsActive` is not read.
   */
  function Login(st: Store, req: LoginRequest, sha: seq<byte> -> Digest32, config: Config,
                 now: DateTime, valid: bool, fault: Option<string>): (r: Step<LoginResult>)
    ensures !valid ==> r == Step(Refuse(BadRequest, ValidationTitle), st)
    ensures valid && fault.Some? ==> r.reply.Unhandled? && r.store == st
    ensures var digest := ComputeSha256Hash(sha, req.passwordHash);
            r.reply.Ok? <==> valid && fault.None? && SigningKey(config).Some? && HasAccount(st, req.email, digest)
    ensures var digest := ComputeSha256Hash(sha, req.passwordHash);
            valid ==> (r.reply.Fail? <==> fault.None? && !HasAccount(st, req.email, digest))
    ensures valid && r.reply.Fail? ==> r.reply == Refuse(Unauthorized, InvalidCredentials) && r.store == st
    ensures var found := FindAccount(st, req.email, ComputeSha256Hash(sha, req.passwordHash));
            valid && fault.None? && found.Some? ==>
              Stamped(st, r.store, found.value.id, now) && (r.reply.Ok? ==> Answers(r.reply.value, found.value, now))
  {
    var digest := ComputeSha256Hash(sha, req.passwordHash);
    if !valid then Step(Refuse(BadRequest, ValidationTitle), st)
    else if fault.Some? then Step(Unhandled, st)
    else
      match FindAccount(st, req.email, digest)
      case None => Step(Refuse(Unauthorized, InvalidCredentials), st)
      case Some(found) =>
        var stamped := found.(lastLogin := Some(now));
        var st' := PutUser(st, stamped);
        assert Stamped(st, st', found.id, now);
        match GenerateJwtToken(config, stamped, now)
        case None => Step(Unhandled, st')
        case Some(token) =>
          var res := LoginResult(token, stamped.role, stamped.fullName);
          assert Answers(res, found, now);
          Step(Ok(res), st')
  }

  /** If no two accounts share an email before a signup, none do after it. */
  lemma SignupKeepsEmailsDistinct(st: Store, newUser: User, sha: seq<byte> -> Digest32, valid: bool, fault: Option<string>)
    requires EmailsDistinct(st)
    ensures EmailsDistinct(Signup(st, newUser, sha, valid, fault).store)
  {
    var r := Signup(st, newUser, sha, valid, fault);
    if r.reply.Ok? {
      SignupWrites(st, newUser, sha);
      var k := InsertKey(st, newUser).value;
      var users := r.store.users;
      forall a, b | a in users && b in users && a != b
        ensures users[a].email != users[b].email
      {
        if a == k {
          assert users[b] == st.users[b];
        } else if b == k {
          assert users[a] == st.users[a];
        }
      }
    }
  }

  /**
   * Whether a login succeeds does not depend on the account's activation
   * flag: a deactivated account logs in exactly as an active one does.
   */
  lemma LoginIgnoresActivation(st: Store, k: Int32, active: bool, req: LoginRequest,
                               sha: seq<byte> -> Digest32, config: Config, now: DateTime, valid: bool, fault: Option<string>)
    requires k in st.users
    ensures Login(PutUser(st, st.users[k].(isActive := active)), req, sha, config, now, valid, fault).reply.Ok?
        <==> Login(st, req, sha, config, now, valid, fault).reply.Ok?
  {
    var st' := PutUser(st, st.users[k].(isActive := active));
    var digest := ComputeSha256Hash(sha, req.passwordHash);
    assert st'.users.Keys == st.users.Keys;
    assert forall j :: j in st.users ==> (Matches(st'.users[j], req.email, digest) <==> Matches(st.users[j], req.email, digest));
    assert HasAccount(st', req.email, digest) <==> HasAccount(st, req.email, digest);
  }

  /**
   * A fresh signup can log in straight away with the same email and
   * password: the digest is recomputed identically and no other account
   * carries that email. The token names the new account's key.
   */
  lemma SignupThenLogin(st: Store, newUser: User, sha: seq<byte> -> Digest32, config: Config, now: DateTime)
    requires Signup(st, newUser, sha, true, None).reply.Ok?
    requires SigningKey(config).Some?
    ensures var st1 := Signup(st, newUser, sha, true, None).store;
            var r := Login(st1, LoginRequest(newUser.email, newUser.passwordHash), sha, config, now, true, None);
            r.reply.Ok? && r.reply.value.role == newUser.role
            && exists k :: k in st1.users && k !in st.users && GetCurrentUserId(r.reply.value.token.claims) == Some(k)
  {
    var st1 := Signup(st, newUser, sha, true, None).store;
    var req := LoginRequest(newUser.email, newUser.passwordHash);
    var digest := ComputeSha256Hash(sha, req.passwordHash);
    var k := InsertKey(st, newUser).value;
    SignupWrites(st, newUser, sha);
    OnlyAccountFound(st1, k, req.email, digest);
    var r := Login(st1, req, sha, config, now, true, None);
    assert Answers(r.reply.value, st1.users[k], now);
  }

  /** A successful signup writes exactly the registered row under the key the insert gets. */
  lemma SignupWrites(st: Store, newUser: User, sha: seq<byte> -> Digest32)
    requires Signup(st, newUser, sha, true, None).reply.Ok?
    ensures InsertKey(st, newUser).Some? && !EmailTaken(st, newUser.email)
    ensures var k := InsertKey(st, newUser).value;
            Signup(st, newUser, sha, true, None).store == PutUser(st, Registered(newUser, k, sha))
  {
  }

  /** When one account alone carries an email, the lookup finds it, given its digest. */
  lemma OnlyAccountFound(st: Store, k: Int32, email: string, digest: string)
    requires k in st.users && Matches(st.users[k], email, digest)
    requires forall j :: j in st.users && j != k ==> st.users[j].email != email
    ensures FindAccount(st, email, digest) == Some(st.users[k])
  {
    assert HasAccount(st, email, digest);
  }

  /** An unknown email and a wrong password are answered identically, and neither writes. */
  lemma FailedLoginsLookAlike(st: Store, a: LoginRequest, b: LoginRequest, sha: seq<byte> -> Digest32,
                              config: Config, now: DateTime)
    requires Login(st, a, sha, config, now, true, None).reply.Fail?
    requires Login(st, b, sha, config, now, true, None).reply.Fail?
    ensures Login(st, a, sha, config, now, true, None) == Login(st, b, sha, config, now, true, None)
  {
  }
}

=== FILE: base.dfy ===
/**
 * Shared value types of the task-management backend: the optional value
 * that stands in for C# `null`, the 32-bit integer of every key and id,
 * and `DateTime` as a count of 100-nanosecond ticks.
 */
module Base {

  /** A value that may be absent; `None` plays the part of C# `null`. */
  datatype Option<+T> = None | Some(value: T) {
    function GetOr(default: T): T {
      match this
      case Some(v) => v
      case None => default
    }
  }

  const Int32Min: int := -0x8000_0000
  const Int32Max: int := 0x7FFF_FFFF

  /** The C# `int`: every entity key and every id claim is one of these. */
  type Int32 = x: int | Int32Min <= x <= Int32Max

  predicate IsInt32(x: int) {
    Int32Min <= x <= Int32Max
  }

  /** `DateTime` as ticks (100 ns) since 0001-01-01; only differences matter here. */
  type DateTime = nat

  const TicksPerSecond: nat := 10_000_000
  const TicksPerMinute: nat := 60 * TicksPerSecond
  const TicksPerHour: nat := 60 * TicksPerMinute
  const TicksPerDay: nat := 24 * TicksPerHour

  /** `DateTime.AddHours(h)` for a non-negative whole number of hours. */
  function AddHours(t: DateTime, h: nat): (r: DateTime)
    ensures r - t == h * 3600 * TicksPerSecond
  {
    t + h * TicksPerHour
  }

  /** `DateTime.AddDays(d)` for a non-negative whole number of days. */
  function AddDays(t: DateTime, d: nat): (r: DateTime)
    ensures r - t == d * 24 * 3600 * TicksPerSecond
  {
    t + d * TicksPerDay
  }
}

=== FILE: claims.dfy ===
/**
 * The identity a request carries: the claims of its authenticated
 * principal, in order, and the ways the controllers read them
 * (`BaseTaskController.GetCurrentUserId`, `FindFirstValue`, `IsInRole`).
 */
module Claims {
  import opened Base
  import opened Seqs
  import opened Ascii
  import opened Int32Text

  /** A `System.Security.Claims.Claim`: a type URI and a string value. */
  datatype Claim = Claim(claimType: string, value: string)

  /** `ClaimTypes.NameIdentifier`. */
  const NameIdentifierType: string := "http://schemas.xmlsoap.org/ws/2005/05/identity/claims/nameidentifier"
  /** `ClaimTypes.Name`. */
  const NameType: string := "http://schemas.xmlsoap.org/ws/2005/05/identity/claims/name"
  /** `ClaimTypes.Role`. */
  const RoleType: string := "http://schemas.microsoft.com/ws/2008/06/identity/claims/role"
  /** The short alternative id claim type accepted by `GetCurrentUserId`. */
  const IdType: string := "id"
  /** The id claim type `TokenService` writes. */
  const UserIdType: string := "UserId"

  /** A claim `GetCurrentUserId` will read the id from (exact, ordinal type comparison). */
  predicate IsIdClaim(c: Claim) {
    c.claimType == NameIdentifierType || c.claimType == IdType
  }

  /**
   * `GetCurrentUserId`: the first claim of type NameIdentifier or "id",
   * parsed with `int.TryParse`; later id claims are never consulted.
   */
  function GetCurrentUserId(claims: seq<Claim>): (r: Option<Int32>)
    ensures (forall i :: 0 <= i < |claims| ==> !IsIdClaim(claims[i])) ==> r == None
    ensures r.Some? ==> exists i :: 0 <= i < |claims| && IsIdClaim(claims[i])
                                && TryParseInt32(claims[i].value) == r
                                && forall j :: 0 <= j < i ==> !IsIdClaim(claims[j])
  {
    match FirstIndex(claims, IsIdClaim)
    case None => None
    case Some(i) => TryParseInt32(claims[i].value)
  }

  /** Only the first id claim counts: what follows it, parseable or not, is ignored. */
  lemma FirstIdClaimDecides(before: seq<Claim>, c: Claim, after: seq<Claim>)
    requires forall i :: 0 <= i < |before| ==> !IsIdClaim(before[i])
    requires IsIdClaim(c)
    ensures GetCurrentUserId(before + [c] + after) == TryParseInt32(c.value)
  {
    var claims := before + [c] + after;
    var k := FirstIndex(claims, IsIdClaim);
    assert claims[|before|] == c;
    assert k.Some?;
    assert k.value == |before| by {
      assert forall j :: 0 <= j < |before| ==> claims[j] == before[j];
    }
  }

  /** A numeric NameIdentifier claim gives its number (the unit test's "42"). */
  lemma NumericIdClaim()
    ensures GetCurrentUserId([Claim(NameIdentifierType, "42")]) == Some(42)
  {
    ParseExamples();
    FirstIdClaimDecides([], Claim(NameIdentifierType, "42"), []);
  }

  /** The short "id" claim is read too, after claims of other types. */
  lemma ShortIdClaim()
    ensures GetCurrentUserId([Claim(RoleType, "User"), Claim(IdType, "7")]) == Some(7)
  {
    var before, c := [Claim(RoleType, "User")], Claim(IdType, "7");
    assert !IsIdClaim(before[0]) by {
      assert |RoleType| != |NameIdentifierType| && |RoleType| != |IdType|;
    }
    FirstIdClaimDecides(before, c, []);
    assert before + [c] + [] == [Claim(RoleType, "User"), Claim(IdType, "7")];
    assert TryParseInt32(c.value) == Some(7) by { SignExamples(); }
  }

  /** An unparseable first id claim shadows a good one after it. */
  lemma UnparseableIdClaimShadows()
    ensures GetCurrentUserId([Claim(NameIdentifierType, "x"), Claim(IdType, "7")]) == None
  {
    assert !AllDigits("x") by { assert !IsDigit("x"[0]); }
    FirstIdClaimDecides([], Claim(NameIdentifierType, "x"), [Claim(IdType, "7")]);
  }

  /** Claim types are compared ignoring case by `FindFirst` and `HasClaim`. */
  predicate HasType(c: Claim, claimType: string) {
    EqualsIgnoreCase(c.claimType, claimType)
  }

  /** `ClaimsPrincipal.FindFirstValue(type)`: the value of the first claim of that type. */
  function FindFirstValue(claims: seq<Claim>, claimType: string): (r: Option<string>)
    ensures r.None? <==> forall i :: 0 <= i < |claims| ==> !HasType(claims[i], claimType)
    ensures r.Some? ==> exists i :: 0 <= i < |claims| && HasType(claims[i], claimType)
                                && claims[i].value == r.value
                                && forall j :: 0 <= j < i ==> !HasType(claims[j], claimType)
  {
    match FirstIndex(claims, c => HasType(c, claimType))
    case None => None
    case Some(i) => Some(claims[i].value)
  }

  /** `ClaimsPrincipal.IsInRole(role)`: some role claim carries exactly that value. */
  predicate IsInRole(claims: seq<Claim>, role: string) {
    exists i :: 0 <= i < |claims| && HasType(claims[i], RoleType) && claims[i].value == role
  }
}

=== FILE: counting.dfy ===
/**
 * `CountAsync(p)` over a table: the number of rows satisfying `p`, taken
 * as the size of the set of their keys, and how that number moves when a
 * row is added, replaced or removed.
 */
module Counting {
  import opened Base
  import opened Models

  /** `UserTasks.CountAsync(p)`. */
  function TaskCount(st: Store, p: UserTask -> bool): nat {
    |KeysWhere(st.tasks, p)|
  }

  /** `Users.CountAsync(p)`. */
  function UserCount(st: Store, p: User -> bool): nat {
    |KeysWhere(st.users, p)|
  }

  /** `t => t.Status == s`. */
  function StatusIs(s: string): (p: UserTask -> bool)
    ensures forall t :: p(t) <==> t.status == s
  {
    (t: UserTask) => t.status == s
  }

  /** `t => t.UserId == uid && t.Status == s`. */
  function OwnStatusIs(uid: Int32, s: string): (p: UserTask -> bool)
    ensures forall t :: p(t) <==> t.userId == uid && t.status == s
  {
    (t: UserTask) => t.userId == uid && t.status == s
  }

  /** A subset is no larger than the set around it. */
  lemma SubsetSize<T>(a: set<T>, b: set<T>)
    requires a <= b
    ensures |a| <= |b|
  {
    assert b == a + (b - a);
    assert a * (b - a) == {};
  }

  /** Sizes of disjoint sets add up. */
  lemma DisjointSize<T>(a: set<T>, b: set<T>)
    requires a * b == {}
    ensures |a + b| == |a| + |b|
  {
    assert |a * b| == 0;
  }

  /** The selected keys other than `k`. */
  function KeysWhereBut<V>(m: map<Int32, V>, p: V -> bool, k: Int32): (ks: set<Int32>)
    ensures forall j :: j in ks <==> j != k && j in m && p(m[j])
  {
    KeysWhere(m, p) - {k}
  }

  /** What key `k` contributes to a count: one when it holds a row satisfying `p`. */
  function Share<V>(m: map<Int32, V>, p: V -> bool, k: Int32): (n: nat)
    ensures n <= 1
  {
    if k in m && p(m[k]) then 1 else 0
  }

  /** A count is the count of the other keys plus what `k` contributes. */
  lemma SplitAt<V>(m: map<Int32, V>, p: V -> bool, k: Int32)
    ensures |KeysWhere(m, p)| == |KeysWhereBut(m, p, k)| + Share(m, p, k)
  {
    var rest := KeysWhereBut(m, p, k);
    var own: set<Int32> := if k in m && p(m[k]) then {k} else {};
    assert KeysWhere(m, p) == rest + own;
    DisjointSize(rest, own);
  }

  /** Writing `v` under `k` leaves the other keys' selection alone. */
  lemma ButUpdate<V>(m: map<Int32, V>, p: V -> bool, k: Int32, v: V)
    ensures KeysWhereBut(m[k := v], p, k) == KeysWhereBut(m, p, k)
  {
    var a, b := KeysWhereBut(m[k := v], p, k), KeysWhereBut(m, p, k);
    forall j
      ensures j in a <==> j in b
    {
      if j != k && j in m {
        assert m[k := v][j] == m[j];
      }
    }
  }

  /** Removing `k` leaves the other keys' selection alone. */
  lemma ButRemove<V>(m: map<Int32, V>, p: V -> bool, k: Int32)
    ensures KeysWhereBut(m - {k}, p, k) == KeysWhereBut(m, p, k)
  {
    var a, b := KeysWhereBut(m - {k}, p, k), KeysWhereBut(m, p, k);
    forall j
      ensures j in a <==> j in b
    {
      if j != k && j in m {
        assert (m - {k})[j] == m[j];
      }
    }
  }

  /** Writing a row changes a count by what the new row contributes less what the old one did. */
  lemma CountAfterWrite<V>(m: map<Int32, V>, p: V -> bool, k: Int32, v: V)
    ensures |KeysWhere(m[k := v], p)| + Share(m, p, k) == |KeysWhere(m, p)| + (if p(v) then 1 else 0)
  {
    SplitAt(m[k := v], p, k);
    SplitAt(m, p, k);
    ButUpdate(m, p, k, v);
  }

  /** Removing a row takes away what it contributed to a count. */
  lemma CountAfterDrop<V>(m: map<Int32, V>, p: V -> bool, k: Int32)
    ensures |KeysWhere(m, p)| == |KeysWhere(m - {k}, p)| + Share(m, p, k)
  {
    SplitAt(m - {k}, p, k);
    SplitAt(m, p, k);
    ButRemove(m, p, k);
  }

  /** No count exceeds the number of rows. */
  lemma TaskCountBound(st: Store, p: UserTask -> bool)
    ensures TaskCount(st, p) <= |st.tasks|
  {
    SubsetSize(KeysWhere(st.tasks, p), st.tasks.Keys);
  }

  /** No count exceeds the number of rows. */
  lemma UserCountBound(st: Store, p: User -> bool)
    ensures UserCount(st, p) <= |st.users|
  {
    SubsetSize(KeysWhere(st.users, p), st.users.Keys);
  }

  /** Counts under three mutually exclusive conditions add up to at most the number of rows. */
  lemma ExclusiveCounts(st: Store, p: UserTask -> bool, q: UserTask -> bool, s: UserTask -> bool)
    requires forall t :: !(p(t) && q(t)) && !(p(t) && s(t)) && !(q(t) && s(t))
    ensures TaskCount(st, p) + TaskCount(st, q) + TaskCount(st, s) <= |st.tasks|
  {
    var a, b, c := KeysWhere(st.tasks, p), KeysWhere(st.tasks, q), KeysWhere(st.tasks, s);
    DisjointSize(a, b);
    DisjointSize(a + b, c);
    SubsetSize(a + b + c, st.tasks.Keys);
  }

  /**
   * Counts under three mutually exclusive conditions that each imply a
   * fourth add up to at most the count under the fourth.
   */
  lemma ExclusiveCountsWithin(st: Store, p: UserTask -> bool, q: UserTask -> bool, s: UserTask -> bool,
                              w: UserTask -> bool)
    requires forall t :: !(p(t) && q(t)) && !(p(t) && s(t)) && !(q(t) && s(t))
    requires forall t :: (p(t) ==> w(t)) && (q(t) ==> w(t)) && (s(t) ==> w(t))
    ensures TaskCount(st, p) + TaskCount(st, q) + TaskCount(st, s) <= TaskCount(st, w)
  {
    var a, b, c := KeysWhere(st.tasks, p), KeysWhere(st.tasks, q), KeysWhere(st.tasks, s);
    DisjointSize(a, b);
    DisjointSize(a + b, c);
    SubsetSize(a + b + c, KeysWhere(st.tasks, w));
  }

  /** Adding a task under a fresh key adds one to every count whose condition it meets, and nothing to the others. */
  lemma CountAfterInsert(st: Store, t: UserTask, p: UserTask -> bool)
    requires t.id !in st.tasks
    ensures TaskCount(PutTask(st, t), p) == TaskCount(st, p) + (if p(t) then 1 else 0)
  {
    CountAfterWrite(st.tasks, p, t.id, t);
  }

  /** Removing a stored task takes one from every count whose condition it meets, and nothing from the others. */
  lemma CountAfterRemove(st: Store, id: Int32, p: UserTask -> bool)
    requires id in st.tasks
    ensures TaskCount(st, p) == TaskCount(RemoveTask(st, id), p) + (if p(st.tasks[id]) then 1 else 0)
  {
    CountAfterDrop(st.tasks, p, id);
  }

  /**
   * Replacing a stored account changes every count by what the new row
   * contributes less what the old one did.
   */
  lemma UserCountAfterReplace(st: Store, u: User, p: User -> bool)
    requires u.id in st.users
    ensures UserCount(PutUser(st, u), p) + (if p(st.users[u.id]) then 1 else 0)
         == UserCount(st, p) + (if p(u) then 1 else 0)
  {
    CountAfterWrite(st.users, p, u.id, u);
  }
}

=== FILE: dashboard.dfy ===
/**
 * `BaseDashboardController` and `DashboardController` (behind
 * `[Authorize]`): the signed-in user's own dashboard, three task counts by
 * status and the account's name and email. The caller is found by the
 * email in the first `Name` claim, not by the id claim the task endpoints
 * read.
 */
module Dashboard {
  import opened Base
  import opened Seqs
  import opened Models
  import opened Claims
  import opened Tokens
  import opened Http
  import opened Counting
  import Auth
  import Tasks
  import AdminDashboard

  const InvalidUser: string := "Invalid or unauthorized user"
  const SummaryError: string := "An error occurred while fetching summary"

  /** `new { fullName, email }`. */
  datatype Person = Person(fullName: Option<string>, email: string)

  /** The anonymous summary object: counts of the user's tasks by status, and who the user is. */
  datatype Summary = Summary(completed: nat, inProgress: nat, pending: nat, user: Person)

  /**
   * `GetUserSummaryAsync(userId)`: `None` when no account has that key;
   * otherwise the counts of the account's own tasks in each of the three
   * statuses.
   */
  function GetUserSummary(st: Store, userId: Int32): (r: Option<Summary>)
    ensures r.Some? <==> userId in st.users
    ensures r.Some? ==> r.value.user == Person(st.users[userId].fullName, st.users[userId].email)
    ensures r.Some? ==> r.value.completed == TaskCount(st, OwnStatusIs(userId, StatusCompleted))
    ensures r.Some? ==> r.value.inProgress == TaskCount(st, OwnStatusIs(userId, StatusInProgress))
    ensures r.Some? ==> r.value.pending == TaskCount(st, OwnStatusIs(userId, StatusPending))
    ensures r.Some? ==> r.value.completed + r.value.inProgress + r.value.pending <= TaskCount(st, Tasks.OwnerIs(userId))
  {
    if userId !in st.users then None
    else
      var u := st.users[userId];
      var c, i, p := OwnStatusIs(userId, StatusCompleted), OwnStatusIs(userId, StatusInProgress),
                     OwnStatusIs(userId, StatusPending);
      assert |StatusCompleted| != |StatusInProgress| && |StatusCompleted| != |StatusPending|;
      assert |StatusInProgress| != |StatusPending|;
      ExclusiveCountsWithin(st, c, i, p, Tasks.OwnerIs(userId));
      Some(Summary(TaskCount(st, c), TaskCount(st, i), TaskCount(st, p), Person(u.fullName, u.email)))
  }

  /** `u => u.Email == email`. */
  function EmailIs(email: string): (p: User -> bool)
    ensures forall u :: p(u) <==> u.email == email
  {
    (u: User) => u.email == email
  }

  /** Account `k` carries `email` and no account with a smaller key does. */
  predicate FirstWithEmail(st: Store, email: string, k: Int32) {
    && k in st.users && st.users[k].email == email
    && forall j :: j in st.users && j < k ==> st.users[j].email != email
  }

  /**
   * `Users.FirstOrDefaultAsync(u => u.Email == email)`: the first account
   * in table order with exactly this email.
   */
  function FindByEmail(st: Store, email: string): (r: Option<User>)
    ensures r.Some? <==> Auth.EmailTaken(st, email)
    ensures r.Some? ==> FirstWithEmail(st, email, r.value.id) && st.users[r.value.id] == r.value
  {
    FindByEmailFacts(st, email);
    FirstMatch(UsersInOrder(st), EmailIs(email))
  }

  lemma FindByEmailFacts(st: Store, email: string)
    ensures var r := FirstMatch(UsersInOrder(st), EmailIs(email));
            && (r.Some? <==> Auth.EmailTaken(st, email))
            && (r.Some? ==> FirstWithEmail(st, email, r.value.id) && st.users[r.value.id] == r.value)
  {
    FirstOfRows(st, email, UsersInOrder(st));
  }

  /** Over the users in ascending key order, the first match is the account with the smallest key. */
  lemma FirstOfRows(st: Store, email: string, rows: seq<User>)
    requires forall i :: 0 <= i < |rows| ==> rows[i].id in st.users && st.users[rows[i].id] == rows[i]
    requires forall k :: k in st.users ==> st.users[k] in rows
    requires forall i, j :: 0 <= i < j < |rows| ==> rows[i].id < rows[j].id
    ensures var r := FirstMatch(rows, EmailIs(email));
            && (r.Some? <==> Auth.EmailTaken(st, email))
            && (r.Some? ==> FirstWithEmail(st, email, r.value.id) && st.users[r.value.id] == r.value)
  {
    var p := EmailIs(email);
    match FirstIndex(rows, p)
    case None =>
      forall k | k in st.users
        ensures st.users[k].email != email
      {
        var j :| 0 <= j < |rows| && rows[j] == st.users[k];
      }
    case Some(i) =>
      var u := rows[i];
      assert FirstMatch(rows, p) == Some(u);
      forall k | k in st.users && k < u.id
        ensures st.users[k].email != email
      {
        var j :| 0 <= j < |rows| && rows[j] == st.users[k];
        assert rows[j].id == k;
      }
  }

  /** `s` is the summary of the first account carrying `email`. */
  predicate SummaryFor(st: Store, email: string, s: Summary) {
    exists k :: FirstWithEmail(st, email, k) && GetUserSummary(st, k) == Some(s)
  }

  /** The email of the first `Name` claim, when there is one and it is not empty. */
  function NameClaim(claims: seq<Claim>): (r: Option<string>)
    ensures r.Some? <==> FindFirstValue(claims, NameType).Some? && FindFirstValue(claims, NameType).value != ""
    ensures r.Some? ==> r == FindFirstValue(claims, NameType)
  {
    match FindFirstValue(claims, NameType)
    case None => None
    case Some(email) => if email == "" then None else Some(email)
  }

  /**
   * `GetCurrentUserSummaryAsync()`: the summary of the first account whose
   * email is the `Name` claim; `None` without such a claim or account.
   */
  function GetCurrentUserSummary(claims: seq<Claim>, st: Store): (r: Option<Summary>)
    ensures r.Some? <==> NameClaim(claims).Some? && Auth.EmailTaken(st, NameClaim(claims).value)
    ensures r.Some? ==> SummaryFor(st, NameClaim(claims).value, r.value)
  {
    match NameClaim(claims)
    case None => None
    case Some(email) =>
      match FindByEmail(st, email)
      case None => None
      case Some(u) => GetUserSummary(st, u.id)
  }

  /**
   * `GET api/dashboard/summary`. Without a usable `Name` claim the store is
   * never read, so a store fault only shows once there is one; the 500
   * carries no exception text.
   */
  function GetSummary(claims: seq<Claim>, st: Store, fault: Option<string>): (r: Step<Summary>)
    ensures r.store == st
    ensures NameClaim(claims).None? ==> r.reply == Refuse(Unauthorized, InvalidUser)
    ensures NameClaim(claims).Some? && fault.Some? ==> r.reply == Refuse(ServerError, SummaryError)
    ensures r.reply.Fail? ==> r.reply == Refuse(Unauthorized, InvalidUser) || r.reply == Refuse(ServerError, SummaryError)
    ensures r.reply.Ok? <==> fault.None? && NameClaim(claims).Some? && Auth.EmailTaken(st, NameClaim(claims).value)
    ensures r.reply.Ok? ==> SummaryFor(st, NameClaim(claims).value, r.reply.value)
  {
    if NameClaim(claims).None? then Step(Refuse(Unauthorized, InvalidUser), st)
    else if fault.Some? then Step(Refuse(ServerError, SummaryError), st)
    else
      match GetCurrentUserSummary(claims, st)
      case None => Step(Refuse(Unauthorized, InvalidUser), st)
      case Some(s) => Step(Ok(s), st)
  }

  /**
   * When emails are unique, the holder of a login token sees the summary of
   * the very account whose key the token's id claim carries.
   */
  lemma LoginTokenSummary(st: Store, u: User)
    requires u.id in st.users && st.users[u.id] == u && u.email != ""
    requires Auth.EmailsDistinct(st)
    ensures GetCurrentUserId(LoginClaims(u)) == Some(u.id)
    ensures GetSummary(LoginClaims(u), st, None).reply == Ok(GetUserSummary(st, u.id).value)
  {
    LoginClaimsId(u);
    LoginClaimsName(u);
    var found := FindByEmail(st, u.email);
    assert Auth.EmailTaken(st, u.email);
    assert found.value.id == u.id;
  }

  /**
   * A `TokenService` token opens the dashboard exactly as a login token
   * issued for the same account under the same configuration does.
   */
  lemma ServiceTokenSummary(config: Config, st: Store, u: User, now: DateTime, fault: Option<string>)
    requires GenerateToken(config, u, now).Some?
    ensures GenerateJwtToken(config, u, now).Some?
    ensures GetSummary(GenerateToken(config, u, now).value.claims, st, fault)
         == GetSummary(GenerateJwtToken(config, u, now).value.claims, st, fault)
  {
    LoginClaimsName(u);
    assert HasType(ServiceClaims(u)[0], NameType);
  }

  /**
   * `after` is `before` with the count of `status` moved by `delta`, when
   * `status` is one of the three counted, and everything else the same.
   */
  predicate Moved(before: Summary, after: Summary, status: string, delta: int) {
    && after.user == before.user
    && after.completed == before.completed + (if status == StatusCompleted then delta else 0)
    && after.inProgress == before.inProgress + (if status == StatusInProgress then delta else 0)
    && after.pending == before.pending + (if status == StatusPending then delta else 0)
  }

  /**
   * Inserting a task moves its owner's count for its status up by one and
   * leaves every other account's summary alone.
   */
  lemma SummaryAfterInsert(st: Store, t: UserTask, uid: Int32)
    requires t.id !in st.tasks
    ensures var before, after := GetUserSummary(st, uid), GetUserSummary(PutTask(st, t), uid);
            && (after.Some? <==> before.Some?)
            && (before.Some? && t.userId == uid ==> Moved(before.value, after.value, t.status, 1))
            && (t.userId != uid ==> after == before)
  {
    CountAfterInsert(st, t, OwnStatusIs(uid, StatusCompleted));
    CountAfterInsert(st, t, OwnStatusIs(uid, StatusInProgress));
    CountAfterInsert(st, t, OwnStatusIs(uid, StatusPending));
  }

  /**
   * Removing a task moves its owner's count for its status down by one and
   * leaves every other account's summary alone.
   */
  lemma SummaryAfterRemove(st: Store, id: Int32, uid: Int32)
    requires id in st.tasks
    ensures var before, after := GetUserSummary(st, uid), GetUserSummary(RemoveTask(st, id), uid);
            && (after.Some? <==> before.Some?)
            && (before.Some? && st.tasks[id].userId == uid ==> Moved(before.value, after.value, st.tasks[id].status, -1))
            && (st.tasks[id].userId != uid ==> after == before)
  {
    CountAfterRemove(st, id, OwnStatusIs(uid, StatusCompleted));
    CountAfterRemove(st, id, OwnStatusIs(uid, StatusInProgress));
    CountAfterRemove(st, id, OwnStatusIs(uid, StatusPending));
  }

  /** A task the caller creates is counted on the caller's own dashboard under its status. */
  lemma OwnCreateCounted(claims: seq<Claim>, st: Store, dto: CreateTaskDto)
    requires Tasks.CreateTask(claims, st, Some(dto), None).reply.Ok?
    ensures var uid := GetCurrentUserId(claims).value;
            var before := GetUserSummary(st, uid);
            var after := GetUserSummary(Tasks.CreateTask(claims, st, Some(dto), None).store, uid);
            (after.Some? <==> before.Some?) && (before.Some? ==> Moved(before.value, after.value, dto.status.value, 1))
  {
    var uid := GetCurrentUserId(claims).value;
    var after := Tasks.CreateTask(claims, st, Some(dto), None).store;
    var k :| k !in st.tasks && after == PutTask(st, FromDto(dto, k, uid));
    SummaryAfterInsert(st, FromDto(dto, k, uid), uid);
  }

  /** A task the caller deletes leaves the caller's dashboard count for its status. */
  lemma OwnDeleteUncounted(claims: seq<Claim>, st: Store, id: Int32)
    requires Tasks.DeleteTask(claims, st, id, None).reply.Ok?
    ensures var uid := GetCurrentUserId(claims).value;
            var before := GetUserSummary(st, uid);
            var after := GetUserSummary(Tasks.DeleteTask(claims, st, id, None).store, uid);
            (after.Some? <==> before.Some?) && (before.Some? ==> Moved(before.value, after.value, st.tasks[id].status, -1))
  {
    SummaryAfterRemove(st, id, GetCurrentUserId(claims).value);
  }

  /**
   * A task an administrator creates shows on its assignee's dashboard, and
   * on no other.
   */
  lemma AdminCreateCounted(st: Store, model: CreateTaskDto, other: Int32)
    requires AdminDashboard.CreateTask(st, model, true, None).reply.Ok?
    requires other != model.userId
    ensures var after := AdminDashboard.CreateTask(st, model, true, None).store;
            && GetUserSummary(st, model.userId).Some?
            && Moved(GetUserSummary(st, model.userId).value, GetUserSummary(after, model.userId).value, model.status.value, 1)
            && GetUserSummary(after, other) == GetUserSummary(st, other)
  {
    var after := AdminDashboard.CreateTask(st, model, true, None).store;
    var k :| k !in st.tasks && after == PutTask(st, FromDto(model, k, model.userId));
    SummaryAfterInsert(st, FromDto(model, k, model.userId), model.userId);
    SummaryAfterInsert(st, FromDto(model, k, model.userId), other);
  }
}

=== FILE: digest.dfy ===
/**
 * `AuthController.ComputeSha256Hash`: the UTF-8 bytes of the password are
 * hashed with SHA-256 (FIPS 180-4) and the 32-byte digest is written with
 * `BitConverter.ToString(..).Replace("-", "").ToLower()`. The hash itself
 * is a parameter: any deterministic function from bytes to 32 bytes.
 */
module Digest {
  import opened Seqs
  import opened Ascii

  newtype byte = x: int | 0 <= x < 256

  /** A SHA-256 output. */
  type Digest32 = s: seq<byte> | |s| == 32 witness seq(32, _ => 0 as byte)

  /** UTF-8 (RFC 3629) of one Unicode scalar value. */
  function Utf8Char(c: char): (r: seq<byte>)
    ensures 1 <= |r| <= 4
    ensures c as int < 0x80 ==> r == [c as int as byte]
    ensures c as int >= 0x80 ==> forall i :: 0 <= i < |r| ==> r[i] >= 0x80
  {
    var n := c as int;
    if n < 0x80 then [n as byte]
    else if n < 0x800 then [(0xC0 + n / 0x40) as byte, (0x80 + n % 0x40) as byte]
    else if n < 0x1_0000 then
      [(0xE0 + n / 0x1000) as byte, (0x80 + (n / 0x40) % 0x40) as byte, (0x80 + n % 0x40) as byte]
    else
      [(0xF0 + n / 0x4_0000) as byte, (0x80 + (n / 0x1000) % 0x40) as byte,
       (0x80 + (n / 0x40) % 0x40) as byte, (0x80 + n % 0x40) as byte]
  }

  /** `Encoding.UTF8.GetBytes(s)`. */
  function Utf8(s: string): (r: seq<byte>)
    ensures |s| <= |r| <= 4 * |s|
  {
    if |s| == 0 then [] else Utf8Char(s[0]) + Utf8(s[1..])
  }

  /** ASCII text encodes to one byte per character. */
  lemma {:induction false} AsciiUtf8(s: string)
    requires forall i :: 0 <= i < |s| ==> s[i] as int < 0x80
    ensures |Utf8(s)| == |s|
  {
    if |s| > 0 {
      assert s[0] as int < 0x80;
      AsciiUtf8(s[1..]);
    }
  }

  const UpperHexDigits: string := "0123456789ABCDEF"
  const LowerHexDigits: string := "0123456789abcdef"

  /** The two upper-case hex digits of a byte, high nibble first. */
  function UpperPair(x: byte): string {
    [UpperHexDigits[x / 16], UpperHexDigits[x % 16]]
  }

  /** The two lower-case hex digits of a byte, high nibble first. */
  function LowerPair(x: byte): string {
    [LowerHexDigits[x / 16], LowerHexDigits[x % 16]]
  }

  /** `BitConverter.ToString(bytes)`: upper-case pairs joined by '-', e.g. "0A-FF". */
  function BitConverterToString(b: seq<byte>): string {
    if |b| == 0 then ""
    else if |b| == 1 then UpperPair(b[0])
    else UpperPair(b[0]) + "-" + BitConverterToString(b[1..])
  }

  /** `s.Replace("-", "")`. */
  function RemoveDashes(s: string): string {
    Filter(s, (c: char) => c != '-')
  }

  /** The intended format: two lower-case hex digits per byte, in order, no separators. */
  function LowerHex(b: seq<byte>): (r: string)
    ensures |r| == 2 * |b|
    ensures forall i :: 0 <= i < |r| ==> IsLowerHexDigit(r[i])
  {
    if |b| == 0 then ""
    else
      LowerHexDigitsRead(b[0] as nat / 16);
      LowerHexDigitsRead(b[0] as nat % 16);
      LowerPair(b[0]) + LowerHex(b[1..])
  }

  predicate IsLowerHexDigit(c: char) {
    '0' <= c <= '9' || 'a' <= c <= 'f'
  }

  function HexValue(c: char): (v: nat)
    requires IsLowerHexDigit(c)
    ensures v < 16
  {
    if c <= '9' then c as int - '0' as int else c as int - 'a' as int + 10
  }

  /** Reads back a string of lower-case hex pairs. */
  function HexDecode(s: string): seq<byte>
    requires |s| % 2 == 0
    requires forall i :: 0 <= i < |s| ==> IsLowerHexDigit(s[i])
  {
    if |s| == 0 then [] else [(HexValue(s[0]) * 16 + HexValue(s[1])) as byte] + HexDecode(s[2..])
  }

  lemma LowerHexDigitsRead(d: nat)
    requires d < 16
    ensures IsLowerHexDigit(LowerHexDigits[d]) && HexValue(LowerHexDigits[d]) == d
  {
  }

  /** Decoding the hex text gives back the bytes, in order. */
  lemma {:induction false} HexRoundTrip(b: seq<byte>)
    ensures HexDecode(LowerHex(b)) == b
  {
    if |b| > 0 {
      var s := LowerHex(b);
      LowerHexDigitsRead(b[0] as nat / 16);
      LowerHexDigitsRead(b[0] as nat % 16);
      assert s[2..] == LowerHex(b[1..]);
      HexRoundTrip(b[1..]);
    }
  }

  /** Lower-casing an upper-case hex digit gives the lower-case digit of the same value. */
  lemma LowerDigit(d: nat)
    requires d < 16
    ensures LowerChar(UpperHexDigits[d]) == LowerHexDigits[d]
    ensures UpperHexDigits[d] != '-'
  {
  }

  /** A hex pair has no dash, and lower-casing the upper-case pair gives the lower-case pair. */
  lemma PairFacts(x: byte)
    ensures RemoveDashes(UpperPair(x)) == UpperPair(x)
    ensures ToLower(UpperPair(x)) == LowerPair(x)
  {
    LowerDigit((x / 16) as nat);
    LowerDigit((x % 16) as nat);
    FilterAllPass(UpperPair(x), (c: char) => c != '-');
  }

  /** Removing the dashes after a pair and its separator leaves the pair in front. */
  lemma DropSeparator(u: string, rest: string)
    requires RemoveDashes(u) == u
    ensures RemoveDashes(u + "-" + rest) == u + RemoveDashes(rest)
  {
    var p := (c: char) => c != '-';
    assert Filter("-", p) == [] by {
      assert !p("-"[0]);
      assert "-"[1..] == [];
    }
    calc {
      Filter(u + "-" + rest, p);
    == { FilterAppend(u + "-", rest, p); }
      Filter(u + "-", p) + Filter(rest, p);
    == { FilterAppend(u, "-", p); }
      Filter(u, p) + Filter("-", p) + Filter(rest, p);
    }
  }

  /** Dropping the dashes of `BitConverter.ToString` and lower-casing gives `LowerHex`. */
  lemma {:induction false} ConverterPipeline(b: seq<byte>)
    ensures ToLower(RemoveDashes(BitConverterToString(b))) == LowerHex(b)
  {
    if |b| == 1 {
      PairFacts(b[0]);
      assert LowerHex(b) == LowerPair(b[0]) + LowerHex([]);
    } else if |b| > 1 {
      var u := UpperPair(b[0]);
      var rest := BitConverterToString(b[1..]);
      PairFacts(b[0]);
      DropSeparator(u, rest);
      ToLowerAppend(u, RemoveDashes(rest));
      ConverterPipeline(b[1..]);
    }
  }

  /**
   * `ComputeSha256Hash(raw)`: 64 lower-case hex digits that spell out the
   * 32 digest bytes of the UTF-8 encoding of `raw`, in order.
   */
  function ComputeSha256Hash(sha: seq<byte> -> Digest32, raw: string): (r: string)
    ensures |r| == 64
    ensures forall i :: 0 <= i < |r| ==> IsLowerHexDigit(r[i])
    ensures HexDecode(r) == sha(Utf8(raw))
  {
    var digest := sha(Utf8(raw));
    ConverterPipeline(digest);
    HexRoundTrip(digest);
    ToLower(RemoveDashes(BitConverterToString(digest)))
  }
}

=== FILE: http.dfy ===
/**
 * What a controller action hands back to ASP.NET Core: an `IActionResult`
 * reduced to its status code and body, paired with the database as the
 * action leaves it.
 */
module Http {
  import opened Base
  import opened Models

  const OkStatus: nat := 200
  const BadRequest: nat := 400
  const Unauthorized: nat := 401
  const NotFound: nat := 404
  const ServerError: nat := 500

  /** The result of an action. */
  datatype Reply<T> =
    /** `Ok(value)`: 200 with a body. */
    | Ok(value: T)
    /** `BadRequest`/`Unauthorized`/`NotFound`/`StatusCode(...)` with `{ message[, error] }`. */
    | Fail(status: nat, message: string, error: Option<string>)
    /** The action threw and did not catch; the host answers 500 on its behalf. */
    | Unhandled
  {
    function Status(): nat {
      match this
      case Ok(_) => OkStatus
      case Fail(s, _, _) => s
      case Unhandled => ServerError
    }
  }

  /** A reply together with the database after the request. */
  datatype Step<T> = Step(reply: Reply<T>, store: Store)

  /** A failure with only a `message`. */
  function Refuse<T>(status: nat, message: string): (r: Reply<T>)
    ensures r.Status() == status && r.Fail? && r.error == None
  {
    Fail(status, message, None)
  }

  /** `StatusCode(500, new { message, error = ex.Message })`: the admin controllers echo the exception text. */
  function ServerFault<T>(message: string, exceptionMessage: string): (r: Reply<T>)
    ensures r.Status() == ServerError && r.Fail?
    ensures r.message == message && r.error == Some(exceptionMessage)
  {
    Fail(ServerError, message, Some(exceptionMessage))
  }

  /**
   * The title of the problem details `[ApiController]` sends back, with
   * status 400, when model binding or validation fails; the action itself
   * never runs.
   */
  const ValidationTitle: string := "One or more validation errors occurred."
}

=== FILE: int32_text.dfy ===
/**
 * Decimal text of a C# `int`: `int.ToString()` as used when an id is put
 * into a claim, and `int.TryParse` as used when it is read back. Parsing
 * follows the `Integer` number style: white space on either side, then an
 * optional sign, then ASCII decimal digits. The signs are the invariant
 * culture's '-' and '+'.
 */
module Int32Text {
  import opened Base

  predicate IsDigit(c: char) {
    '0' <= c <= '9'
  }

  function DigitValue(c: char): (d: nat)
    requires IsDigit(c)
    ensures d < 10
  {
    c as int - '0' as int
  }

  function DigitChar(d: nat): (c: char)
    requires d < 10
    ensures IsDigit(c) && DigitValue(c) == d
  {
    ('0' as int + d) as char
  }

  predicate AllDigits(s: string) {
    forall i :: 0 <= i < |s| ==> IsDigit(s[i])
  }

  /** The number a string of decimal digits denotes (leading zeros allowed). */
  function DigitsValue(s: string): nat
    requires AllDigits(s)
    decreases |s|
  {
    if |s| == 0 then 0 else DigitsValue(s[..|s| - 1]) * 10 + DigitValue(s[|s| - 1])
  }

  /** The shortest decimal digit string of `n`. */
  function NatToDigits(n: nat): (r: string)
    ensures |r| >= 1 && AllDigits(r)
    ensures |r| > 1 ==> r[0] != '0'
    decreases n
  {
    if n < 10 then [DigitChar(n)] else NatToDigits(n / 10) + [DigitChar(n % 10)]
  }

  /** `int.ToString()` in the invariant culture: a '-' for negatives, then the digits. */
  function Int32ToString(x: Int32): (r: string)
    ensures |r| >= 1
    ensures r[0] == '-' <==> x < 0
    ensures AllDigits(if x < 0 then r[1..] else r)
  {
    if x < 0 then "-" + NatToDigits(-(x as int)) else NatToDigits(x)
  }

  /** The string without its leading sign, if it has one. */
  function Unsigned(s: string): string {
    if |s| > 0 && (s[0] == '-' || s[0] == '+') then s[1..] else s
  }

  /** An optional sign followed by at least one decimal digit. */
  predicate IsNumeral(s: string) {
    var body := Unsigned(s);
    |body| > 0 && AllDigits(body)
  }

  /** The white space the `Integer` number style skips: tab, line feed, vertical tab, form feed, carriage return, space. */
  predicate IsWhite(c: char) {
    c == ' ' || '\t' <= c <= '\r'
  }

  predicate AllWhite(s: string) {
    forall i :: 0 <= i < |s| ==> IsWhite(s[i])
  }

  /** `s` without its leading white space: a suffix of `s` that starts with something else. */
  function TrimStart(s: string): (r: string)
    ensures |r| > 0 ==> !IsWhite(r[0])
  {
    if |s| > 0 && IsWhite(s[0]) then TrimStart(s[1..]) else s
  }

  /** `s` without its trailing white space: a prefix of `s` that ends with something else. */
  function TrimEnd(s: string): (r: string)
    ensures |r| > 0 ==> !IsWhite(r[|r| - 1])
    decreases |s|
  {
    if |s| > 0 && IsWhite(s[|s| - 1]) then TrimEnd(s[..|s| - 1]) else s
  }

  /** `s` without the white space at either end. */
  function Trim(s: string): string {
    TrimEnd(TrimStart(s))
  }

  /** `TrimStart` drops a prefix of white space and nothing else. */
  lemma {:induction false} TrimStartSuffix(s: string)
    ensures var r := TrimStart(s);
            |r| <= |s| && s == s[..|s| - |r|] + r && AllWhite(s[..|s| - |r|])
    decreases |s|
  {
    if |s| > 0 && IsWhite(s[0]) {
      TrimStartSuffix(s[1..]);
      var r := TrimStart(s);
      var n := |s| - |r|;
      assert s[1..][..n - 1] == s[1..n];
      forall i | 0 <= i < n ensures IsWhite(s[..n][i]) {
        if i > 0 { assert s[..n][i] == s[1..][..n - 1][i - 1]; }
      }
    }
  }

  /** `TrimEnd` drops a suffix of white space and nothing else. */
  lemma {:induction false} TrimEndPrefix(s: string)
    ensures var r := TrimEnd(s);
            |r| <= |s| && s == r + s[|r|..] && AllWhite(s[|r|..])
    decreases |s|
  {
    if |s| > 0 && IsWhite(s[|s| - 1]) {
      var init := s[..|s| - 1];
      TrimEndPrefix(init);
      var r := TrimEnd(s);
      assert init[|r|..] + [s[|s| - 1]] == s[|r|..];
    }
  }

  /**
   * `Trim` takes white space off the ends and nothing else: `s` is the
   * trimmed text with white space on either side, and the trimmed text
   * neither starts nor ends with white space.
   */
  lemma TrimShape(s: string)
    ensures var t := Trim(s);
            (|t| > 0 ==> !IsWhite(t[0]) && !IsWhite(t[|t| - 1]))
            && exists w1, w2 :: AllWhite(w1) && AllWhite(w2) && s == w1 + t + w2
  {
    var u := TrimStart(s);
    var t := TrimEnd(u);
    TrimStartSuffix(s);
    TrimEndPrefix(u);
    var w1, w2 := s[..|s| - |u|], u[|t|..];
    assert s == w1 + t + w2 by {
      assert w1 + (t + w2) == w1 + t + w2;
    }
    if |t| > 0 {
      assert t[0] == u[0] by { assert u[0] == (t + w2)[0]; }
    }
  }

  /** The value a numeral denotes: its digits' value, negated after a '-'. */
  function SignedValue(t: string): int
    requires IsNumeral(t)
  {
    if t[0] == '-' then -(DigitsValue(Unsigned(t)) as int) else DigitsValue(Unsigned(t))
  }

  /** The strict part of the parse: an optional sign and digits, nothing around them. */
  function ParseNumeral(t: string): (r: Option<Int32>)
    ensures r.Some? <==> IsNumeral(t) && IsInt32(SignedValue(t))
    ensures r.Some? ==> r.value == SignedValue(t)
    ensures r.Some? && r.value < 0 ==> t[0] == '-'
    ensures r.Some? && t[0] != '-' ==> r.value == DigitsValue(t[(if t[0] == '+' then 1 else 0)..])
  {
    if !IsNumeral(t) then None
    else
      var v := SignedValue(t);
      if IsInt32(v) then Some(v) else None
  }

  /**
   * `int.TryParse(s, out v)`: the value when `s`, once the white space on
   * either side is skipped, is a numeral within `Int32` range.
   */
  function TryParseInt32(s: string): (r: Option<Int32>)
    ensures r.Some? <==> IsNumeral(Trim(s)) && IsInt32(SignedValue(Trim(s)))
    ensures r.Some? ==> r.value == SignedValue(Trim(s))
  {
    ParseNumeral(Trim(s))
  }

  lemma AllWhiteCons(u: string)
    requires |u| > 0
    ensures AllWhite(u) <==> IsWhite(u[0]) && AllWhite(u[1..])
  {
    if IsWhite(u[0]) && AllWhite(u[1..]) {
      forall i | 0 < i < |u| ensures IsWhite(u[i]) { assert u[i] == u[1..][i - 1]; }
    }
  }

  /** Skipping leading white space of a concatenation: it runs into `w` only when `u` is all white. */
  lemma {:induction false} TrimStartAppend(u: string, w: string)
    ensures TrimStart(u + w) == if AllWhite(u) then TrimStart(w) else TrimStart(u) + w
    decreases |u|
  {
    if |u| > 0 {
      assert (u + w)[1..] == u[1..] + w;
      if IsWhite(u[0]) {
        TrimStartAppend(u[1..], w);
        AllWhiteCons(u);
      }
    } else {
      assert u + w == w;
    }
  }

  /** Trailing white space is dropped by `TrimEnd`. */
  lemma {:induction false} TrimEndPad(u: string, w: string)
    requires AllWhite(w)
    ensures TrimEnd(u + w) == TrimEnd(u)
    decreases |w|
  {
    if |w| > 0 {
      var w' := w[..|w| - 1];
      assert (u + w)[..|u + w| - 1] == u + w';
      TrimEndPad(u, w');
    } else {
      assert u + w == u;
    }
  }

  /** White space on either side of a string does not change its trimmed form. */
  lemma PaddingIgnored(w1: string, s: string, w2: string)
    requires AllWhite(w1) && AllWhite(w2)
    ensures Trim(w1 + s + w2) == Trim(s)
  {
    assert w1 + s + w2 == w1 + (s + w2);
    TrimStartAppend(w1, s + w2);
    TrimStartAppend(s, w2);
    TrimStartAppend(s, "");
    assert s + "" == s;
    if AllWhite(s) {
      TrimStartAppend(w2, "");
      assert w2 + "" == w2;
    } else {
      TrimEndPad(TrimStart(s), w2);
    }
  }

  /** `int.TryParse` skips white space on either side: a padded numeral parses as the bare one. */
  lemma WhiteIgnored(w1: string, s: string, w2: string)
    requires AllWhite(w1) && AllWhite(w2)
    ensures TryParseInt32(w1 + s + w2) == TryParseInt32(s)
  {
    PaddingIgnored(w1, s, w2);
  }

  /** A string with something other than white space at both ends is its own trimmed form. */
  lemma TrimNoop(s: string)
    requires |s| > 0 ==> !IsWhite(s[0]) && !IsWhite(s[|s| - 1])
    ensures Trim(s) == s
  {
  }

  /** Reading back the digits of `n` gives `n`. */
  lemma {:induction false} DigitsRoundTrip(n: nat)
    ensures DigitsValue(NatToDigits(n)) == n
    decreases n
  {
    if n >= 10 {
      DigitsRoundTrip(n / 10);
      var r := NatToDigits(n);
      assert r[..|r| - 1] == NatToDigits(n / 10);
    }
  }

  /** A digit string without a leading zero denotes a number with as many digits. */
  lemma {:induction false} DigitsValueLowerBound(s: string)
    requires AllDigits(s) && |s| >= 2 && s[0] != '0'
    ensures DigitsValue(s) >= 10
    decreases |s|
  {
    var init := s[..|s| - 1];
    if |init| >= 2 {
      DigitsValueLowerBound(init);
    } else {
      assert init == [s[0]];
      assert DigitsValue(init) == DigitValue(s[0]);
    }
  }

  /** Writing out the value of a digit string without a leading zero gives the string back. */
  lemma {:induction false} DigitsCanonical(s: string)
    requires AllDigits(s) && |s| >= 1
    requires |s| > 1 ==> s[0] != '0'
    ensures NatToDigits(DigitsValue(s)) == s
    decreases |s|
  {
    if |s| == 1 {
      assert s[..0] == "";
      assert DigitsValue(s) == DigitValue(s[0]);
    } else {
      var init := s[..|s| - 1];
      DigitsValueLowerBound(s);
      DigitsCanonical(init);
      var n := DigitsValue(s);
      assert n / 10 == DigitsValue(init);
      assert n % 10 == DigitValue(s[|s| - 1]);
      assert s == init + [s[|s| - 1]];
    }
  }

  /** A string with nothing to skip at either end is parsed by the strict part alone. */
  lemma BareParse(s: string)
    requires |s| > 0 ==> !IsWhite(s[0]) && !IsWhite(s[|s| - 1])
    ensures TryParseInt32(s) == ParseNumeral(s)
  {
    TrimNoop(s);
  }

  /** What `ToString` writes starts with '-' or a digit and ends with a digit, so there is nothing to skip. */
  lemma ToStringUntrimmed(x: Int32)
    ensures TryParseInt32(Int32ToString(x)) == ParseNumeral(Int32ToString(x))
  {
    var s := Int32ToString(x);
    assert IsDigit(s[|s| - 1]);
    BareParse(s);
  }

  /** A negative id is written as '-' and the digits of its magnitude, and read back. */
  lemma NegativeRoundTrip(x: Int32)
    requires x < 0
    ensures ParseNumeral(Int32ToString(x)) == Some(x)
  {
    var digits := NatToDigits(-(x as int));
    DigitsRoundTrip(-(x as int));
    var s := Int32ToString(x);
    assert s == "-" + digits;
    assert s[0] == '-' && s[1..] == digits;
    assert Unsigned(s) == digits;
    assert IsNumeral(s);
  }

  /** A non-negative id is written as its bare digits, and read back. */
  lemma NonNegativeRoundTrip(x: Int32)
    requires x >= 0
    ensures ParseNumeral(Int32ToString(x)) == Some(x)
  {
    DigitsRoundTrip(x);
    assert Unsigned(NatToDigits(x)) == NatToDigits(x);
  }

  /** Every `Int32` survives being written by `ToString` and read by `TryParse`. */
  lemma Int32RoundTrip(x: Int32)
    ensures TryParseInt32(Int32ToString(x)) == Some(x)
  {
    if x < 0 {
      NegativeRoundTrip(x);
    } else {
      NonNegativeRoundTrip(x);
    }
    ToStringUntrimmed(x);
  }

  /**
   * A numeral in canonical form (no '+', no leading zero, no "-0") is, once
   * the white space around it is skipped, what `ToString` writes for its value.
   */
  lemma CanonicalNumeral(s: string, x: Int32)
    requires TryParseInt32(s) == Some(x)
    requires Trim(s)[0] != '+'
    requires |Unsigned(Trim(s))| > 1 ==> Unsigned(Trim(s))[0] != '0'
    requires Trim(s)[0] == '-' ==> Unsigned(Trim(s)) != "0"
    ensures Int32ToString(x) == Trim(s)
  {
    var t := Trim(s);
    var body := Unsigned(t);
    DigitsCanonical(body);
    if t[0] == '-' {
      assert NatToDigits(0) == "0";
      assert t == "-" + body;
    } else {
      assert t == body;
    }
  }

  /** The strict part on the examples of the unit tests and the edges of the accepted form. */
  lemma NumeralExamples()
    ensures ParseNumeral("42") == Some(42)
    ensures ParseNumeral("abc") == None
    ensures ParseNumeral("") == None
    ensures ParseNumeral("-") == None
    ensures ParseNumeral("+7") == Some(7)
    ensures ParseNumeral("-7") == Some(-7)
    ensures ParseNumeral("7") == Some(7)
  {
    assert IsNumeral("42");
    assert "42"[..1] == "4";
    assert "4"[..0] == "";
    assert !AllDigits("abc") by { assert !IsDigit("abc"[0]); }
    assert Unsigned("+7") == "7";
    assert "7"[..0] == "";
    assert Unsigned("-7") == "7";
  }

  /** The examples of the unit tests: digits parse, anything else does not. */
  lemma ParseExamples()
    ensures TryParseInt32("42") == Some(42)
    ensures TryParseInt32("abc") == None
    ensures TryParseInt32("") == None
  {
    NumeralExamples();
    BareParse("42");
    BareParse("abc");
    BareParse("");
  }

  /** The edges of the accepted form: a sign needs digits after it, and either sign is read. */
  lemma SignExamples()
    ensures TryParseInt32("-") == None
    ensures TryParseInt32("+7") == Some(7)
    ensures TryParseInt32("-7") == Some(-7)
    ensures TryParseInt32("7") == Some(7)
  {
    NumeralExamples();
    BareParse("7");
    BareParse("-");
    BareParse("+7");
    BareParse("-7");
  }

  /** White space inside a numeral is not skipped, and white space alone is no number. */
  lemma WhiteExamples()
    ensures TryParseInt32("4 2") == None
    ensures TryParseInt32(" ") == None
  {
    BareParse("4 2");
    assert !IsNumeral("4 2") by { assert !IsDigit("4 2"[1]); }
    assert " "[1..] == "";
    assert TrimStart(" ") == "";
  }

  /** Any white space around what `ToString` writes is skipped: the id still reads back. */
  lemma PaddedRoundTrip(x: Int32, w1: string, w2: string)
    requires AllWhite(w1) && AllWhite(w2)
    ensures TryParseInt32(w1 + Int32ToString(x) + w2) == Some(x)
  {
    WhiteIgnored(w1, Int32ToString(x), w2);
    Int32RoundTrip(x);
  }

  /** A string of white space alone, the empty one included, is not a number. */
  lemma BlankRejected(w: string)
    requires AllWhite(w)
    ensures TryParseInt32(w) == None
  {
    assert w == w + "" + "";
    WhiteIgnored(w, "", "");
    ParseExamples();
  }

  /** One past `Int32Max` is a numeral but not an `int`. */
  lemma OverflowRejected()
    ensures TryParseInt32("2147483648") == None
  {
    var big := "2147483648";
    BareParse(big);
    OverflowStrict();
  }

  lemma OverflowStrict()
    ensures ParseNumeral("2147483648") == None
  {
    var big := "2147483648";
    assert DigitsValue(big[..0]) == 0;
    assert DigitsValue(big[..1]) == 2 by { assert big[..1][..0] == big[..0]; }
    assert DigitsValue(big[..2]) == 21 by { assert big[..2][..1] == big[..1]; }
    assert DigitsValue(big[..3]) == 214 by { assert big[..3][..2] == big[..2]; }
    assert DigitsValue(big[..4]) == 2147 by { assert big[..4][..3] == big[..3]; }
    assert DigitsValue(big[..5]) == 21474 by { assert big[..5][..4] == big[..4]; }
    assert DigitsValue(big[..6]) == 214748 by { assert big[..6][..5] == big[..5]; }
    assert DigitsValue(big[..7]) == 2147483 by { assert big[..7][..6] == big[..6]; }
    assert DigitsValue(big[..8]) == 21474836 by { assert big[..8][..7] == big[..7]; }
    assert DigitsValue(big[..9]) == 214748364 by { assert big[..9][..8] == big[..8]; }
    assert big[..10] == big;
    assert DigitsValue(big) == 2147483648;
  }
}

=== FILE: models.dfy ===
/**
 * The persisted entities (`User`, `UserTask`), the request payloads
 * (`CreateTaskDto`, `LoginRequest`) and the database as two tables keyed
 * by id.
 */
module Models {
  import opened Base
  import opened Seqs

  const RoleUser: string := "User"
  const RoleAdmin: string := "Admin"

  const StatusPending: string := "Pending"
  const StatusInProgress: string := "In Progress"
  const StatusCompleted: string := "Completed"
  const PriorityNormal: string := "Normal"

  /**
   * An account. `Email` and `PasswordHash` are `[Required]`; `FullName` and
   * `LastLogin` are nullable. After signup `passwordHash` holds the digest,
   * not the password.
   */
  datatype User = User(
    id: Int32,
    fullName: Option<string>,
    email: string,
    passwordHash: string,
    role: string,
    isActive: bool,
    createdAt: DateTime,
    lastLogin: Option<DateTime>)

  /** `new User()` at time `now`: every property at its declared default. */
  function NewUser(now: DateTime): (u: User)
    ensures u.role == RoleUser && u.isActive
    ensures u.email == "" && u.passwordHash == ""
    ensures u.fullName == None && u.lastLogin == None
    ensures u.createdAt == now && u.id == 0
  {
    User(0, None, "", "", RoleUser, true, now, None)
  }

  /**
   * A task. `UserId` is the owner's key; the `User` navigation property is
   * not stored here but looked up in the users table (see `Owner`).
   */
  datatype UserTask = UserTask(
    id: Int32,
    title: string,
    description: Option<string>,
    status: string,
    priority: string,
    dueDate: Option<DateTime>,
    userId: Int32)

  /** `new UserTask()`: every property at its declared default. */
  function NewUserTask(): (t: UserTask)
    ensures t.status == StatusPending && t.priority == PriorityNormal
    ensures t.title == "" && t.description == None && t.dueDate == None
    ensures t.id == 0 && t.userId == 0
  {
    UserTask(0, "", None, StatusPending, PriorityNormal, None, 0)
  }

  /**
   * The create/update payload. Its four text properties are references: one
   * the JSON body leaves out binds as null (`None`). `DueDate` and `UserId`
   * are value types and bind their defaults.
   */
  datatype CreateTaskDto = CreateTaskDto(
    title: Option<string>,
    description: Option<string>,
    dueDate: DateTime,
    status: Option<string>,
    priority: Option<string>,
    userId: Int32)

  /**
   * The payload can be saved: `Title`, `Status` and `Priority` are
   * `[Required]`, so their columns are NOT NULL and a null in any of them
   * makes `SaveChangesAsync` throw. `Description` is nullable.
   */
  predicate Storable(dto: CreateTaskDto) {
    dto.title.Some? && dto.status.Some? && dto.priority.Some?
  }

  /** The message of the exception a rejected save throws. */
  const SaveFailed: string := "An error occurred while saving the entity changes. See the inner exception for details."

  /** The login payload; `passwordHash` carries the plaintext password. */
  datatype LoginRequest = LoginRequest(email: string, passwordHash: string)

  /** `task` with exactly the five payload fields replaced; `Id` and `UserId` are kept. */
  function WithDto(task: UserTask, dto: CreateTaskDto): (r: UserTask)
    requires Storable(dto)
    ensures r.id == task.id && r.userId == task.userId
    ensures r.title == dto.title.value && r.description == dto.description
    ensures r.dueDate == Some(dto.dueDate)
    ensures r.status == dto.status.value && r.priority == dto.priority.value
  {
    task.(title := dto.title.value, description := dto.description,
          dueDate := Some(dto.dueDate), status := dto.status.value, priority := dto.priority.value)
  }

  /**
   * The task a create request inserts: a `new UserTask` carrying the five
   * payload fields, stored under `id` and owned by `owner`.
   */
  function FromDto(dto: CreateTaskDto, id: Int32, owner: Int32): (t: UserTask)
    requires Storable(dto)
    ensures t.id == id && t.userId == owner
    ensures t.title == dto.title.value && t.description == dto.description
    ensures t.dueDate == Some(dto.dueDate)
    ensures t.status == dto.status.value && t.priority == dto.priority.value
  {
    WithDto(NewUserTask().(id := id, userId := owner), dto)
  }

  /** The two tables: `Users` and `UserTasks`, each keyed by id. */
  datatype Database = Database(users: map<Int32, User>, tasks: map<Int32, UserTask>)

  /** Every row is stored under its own id. */
  predicate KeysMatchIds(db: Database) {
    && (forall k :: k in db.users ==> db.users[k].id == k)
    && (forall k :: k in db.tasks ==> db.tasks[k].id == k)
  }

  /** A database whose rows are stored under their ids. */
  type Store = db: Database | KeysMatchIds(db) witness Database(map[], map[])

  /** The keys of a table in ascending order. */
  function OrderedKeys<V>(m: map<Int32, V>): (ks: seq<Int32>)
    ensures |ks| == |m|
    ensures forall i :: 0 <= i < |ks| ==> ks[i] in m
    ensures forall k :: k in m ==> k in ks
    ensures forall i, j :: 0 <= i < j < |ks| ==> ks[i] < ks[j]
  {
    SortedKeys(m.Keys)
  }

  /** The rows stored under `ks`, in that order. */
  function Lookup<V>(m: map<Int32, V>, ks: seq<Int32>): (r: seq<V>)
    requires forall i :: 0 <= i < |ks| ==> ks[i] in m
    ensures |r| == |ks|
    ensures forall i :: 0 <= i < |ks| ==> r[i] == m[ks[i]]
  {
    seq(|ks|, i requires 0 <= i < |ks| => m[ks[i]])
  }

  /** Looking up every key of a table yields every row of it. */
  lemma LookupCovers<V>(m: map<Int32, V>, ks: seq<Int32>)
    requires forall i :: 0 <= i < |ks| ==> ks[i] in m
    requires forall k :: k in m ==> k in ks
    ensures forall k :: k in m ==> m[k] in Lookup(m, ks)
  {
    var r := Lookup(m, ks);
    forall k | k in m
      ensures m[k] in r
    {
      var i :| 0 <= i < |ks| && ks[i] == k;
      assert r[i] == m[k];
    }
  }

  /**
   * Looking up an ascending list of keys yields the rows under exactly
   * those keys, in ascending id order (`id` reads a row's own key).
   */
  lemma LookupRows<V>(m: map<Int32, V>, ks: seq<Int32>, keep: set<Int32>, id: V -> Int32)
    requires forall k :: k in m ==> id(m[k]) == k
    requires keep <= m.Keys
    requires forall k :: k in ks <==> k in keep
    requires StrictlyIncreasing(ks)
    ensures forall i :: 0 <= i < |ks| ==> ks[i] in m
    ensures var r := Lookup(m, ks);
            && (forall i :: 0 <= i < |r| ==> id(r[i]) in keep && m[id(r[i])] == r[i])
            && (forall k :: k in keep ==> m[k] in r)
            && (forall i, j :: 0 <= i < j < |r| ==> id(r[i]) < id(r[j]))
  {
    assert forall i :: 0 <= i < |ks| ==> ks[i] in keep;
    var r := Lookup(m, ks);
    forall k | k in keep
      ensures m[k] in r
    {
      assert k in ks;
      var i :| 0 <= i < |ks| && ks[i] == k;
      assert r[i] == m[k];
    }
    assert forall i :: 0 <= i < |r| ==> id(r[i]) == ks[i];
  }

  /** The keys of the rows of `m` satisfying `p`. */
  function KeysWhere<V>(m: map<Int32, V>, p: V -> bool): (ks: set<Int32>)
    ensures forall k :: k in ks <==> k in m && p(m[k])
  {
    set k | k in m && p(m[k])
  }

  /** `UserTasks.Where(p)`: the tasks satisfying `p`, in table order. */
  function TasksWhere(st: Store, p: UserTask -> bool): (r: seq<UserTask>)
    ensures forall i :: 0 <= i < |r| ==> r[i].id in st.tasks && st.tasks[r[i].id] == r[i] && p(r[i])
    ensures forall k :: k in st.tasks && p(st.tasks[k]) ==> st.tasks[k] in r
    ensures forall i, j :: 0 <= i < j < |r| ==> r[i].id < r[j].id
  {
    var keep := KeysWhere(st.tasks, p);
    var ks := SortedKeys(keep);
    LookupRows(st.tasks, ks, keep, (t: UserTask) => t.id);
    Lookup(st.tasks, ks)
  }

  /** `Where(p)` over the tasks sees only the tasks satisfying `p`: two stores that agree on those give the same list. */
  lemma TasksWhereLocal(st1: Store, st2: Store, p: UserTask -> bool)
    requires forall k :: k in st1.tasks && p(st1.tasks[k]) <==> k in st2.tasks && p(st2.tasks[k])
    requires forall k :: k in st1.tasks && p(st1.tasks[k]) ==> st1.tasks[k] == st2.tasks[k]
    ensures TasksWhere(st1, p) == TasksWhere(st2, p)
  {
    var keep := KeysWhere(st1.tasks, p);
    assert keep == KeysWhere(st2.tasks, p);
    var ks := SortedKeys(keep);
    LookupRows(st1.tasks, ks, keep, (t: UserTask) => t.id);
    LookupRows(st2.tasks, ks, keep, (t: UserTask) => t.id);
    var l1 := Lookup(st1.tasks, ks);
    var l2 := Lookup(st2.tasks, ks);
    assert forall i :: 0 <= i < |ks| ==> l1[i] == l2[i];
    assert l1 == l2;
  }

  /** `Users.Where(p)`: the users satisfying `p`, in table order. */
  function UsersWhere(st: Store, p: User -> bool): (r: seq<User>)
    ensures forall i :: 0 <= i < |r| ==> r[i].id in st.users && st.users[r[i].id] == r[i] && p(r[i])
    ensures forall k :: k in st.users && p(st.users[k]) ==> st.users[k] in r
    ensures forall i, j :: 0 <= i < j < |r| ==> r[i].id < r[j].id
  {
    var keep := KeysWhere(st.users, p);
    var ks := SortedKeys(keep);
    LookupRows(st.users, ks, keep, (u: User) => u.id);
    Lookup(st.users, ks)
  }

  /** The users in table order (ascending id). */
  function UsersInOrder(st: Store): (r: seq<User>)
    ensures |r| == |st.users|
    ensures forall i :: 0 <= i < |r| ==> r[i].id in st.users && st.users[r[i].id] == r[i]
    ensures forall k :: k in st.users ==> st.users[k] in r
    ensures forall i, j :: 0 <= i < j < |r| ==> r[i].id < r[j].id
  {
    var ks := OrderedKeys(st.users);
    LookupCovers(st.users, ks);
    Lookup(st.users, ks)
  }

  /** The tasks in table order (ascending id). */
  function TasksInOrder(st: Store): (r: seq<UserTask>)
    ensures |r| == |st.tasks|
    ensures forall i :: 0 <= i < |r| ==> r[i].id in st.tasks && st.tasks[r[i].id] == r[i]
    ensures forall k :: k in st.tasks ==> st.tasks[k] in r
    ensures forall i, j :: 0 <= i < j < |r| ==> r[i].id < r[j].id
  {
    var ks := OrderedKeys(st.tasks);
    LookupCovers(st.tasks, ks);
    Lookup(st.tasks, ks)
  }

  /** The `User` navigation property of a task: absent when no user has its `UserId`. */
  function Owner(st: Store, t: UserTask): (r: Option<User>)
    ensures r.Some? <==> t.userId in st.users
    ensures r.Some? ==> r.value.id == t.userId
  {
    if t.userId in st.users then Some(st.users[t.userId]) else None
  }

  /**
   * The key the store generates for a new row: one past the largest key in
   * use (1 for an empty table), or nothing when that would pass `Int32Max`.
   */
  function NextId(keys: set<Int32>): (r: Option<Int32>)
    ensures r.Some? ==> r.value !in keys && r.value >= 1
    ensures r.None? ==> Int32Max in keys
  {
    if keys == {} then Some(1)
    else
      var m := SetMax(keys);
      if m < 1 then Some(1)
      else if m < Int32Max then Some(m + 1)
      else None
  }

  /** Stores (or replaces) a task under its id. */
  function PutTask(st: Store, t: UserTask): (r: Store)
    ensures r.users == st.users
    ensures r.tasks.Keys == st.tasks.Keys + {t.id}
    ensures r.tasks[t.id] == t
    ensures forall k :: k in st.tasks && k != t.id ==> r.tasks[k] == st.tasks[k]
  {
    st.(tasks := st.tasks[t.id := t])
  }

  /** Stores (or replaces) a user under its id. */
  function PutUser(st: Store, u: User): (r: Store)
    ensures r.tasks == st.tasks
    ensures r.users.Keys == st.users.Keys + {u.id}
    ensures r.users[u.id] == u
    ensures forall k :: k in st.users && k != u.id ==> r.users[k] == st.users[k]
  {
    st.(users := st.users[u.id := u])
  }

  /** Removes the task stored under `id`. */
  function RemoveTask(st: Store, id: Int32): (r: Store)
    ensures r.users == st.users
    ensures r.tasks.Keys == st.tasks.Keys - {id}
    ensures forall k :: k in r.tasks ==> r.tasks[k] == st.tasks[k]
  {
    st.(tasks := st.tasks - {id})
  }
}

=== FILE: routes.dfy ===
/**
 * The client's route table (`App`): which page a path shows, and the guard
 * each page applies to the `token` and `role` that `App` read from local
 * storage when it last rendered (not on each client-side navigation). Paths
 * are given as their segments; static segments match ignoring ASCII case
 * (the router's default), a `:id` segment matches any one segment and keeps
 * it as written, so a page with a parameter fits only the path carrying
 * exactly its id.
 */
module Routes {
  import opened Base
  import opened Ascii
  import opened Models

  const LoginPath: string := "/login"

  datatype Page =
    | Root
    | Login
    | UserDashboard
    | CreateTask
    | TaskList
    | EditTask(id: string)
    | TaskDetail(id: string)
    | Profile
    | AdminDashboard
    | AdminTaskDetail(id: string)
    | AdminEditTask(id: string)
    | AdminCreateTask

  /** What the router shows for a page: the page itself, or a redirect. */
  datatype Outcome = Render(page: Page) | Redirect(to: string)

  /** The path pattern of each page, with its `:id` filled in. */
  function PathOf(p: Page): seq<string> {
    match p
    case Root => []
    case Login => ["login"]
    case UserDashboard => ["dashboard"]
    case CreateTask => ["create"]
    case TaskList => ["tasks"]
    case EditTask(id) => ["edit-task", id]
    case TaskDetail(id) => ["tasks", id]
    case Profile => ["profile"]
    case AdminDashboard => ["admin-dashboard"]
    case AdminTaskDetail(id) => ["admin", "task", id]
    case AdminEditTask(id) => ["admin", "edit-task", id]
    case AdminCreateTask => ["admin", "create-task"]
  }

  /** The page's pattern ends in a `:id` parameter. */
  predicate HasParam(p: Page) {
    p.EditTask? || p.TaskDetail? || p.AdminTaskDetail? || p.AdminEditTask?
  }

  /** A path segment fits a pattern segment: a `:id` takes it as written, a static segment ignoring case. */
  predicate SegmentFits(seg: string, pattern: string, param: bool) {
    if param then seg == pattern else EqualsIgnoreCase(seg, pattern)
  }

  /** `segs` matches the pattern of `p`: same length, and each segment fits its pattern segment. */
  predicate PathMatches(segs: seq<string>, p: Page) {
    var pattern := PathOf(p);
    && |segs| == |pattern|
    && forall i :: 0 <= i < |segs| ==> SegmentFits(segs[i], pattern[i], HasParam(p) && i == |segs| - 1)
  }

  /** The static segments of the route table that share a length differ once lower-cased. */
  lemma StaticSegmentsDiffer()
    ensures ToLower("login") != ToLower("tasks")
    ensures ToLower("admin") != ToLower("tasks")
  {
    assert ToLower("login")[0] == 'l' && ToLower("tasks")[0] == 't';
    assert ToLower("admin")[0] == 'a';
  }

  /** `<Routes>`: the page whose pattern the path matches, if any. */
  function Match(segs: seq<string>): (r: Option<Page>)
    ensures r.Some? ==> PathMatches(segs, r.value)
  {
    if |segs| == 0 then Some(Root)
    else if |segs| == 1 then
      var s := segs[0];
      if EqualsIgnoreCase(s, "login") then Some(Login)
      else if EqualsIgnoreCase(s, "dashboard") then Some(UserDashboard)
      else if EqualsIgnoreCase(s, "create") then Some(CreateTask)
      else if EqualsIgnoreCase(s, "tasks") then Some(TaskList)
      else if EqualsIgnoreCase(s, "profile") then Some(Profile)
      else if EqualsIgnoreCase(s, "admin-dashboard") then Some(AdminDashboard)
      else None
    else if |segs| == 2 then
      if EqualsIgnoreCase(segs[0], "edit-task") then Some(EditTask(segs[1]))
      else if EqualsIgnoreCase(segs[0], "tasks") then Some(TaskDetail(segs[1]))
      else if EqualsIgnoreCase(segs[0], "admin") && EqualsIgnoreCase(segs[1], "create-task") then Some(AdminCreateTask)
      else None
    else if |segs| == 3 && EqualsIgnoreCase(segs[0], "admin") then
      if EqualsIgnoreCase(segs[1], "task") then Some(AdminTaskDetail(segs[2]))
      else if EqualsIgnoreCase(segs[1], "edit-task") then Some(AdminEditTask(segs[2]))
      else None
    else None
  }

  /** The role a page demands; `/` and `/login` demand none. */
  function RequiredRole(p: Page): (r: Option<string>)
    ensures r.None? <==> p == Root || p == Login
    ensures r.Some? ==> r.value == RoleUser || r.value == RoleAdmin
  {
    match p
    case Root => None
    case Login => None
    case UserDashboard => Some(RoleUser)
    case CreateTask => Some(RoleUser)
    case TaskList => Some(RoleUser)
    case EditTask(_) => Some(RoleUser)
    case TaskDetail(_) => Some(RoleUser)
    case Profile => Some(RoleUser)
    case _ => Some(RoleAdmin)
  }

  /** `token` is truthy: stored and not empty. */
  predicate HasToken(token: Option<string>) {
    token.Some? && token.value != ""
  }

  /**
   * The element a page's route renders, given the `token` and `role` read
   * when `App` last rendered: `/` always redirects, `/login` always renders, and a guarded
   * page renders only for a token and exactly its role.
   */
  function Resolve(p: Page, token: Option<string>, role: Option<string>): (o: Outcome)
    ensures p == Root ==> o == Redirect(LoginPath)
    ensures p == Login ==> o == Render(Login)
    ensures RequiredRole(p).Some? ==> (o == Render(p) <==> HasToken(token) && role == RequiredRole(p))
    ensures o == Render(p) || o == Redirect(LoginPath)
  {
    match p
    case Root => Redirect(LoginPath)
    case Login => Render(Login)
    case _ =>
      if HasToken(token) && role == RequiredRole(p) then Render(p) else Redirect(LoginPath)
  }

  /** Following a path: the outcome of the page it matches; nothing when no route matches. */
  function Navigate(segs: seq<string>, token: Option<string>, role: Option<string>): (r: Option<Outcome>)
    ensures r.Some? <==> Match(segs).Some?
    ensures r.Some? ==> r.value == Resolve(Match(segs).value, token, role)
  {
    match Match(segs)
    case None => None
    case Some(p) => Some(Resolve(p, token, role))
  }

  /**
   * No two patterns fit the same path: whenever a page's pattern fits,
   * the router finds that page and no other.
   */
  lemma MatchComplete(segs: seq<string>, p: Page)
    requires PathMatches(segs, p)
    ensures Match(segs) == Some(p)
  {
    StaticSegmentsDiffer();
    var pattern := PathOf(p);
    assert forall i :: 0 <= i < |segs| && !(HasParam(p) && i == |segs| - 1) ==> ToLower(segs[i]) == ToLower(pattern[i]);
    match p
    case Root =>
    case Login =>
    case UserDashboard =>
    case CreateTask =>
    case TaskList =>
    case Profile =>
    case AdminDashboard =>
    case EditTask(id) =>
    case TaskDetail(id) =>
    case AdminCreateTask =>
    case AdminTaskDetail(id) =>
    case AdminEditTask(id) =>
  }

  /** Every page is reached by its own path: no route shadows another. */
  lemma MatchPathOf(p: Page)
    ensures Match(PathOf(p)) == Some(p)
  {
    MatchComplete(PathOf(p), p);
  }

  /**
   * The six user pages render exactly for a token and the role "User", the
   * four administrator pages exactly for a token and the role "Admin";
   * every other case is sent to `/login`.
   */
  lemma GuardedPages(p: Page, token: Option<string>, role: Option<string>)
    ensures RequiredRole(p) == Some(RoleUser) <==>
              p.UserDashboard? || p.CreateTask? || p.TaskList? || p.EditTask? || p.TaskDetail? || p.Profile?
    ensures RequiredRole(p) == Some(RoleAdmin) <==>
              p.AdminDashboard? || p.AdminTaskDetail? || p.AdminEditTask? || p.AdminCreateTask?
    ensures RequiredRole(p).Some? && !(HasToken(token) && role == RequiredRole(p)) ==>
              Resolve(p, token, role) == Redirect(LoginPath)
  {
    assert RoleUser != RoleAdmin by { assert |RoleUser| != |RoleAdmin|; }
  }

  /** No guarded page renders under two different roles: an administrator is sent away from user pages and the reverse. */
  lemma OneRolePerPage(p: Page, t1: Option<string>, r1: Option<string>, t2: Option<string>, r2: Option<string>)
    requires RequiredRole(p).Some?
    requires Resolve(p, t1, r1).Render? && Resolve(p, t2, r2).Render?
    ensures r1 == r2
  {
  }

  /** Changing only the token's text never changes what renders, as long as it stays non-empty. */
  lemma TokenContentIgnored(p: Page, t1: string, t2: string, role: Option<string>)
    requires t1 != "" && t2 != ""
    ensures Resolve(p, Some(t1), role) == Resolve(p, Some(t2), role)
  {
  }
}

=== FILE: seqs.dfy ===
/**
 * Sequence and set helpers that stand in for the LINQ operators the
 * controllers use (`Where`, `FirstOrDefault`, `OrderByDescending`,
 * `Take`) and for the JavaScript `Array.prototype.filter` of the client.
 */
module Seqs {
  import opened Base

  /** `a` can be obtained from `b` by deleting elements (order kept). */
  predicate IsSubseq<T(==)>(a: seq<T>, b: seq<T>)
    decreases |b|
  {
    |a| == 0 ||
    (|b| > 0 &&
     if a[0] == b[0] then IsSubseq(a[1..], b[1..]) else IsSubseq(a, b[1..]))
  }

  /** Every element of a subsequence is an element of the whole. */
  lemma {:induction false} SubseqMembers<T>(a: seq<T>, b: seq<T>)
    requires IsSubseq(a, b)
    ensures forall i :: 0 <= i < |a| ==> a[i] in b
    decreases |b|
  {
    if |a| > 0 {
      if a[0] == b[0] {
        SubseqMembers(a[1..], b[1..]);
        forall i | 1 <= i < |a|
          ensures a[i] in b
        {
          assert a[i] == a[1..][i - 1];
        }
      } else {
        SubseqMembers(a, b[1..]);
      }
    }
  }

  /** A key that strictly increases along `b` strictly increases along every subsequence of `b`. */
  lemma {:induction false} SubseqIncreasing<T>(a: seq<T>, b: seq<T>, key: T -> int)
    requires IsSubseq(a, b)
    requires forall i, j :: 0 <= i < j < |b| ==> key(b[i]) < key(b[j])
    ensures forall i, j :: 0 <= i < j < |a| ==> key(a[i]) < key(a[j])
    decreases |b|
  {
    if |a| > 0 {
      if a[0] == b[0] {
        SubseqIncreasing(a[1..], b[1..], key);
        SubseqMembers(a[1..], b[1..]);
        forall i, j | 0 <= i < j < |a|
          ensures key(a[i]) < key(a[j])
        {
          if i == 0 {
            assert a[j] == a[1..][j - 1];
            var m :| 0 <= m < |b[1..]| && b[1..][m] == a[j];
            assert b[m + 1] == a[j];
          } else {
            assert a[i] == a[1..][i - 1] && a[j] == a[1..][j - 1];
          }
        }
      } else {
        SubseqIncreasing(a, b[1..], key);
      }
    }
  }

  /** No element occurs twice. */
  predicate Distinct<T(==)>(s: seq<T>) {
    forall i, j :: 0 <= i < j < |s| ==> s[i] != s[j]
  }

  /** In a sequence without repeats every value occurs at most once. */
  lemma {:induction false} DistinctOnce<T>(s: seq<T>, x: T)
    requires Distinct(s)
    ensures multiset(s)[x] <= 1
    decreases |s|
  {
    if |s| > 0 {
      assert s == [s[0]] + s[1..];
      assert Distinct(s[1..]) by {
        forall i, j | 0 <= i < j < |s[1..]|
          ensures s[1..][i] != s[1..][j]
        {
          assert s[1..][i] == s[i + 1] && s[1..][j] == s[j + 1];
        }
      }
      DistinctOnce(s[1..], x);
      if x == s[0] {
        forall k | 0 <= k < |s[1..]|
          ensures s[1..][k] != x
        {
          assert s[1..][k] == s[k + 1];
        }
        assert x !in s[1..];
      }
    }
  }

  /** A permutation of a sequence without repeats has none either. */
  lemma DistinctPermutation<T>(a: seq<T>, b: seq<T>)
    requires multiset(a) == multiset(b)
    requires Distinct(b)
    ensures Distinct(a)
  {
    forall i, j | 0 <= i < j < |a|
      ensures a[i] != a[j]
    {
      var x := a[i];
      DistinctOnce(b, x);
      assert a == a[..j] + a[j..];
      assert a[..j][i] == x;
      assert multiset(a[..j])[x] >= 1;
      assert multiset(a)[x] == multiset(a[..j])[x] + multiset(a[j..])[x];
      assert multiset(a[j..])[x] == 0;
      assert a[j..][0] == a[j];
      assert multiset(a[j..])[a[j]] >= 1;
    }
  }

  /** Number of elements of `s` satisfying `p`. */
  function Count<T>(s: seq<T>, p: T -> bool): (n: nat)
    ensures n <= |s|
  {
    if |s| == 0 then 0 else (if p(s[0]) then 1 else 0) + Count(s[1..], p)
  }

  /** Order-preserving filter (`Where`, `Array.filter`). */
  function Filter<T(==)>(s: seq<T>, p: T -> bool): (r: seq<T>)
    ensures forall i :: 0 <= i < |r| ==> r[i] in s && p(r[i])
    ensures forall i :: 0 <= i < |s| && p(s[i]) ==> s[i] in r
    ensures |r| == Count(s, p)
    ensures IsSubseq(r, s)
  {
    if |s| == 0 then []
    else if p(s[0]) then [s[0]] + Filter(s[1..], p)
    else Filter(s[1..], p)
  }

  /** Every element `p` keeps is kept: the filter of a sequence whose elements all pass is itself. */
  lemma {:induction false} FilterAllPass<T>(s: seq<T>, p: T -> bool)
    requires forall i :: 0 <= i < |s| ==> p(s[i])
    ensures Filter(s, p) == s
  {
    if |s| > 0 {
      FilterAllPass(s[1..], p);
    }
  }

  /** Filtering a concatenation filters each part. */
  lemma {:induction false} FilterAppend<T>(a: seq<T>, b: seq<T>, p: T -> bool)
    ensures Filter(a + b, p) == Filter(a, p) + Filter(b, p)
  {
    if |a| > 0 {
      assert (a + b)[1..] == a[1..] + b;
      FilterAppend(a[1..], b, p);
    } else {
      assert a + b == b;
    }
  }

  /** Two filters applied one after the other give the same result in either order. */
  lemma {:induction false} FilterCommute<T>(s: seq<T>, p: T -> bool, q: T -> bool)
    ensures Filter(Filter(s, p), q) == Filter(Filter(s, q), p)
  {
    if |s| > 0 {
      var x, rest := s[0], s[1..];
      FilterCommute(rest, p, q);
      if p(x) {
        ConsFilter(x, Filter(rest, p), q);
      }
      if q(x) {
        ConsFilter(x, Filter(rest, q), p);
      }
    }
  }

  /** Filtering a sequence that starts with `x`. */
  lemma ConsFilter<T>(x: T, rest: seq<T>, p: T -> bool)
    ensures Filter([x] + rest, p) == (if p(x) then [x] + Filter(rest, p) else Filter(rest, p))
  {
    assert ([x] + rest)[1..] == rest;
  }

  /** The elements a filter keeps and the ones it drops account for the whole sequence. */
  lemma {:induction false} CountSplit<T>(s: seq<T>, p: T -> bool, q: T -> bool)
    requires forall x :: q(x) <==> !p(x)
    ensures Count(s, p) + Count(s, q) == |s|
  {
    if |s| > 0 {
      CountSplit(s[1..], p, q);
    }
  }

  /** `Map` as `Select`. */
  function MapSeq<T, U>(s: seq<T>, f: T -> U): (r: seq<U>)
    ensures |r| == |s|
    ensures forall i :: 0 <= i < |s| ==> r[i] == f(s[i])
  {
    seq(|s|, i requires 0 <= i < |s| => f(s[i]))
  }

  /** Index of the first element of `s` satisfying `p` (`FirstOrDefault`). */
  function FirstIndex<T>(s: seq<T>, p: T -> bool): (r: Option<nat>)
    ensures r.Some? ==> r.value < |s| && p(s[r.value])
    ensures r.Some? ==> forall j :: 0 <= j < r.value ==> !p(s[j])
    ensures r.None? <==> forall j :: 0 <= j < |s| ==> !p(s[j])
  {
    if |s| == 0 then None
    else if p(s[0]) then Some(0)
    else match FirstIndex(s[1..], p)
      case None => None
      case Some(k) => Some(k + 1)
  }

  /** The first element of `s` satisfying `p`, if any (`FirstOrDefault`). */
  function FirstMatch<T>(s: seq<T>, p: T -> bool): (r: Option<T>)
    ensures r.Some? ==> p(r.value) && r.value in s
    ensures r.None? <==> forall j :: 0 <= j < |s| ==> !p(s[j])
  {
    match FirstIndex(s, p)
    case None => None
    case Some(k) => Some(s[k])
  }

  /** The first match is determined by the prefix that ends at the first match. */
  lemma FirstMatchAt<T>(s: seq<T>, p: T -> bool, k: nat)
    requires k < |s| && p(s[k])
    requires forall j :: 0 <= j < k ==> !p(s[j])
    ensures FirstMatch(s, p) == Some(s[k])
  {
    var r := FirstIndex(s, p);
    assert r.Some?;
    assert r.value == k;
  }

  /** `s` is ordered from the largest `key` to the smallest. */
  predicate SortedDesc<T>(s: seq<T>, key: T -> int) {
    forall i, j :: 0 <= i < j < |s| ==> key(s[i]) >= key(s[j])
  }

  /** Inserts `x` into a descending sequence before the first element whose key is not larger. */
  function InsertDesc<T>(x: T, s: seq<T>, key: T -> int): (r: seq<T>)
    requires SortedDesc(s, key)
    ensures SortedDesc(r, key)
    ensures multiset(r) == multiset(s) + multiset{x}
    ensures |r| == |s| + 1
  {
    if |s| == 0 || key(s[0]) <= key(x) then [x] + s
    else
      var rest := InsertDesc(x, s[1..], key);
      assert multiset(s) == multiset{s[0]} + multiset(s[1..]) by {
        assert s == [s[0]] + s[1..];
      }
      InsertLeadKeeps(s[0], rest, s[1..], x, key);
      [s[0]] + rest
  }

  /** Helper for `InsertDesc`: a head at least as large as everything after it keeps the sequence sorted. */
  lemma InsertLeadKeeps<T>(h: T, rest: seq<T>, s: seq<T>, x: T, key: T -> int)
    requires SortedDesc(rest, key)
    requires multiset(rest) == multiset(s) + multiset{x}
    requires key(h) > key(x)
    requires forall i :: 0 <= i < |s| ==> key(h) >= key(s[i])
    ensures SortedDesc([h] + rest, key)
  {
    forall j | 0 <= j < |rest|
      ensures key(h) >= key(rest[j])
    {
      assert rest[j] in multiset(rest);
      assert rest[j] in multiset(s) || rest[j] == x;
      if rest[j] != x {
        assert rest[j] in s;
        var i :| 0 <= i < |s| && s[i] == rest[j];
      }
    }
  }

  /** `OrderByDescending(key)`: a permutation of `s` ordered from the largest key down. */
  function SortDescBy<T>(s: seq<T>, key: T -> int): (r: seq<T>)
    ensures SortedDesc(r, key)
    ensures multiset(r) == multiset(s)
    ensures |r| == |s|
  {
    if |s| == 0 then []
    else
      assert s == [s[0]] + s[1..];
      InsertDesc(s[0], SortDescBy(s[1..], key), key)
  }

  /** Sorting keeps the elements and, when there are no repeats, still has none. */
  lemma SortKeepsElements<T>(s: seq<T>, key: T -> int)
    ensures forall x :: x in SortDescBy(s, key) <==> x in s
    ensures Distinct(s) ==> Distinct(SortDescBy(s, key))
  {
    var r := SortDescBy(s, key);
    forall x
      ensures x in r <==> x in s
    {
      calc {
        x in r;
        x in multiset(r);
        x in multiset(s);
        x in s;
      }
    }
    if Distinct(s) {
      DistinctPermutation(r, s);
    }
  }

  /** `s` is ordered strictly upwards. */
  predicate StrictlyIncreasing(s: seq<int>) {
    forall i, j :: 0 <= i < j < |s| ==> s[i] < s[j]
  }

  /** A set is empty or has a member. */
  lemma EmptyOrInhabited(s: set<Int32>)
    ensures s == {} || exists z :: z in s
  {
    if forall z :: z !in s {
      assert s == {};
    }
  }

  /** A non-empty finite set of 32-bit integers has an element below all others. */
  lemma LeastElement(s: set<Int32>) returns (m: Int32)
    requires s != {}
    ensures m in s && forall x :: x in s ==> m <= x
    decreases |s|
  {
    EmptyOrInhabited(s);
    var y :| y in s;
    if s == {y} {
      m := y;
    } else {
      var t := s - {y};
      assert t < s;
      var mt := LeastElement(t);
      m := if y < mt then y else mt;
      forall x | x in s
        ensures m <= x
      {
        if x != y {
          assert x in t;
        }
      }
    }
  }

  /** A non-empty finite set of 32-bit integers has an element above all others. */
  lemma GreatestElement(s: set<Int32>) returns (m: Int32)
    requires s != {}
    ensures m in s && forall x :: x in s ==> x <= m
    decreases |s|
  {
    EmptyOrInhabited(s);
    var y :| y in s;
    if s == {y} {
      m := y;
    } else {
      var t := s - {y};
      assert t < s;
      var mt := GreatestElement(t);
      m := if y > mt then y else mt;
      forall x | x in s
        ensures x <= m
      {
        if x != y {
          assert x in t;
        }
      }
    }
  }

  lemma MinExists(s: set<Int32>)
    requires s != {}
    ensures exists m :: m in s && forall x :: x in s ==> m <= x
  {
    var m := LeastElement(s);
  }

  lemma MaxExists(s: set<Int32>)
    requires s != {}
    ensures exists m :: m in s && forall x :: x in s ==> x <= m
  {
    var m := GreatestElement(s);
  }

  /** The least element of a non-empty finite set of 32-bit integers. */
  function SetMin(s: set<Int32>): (m: Int32)
    requires s != {}
    ensures m in s && forall x :: x in s ==> m <= x
  {
    MinExists(s);
    var m :| m in s && forall x :: x in s ==> m <= x; m
  }

  /** The largest element of a non-empty finite set of 32-bit integers. */
  function SetMax(s: set<Int32>): (m: Int32)
    requires s != {}
    ensures m in s && forall x :: x in s ==> x <= m
  {
    MaxExists(s);
    var m :| m in s && forall x :: x in s ==> x <= m; m
  }

  /** The elements of a finite set in ascending order: the enumeration order of a table. */
  function SortedKeys(s: set<Int32>): (r: seq<Int32>)
    ensures forall x :: x in r <==> x in s
    ensures StrictlyIncreasing(r)
    ensures |r| == |s|
    decreases |s|
  {
    if s == {} then []
    else
      var m := SetMin(s);
      var rest := SortedKeys(s - {m});
      assert |s - {m}| == |s| - 1;
      ConsIncreasing(m, rest);
      [m] + rest
  }

  /** Putting an element below all others in front of an ascending sequence keeps it ascending. */
  lemma ConsIncreasing(m: int, rest: seq<int>)
    requires StrictlyIncreasing(rest)
    requires forall x :: x in rest ==> m < x
    ensures StrictlyIncreasing([m] + rest)
  {
    var r := [m] + rest;
    forall i, j | 0 <= i < j < |r|
      ensures r[i] < r[j]
    {
      assert r[j] == rest[j - 1] && rest[j - 1] in rest;
      if i > 0 {
        assert r[i] == rest[i - 1];
      }
    }
  }

  /** Reverses a sequence. */
  function Reverse<T>(s: seq<T>): (r: seq<T>)
    ensures |r| == |s|
    ensures forall i {:trigger r[i]} :: 0 <= i < |s| ==> r[i] == s[|s| - 1 - i]
  {
    seq(|s|, i requires 0 <= i < |s| => s[|s| - 1 - i])
  }

  /** `Take(n)`: at most the first `n` elements. */
  function Take<T>(s: seq<T>, n: nat): (r: seq<T>)
    ensures |r| == if |s| < n then |s| else n
    ensures forall i :: 0 <= i < |r| ==> r[i] == s[i]
  {
    if |s| < n then s else s[..n]
  }
}

=== FILE: task_list.dfy ===
/**
 * The client's task list page (`TaskList`): the rows it shows for the
 * chosen status filter and search text, and how the list changes after a
 * delete the server accepted. Lower-casing is ASCII only.
 */
module TaskList {
  import opened Seqs
  import opened Ascii

  /** A fetched task as the page keeps it; the due date is already formatted for display. */
  datatype TaskRow = TaskRow(id: int, title: string, status: string, dueDate: string)

  /** An empty filter lets every row through; otherwise the lower-cased field must contain it. */
  predicate MatchesText(field: string, filter: string) {
    filter == "" || Includes(ToLower(field), ToLower(filter))
  }

  /** The row passes both the status filter and the search text. */
  predicate Shown(t: TaskRow, statusFilter: string, searchText: string) {
    MatchesText(t.status, statusFilter) && MatchesText(t.title, searchText)
  }

  function ShownBy(statusFilter: string, searchText: string): (p: TaskRow -> bool)
    ensures forall t :: p(t) <==> Shown(t, statusFilter, searchText)
  {
    (t: TaskRow) => Shown(t, statusFilter, searchText)
  }

  /** `filteredTasks`: the rows shown, in the order fetched. */
  function FilteredTasks(tasks: seq<TaskRow>, statusFilter: string, searchText: string): (r: seq<TaskRow>)
    ensures IsSubseq(r, tasks)
    ensures forall t :: t in r <==> t in tasks && Shown(t, statusFilter, searchText)
    ensures |r| == Count(tasks, ShownBy(statusFilter, searchText))
  {
    Filter(tasks, ShownBy(statusFilter, searchText))
  }

  function IdIsNot(taskId: int): (p: TaskRow -> bool)
    ensures forall t :: p(t) <==> t.id != taskId
  {
    (t: TaskRow) => t.id != taskId
  }

  function IdIs(taskId: int): (p: TaskRow -> bool)
    ensures forall t :: p(t) <==> t.id == taskId
  {
    (t: TaskRow) => t.id == taskId
  }

  /** `prev.filter(task => task.id !== taskId)` after a delete the server accepted. */
  function AfterDelete(tasks: seq<TaskRow>, taskId: int): (r: seq<TaskRow>)
    ensures IsSubseq(r, tasks)
    ensures forall t :: t in r <==> t in tasks && t.id != taskId
    ensures |r| + Count(tasks, IdIs(taskId)) == |tasks|
  {
    CountSplit(tasks, IdIsNot(taskId), IdIs(taskId));
    Filter(tasks, IdIsNot(taskId))
  }

  /** With no status chosen and no search text, the page shows every row, in order. */
  lemma NoFilterShowsAll(tasks: seq<TaskRow>)
    ensures FilteredTasks(tasks, "", "") == tasks
  {
    FilterAllPass(tasks, ShownBy("", ""));
  }

  /**
   * The empty-filter short cut changes nothing: the empty string occurs in
   * every lower-cased field anyway.
   */
  lemma EmptyFilterRedundant(field: string, filter: string)
    ensures MatchesText(field, filter) <==> Includes(ToLower(field), ToLower(filter))
  {
    if filter == "" {
      IncludesEmpty(ToLower(field));
    }
  }

  /** Deleting and then filtering shows the same rows as filtering and then deleting. */
  lemma DeleteCommutesWithFilter(tasks: seq<TaskRow>, taskId: int, statusFilter: string, searchText: string)
    ensures FilteredTasks(AfterDelete(tasks, taskId), statusFilter, searchText)
         == AfterDelete(FilteredTasks(tasks, statusFilter, searchText), taskId)
  {
    FilterCommute(tasks, IdIsNot(taskId), ShownBy(statusFilter, searchText));
  }

  /** Deleting an id the list does not hold leaves it as it was. */
  lemma DeleteAbsentKeeps(tasks: seq<TaskRow>, taskId: int)
    requires forall i :: 0 <= i < |tasks| ==> tasks[i].id != taskId
    ensures AfterDelete(tasks, taskId) == tasks
  {
    FilterAllPass(tasks, IdIsNot(taskId));
  }
}

=== FILE: tasks.dfy ===
/**
 * `TasksController` (behind `[Authorize]`): the caller's own task list.
 * Every action first reads the caller's id from the claims
 * (`GetCurrentUserId`) and answers 401 without touching the store when
 * there is none; every lookup is scoped to `Id == id && UserId == caller`,
 * so a task owned by someone else is indistinguishable from a missing one.
 * Exceptions, including a missing request body, go through
 * `HandleServerError`.
 */
module Tasks {
  import opened Base
  import opened Seqs
  import opened Models
  import opened Claims
  import opened Tokens
  import opened Http

  const InvalidToken: string := "Invalid user token"
  const NotFoundOrUnauthorized: string := "Task not found or unauthorized"
  const InternalError: string := "An internal server error occurred"
  const TaskCreated: string := "Task created successfully!"
  const TaskUpdated: string := "Task updated successfully!"
  const TaskDeleted: string := "Task deleted successfully"

  /**
   * `BaseTaskController.HandleServerError(ex, methodName)`: the exception is
   * logged and then dropped; the client sees a fixed 500.
   */
  function HandleServerError<T>(exceptionMessage: string, methodName: string): (r: Reply<T>)
    ensures r.Status() == ServerError
    ensures r.Fail? && r.message == InternalError && r.error == None
  {
    Refuse(ServerError, InternalError)
  }

  /** Nothing of the exception or of the action reaches the client. */
  lemma ServerErrorHidesException<T>(e1: string, m1: string, e2: string, m2: string)
    ensures HandleServerError<T>(e1, m1) == HandleServerError<T>(e2, m2)
  {
  }

  /** Task `id` exists and belongs to `uid`. */
  predicate OwnedBy(st: Store, id: Int32, uid: Int32) {
    id in st.tasks && st.tasks[id].userId == uid
  }

  /** The `Where(t => t.UserId == uid)` filter. */
  function OwnerIs(uid: Int32): (p: UserTask -> bool)
    ensures forall t :: p(t) <==> t.userId == uid
  {
    (t: UserTask) => t.userId == uid
  }

  /** The `OrderByDescending(t => t.DueDate)` key: a missing due date sorts below every date. */
  function DueKey(t: UserTask): (k: int)
    ensures t.dueDate.None? ==> k < 0
    ensures t.dueDate.Some? ==> k == t.dueDate.value
  {
    match t.dueDate
    case None => -1
    case Some(d) => d
  }

  /** `v` lists the tasks `uid` owns, as stored, each once, latest due date first. */
  predicate ListsOwnTasks(st: Store, uid: Int32, v: seq<UserTask>) {
    && (forall x :: x in v ==> OwnedBy(st, x.id, uid) && st.tasks[x.id] == x)
    && (forall k :: OwnedBy(st, k, uid) ==> st.tasks[k] in v)
    && Distinct(v)
    && SortedDesc(v, DueKey)
  }

  /** `GET api/tasks`: the caller's tasks, latest due date first. */
  function GetTasks(claims: seq<Claim>, st: Store, fault: Option<string>): (r: Step<seq<UserTask>>)
    ensures r.store == st
    ensures GetCurrentUserId(claims).None? ==> r.reply == Refuse(Unauthorized, InvalidToken)
    ensures GetCurrentUserId(claims).Some? && fault.Some? ==> r.reply == HandleServerError(fault.value, "GetTasks")
    ensures r.reply.Ok? <==> GetCurrentUserId(claims).Some? && fault.None?
    ensures r.reply.Ok? ==> ListsOwnTasks(st, GetCurrentUserId(claims).value, r.reply.value)
  {
    match GetCurrentUserId(claims)
    case None => Step(Refuse(Unauthorized, InvalidToken), st)
    case Some(uid) =>
      if fault.Some? then Step(HandleServerError(fault.value, "GetTasks"), st)
      else
        ByDueFacts(st, uid);
        Step(Ok(SortDescBy(TasksWhere(st, OwnerIs(uid)), DueKey)), st)
  }

  /** The caller's tasks sorted by due date are exactly the caller's tasks, once each, latest due first. */
  lemma ByDueFacts(st: Store, uid: Int32)
    ensures ListsOwnTasks(st, uid, SortDescBy(TasksWhere(st, OwnerIs(uid)), DueKey))
  {
    var own := TasksWhere(st, OwnerIs(uid));
    var v := SortDescBy(own, DueKey);
    assert forall x :: x in v ==> OwnedBy(st, x.id, uid) && st.tasks[x.id] == x by {
      OwnRows(st, uid, own);
      SortKeepsElements(own, DueKey);
    }
    assert forall k :: OwnedBy(st, k, uid) ==> st.tasks[k] in v by {
      OwnRows(st, uid, own);
      SortKeepsElements(own, DueKey);
    }
    assert Distinct(v) by {
      OwnRows(st, uid, own);
      SortKeepsElements(own, DueKey);
    }
  }

  /** The rows `Where(t => t.UserId == uid)` returns, restated in terms of ownership. */
  lemma OwnRows(st: Store, uid: Int32, own: seq<UserTask>)
    requires forall i :: 0 <= i < |own| ==> own[i].id in st.tasks && st.tasks[own[i].id] == own[i] && OwnerIs(uid)(own[i])
    requires forall k :: k in st.tasks && OwnerIs(uid)(st.tasks[k]) ==> st.tasks[k] in own
    requires forall i, j :: 0 <= i < j < |own| ==> own[i].id < own[j].id
    ensures forall x :: x in own ==> OwnedBy(st, x.id, uid) && st.tasks[x.id] == x
    ensures forall k :: OwnedBy(st, k, uid) ==> st.tasks[k] in own
    ensures Distinct(own)
  {
    forall x | x in own
      ensures OwnedBy(st, x.id, uid) && st.tasks[x.id] == x
    {
      var j :| 0 <= j < |own| && own[j] == x;
      assert OwnerIs(uid)(own[j]);
    }
    forall k | OwnedBy(st, k, uid)
      ensures st.tasks[k] in own
    {
      assert OwnerIs(uid)(st.tasks[k]);
    }
  }

  /** `GET api/tasks/{id}`. */
  function GetTaskById(claims: seq<Claim>, st: Store, id: Int32, fault: Option<string>): (r: Step<UserTask>)
    ensures r.store == st
    ensures GetCurrentUserId(claims).None? ==> r.reply == Refuse(Unauthorized, InvalidToken)
    ensures GetCurrentUserId(claims).Some? && fault.Some? ==> r.reply == HandleServerError(fault.value, "GetTaskById")
    ensures r.reply.Ok? <==> GetCurrentUserId(claims).Some? && fault.None? && OwnedBy(st, id, GetCurrentUserId(claims).value)
    ensures r.reply.Ok? ==> r.reply.value == st.tasks[id]
    ensures GetCurrentUserId(claims).Some? && fault.None? && !OwnedBy(st, id, GetCurrentUserId(claims).value) ==>
              r.reply == Refuse(NotFound, NotFoundOrUnauthorized)
  {
    match GetCurrentUserId(claims)
    case None => Step(Refuse(Unauthorized, InvalidToken), st)
    case Some(uid) =>
      if fault.Some? then Step(HandleServerError(fault.value, "GetTaskById"), st)
      else if !OwnedBy(st, id, uid) then Step(Refuse(NotFound, NotFoundOrUnauthorized), st)
      else Step(Ok(st.tasks[id]), st)
  }

  /**
   * `POST api/tasks/create`. The new task is owned by the caller whatever
   * `UserId` the payload names; `dto` is `None` for a body that did not
   * bind, which fails with a null dereference. A payload missing a
   * required field makes the save throw.
   */
  function CreateTask(claims: seq<Claim>, st: Store, dto: Option<CreateTaskDto>, fault: Option<string>): (r: Step<string>)
    ensures !r.reply.Ok? ==> r.store == st
    ensures GetCurrentUserId(claims).None? ==> r.reply == Refuse(Unauthorized, InvalidToken)
    ensures GetCurrentUserId(claims).Some? && (fault.Some? || dto.None?) ==> r.reply.Status() == ServerError
    ensures GetCurrentUserId(claims).Some? && dto.Some? && !Storable(dto.value) ==> r.reply.Status() == ServerError
    ensures r.reply.Fail? && r.reply.status == ServerError ==> r.reply == HandleServerError("", "CreateTask")
    ensures r.reply.Ok? <==> GetCurrentUserId(claims).Some? && fault.None? && dto.Some? && Storable(dto.value)
                             && NextId(st.tasks.Keys).Some?
    ensures r.reply.Ok? ==> r.reply.value == TaskCreated
    ensures r.reply.Ok? ==> exists k :: k !in st.tasks && r.store == PutTask(st, FromDto(dto.value, k, GetCurrentUserId(claims).value))
  {
    match GetCurrentUserId(claims)
    case None => Step(Refuse(Unauthorized, InvalidToken), st)
    case Some(uid) =>
      if fault.Some? || dto.None? then Step(HandleServerError(fault.GetOr(""), "CreateTask"), st)
      else if !Storable(dto.value) then Step(HandleServerError(SaveFailed, "CreateTask"), st)
      else
        match NextId(st.tasks.Keys)
        case None => Step(HandleServerError("", "CreateTask"), st)
        case Some(k) => Step(Ok(TaskCreated), PutTask(st, FromDto(dto.value, k, uid)))
  }

  /**
   * `PUT api/tasks/{id}`: overwrites the five payload fields of a task the
   * caller owns. The lookup comes before the payload is read, so a missing
   * body is a 404 for an unknown task and a 500 for an owned one; so is a
   * payload missing a required field, whose save throws.
   */
  function UpdateTask(claims: seq<Claim>, st: Store, id: Int32, dto: Option<CreateTaskDto>, fault: Option<string>): (r: Step<string>)
    ensures !r.reply.Ok? ==> r.store == st
    ensures GetCurrentUserId(claims).None? ==> r.reply == Refuse(Unauthorized, InvalidToken)
    ensures GetCurrentUserId(claims).Some? && fault.Some? ==> r.reply == HandleServerError(fault.value, "UpdateTask")
    ensures GetCurrentUserId(claims).Some? && fault.None? && !OwnedBy(st, id, GetCurrentUserId(claims).value) ==>
              r.reply == Refuse(NotFound, NotFoundOrUnauthorized)
    ensures GetCurrentUserId(claims).Some? && fault.None? && OwnedBy(st, id, GetCurrentUserId(claims).value) ==>
              (dto.None? || !Storable(dto.value)) ==> r.reply.Status() == ServerError
    ensures r.reply.Ok? <==> GetCurrentUserId(claims).Some? && fault.None? && dto.Some? && Storable(dto.value)
                             && OwnedBy(st, id, GetCurrentUserId(claims).value)
    ensures r.reply.Ok? ==> r.reply.value == TaskUpdated && r.store == PutTask(st, WithDto(st.tasks[id], dto.value))
  {
    match GetCurrentUserId(claims)
    case None => Step(Refuse(Unauthorized, InvalidToken), st)
    case Some(uid) =>
      if fault.Some? then Step(HandleServerError(fault.value, "UpdateTask"), st)
      else if !OwnedBy(st, id, uid) then Step(Refuse(NotFound, NotFoundOrUnauthorized), st)
      else if dto.None? then Step(HandleServerError("", "UpdateTask"), st)
      else if !Storable(dto.value) then Step(HandleServerError(SaveFailed, "UpdateTask"), st)
      else Step(Ok(TaskUpdated), PutTask(st, WithDto(st.tasks[id], dto.value)))
  }

  /** `DELETE api/tasks/{id}`: removes a task the caller owns. */
  function DeleteTask(claims: seq<Claim>, st: Store, id: Int32, fault: Option<string>): (r: Step<string>)
    ensures !r.reply.Ok? ==> r.store == st
    ensures GetCurrentUserId(claims).None? ==> r.reply == Refuse(Unauthorized, InvalidToken)
    ensures GetCurrentUserId(claims).Some? && fault.Some? ==> r.reply == HandleServerError(fault.value, "DeleteTask")
    ensures GetCurrentUserId(claims).Some? && fault.None? && !OwnedBy(st, id, GetCurrentUserId(claims).value) ==>
              r.reply == Refuse(NotFound, NotFoundOrUnauthorized)
    ensures r.reply.Ok? <==> GetCurrentUserId(claims).Some? && fault.None? && OwnedBy(st, id, GetCurrentUserId(claims).value)
    ensures r.reply.Ok? ==> r.reply.value == TaskDeleted && r.store == RemoveTask(st, id)
  {
    match GetCurrentUserId(claims)
    case None => Step(Refuse(Unauthorized, InvalidToken), st)
    case Some(uid) =>
      if fault.Some? then Step(HandleServerError(fault.value, "DeleteTask"), st)
      else if !OwnedBy(st, id, uid) then Step(Refuse(NotFound, NotFoundOrUnauthorized), st)
      else Step(Ok(TaskDeleted), RemoveTask(st, id))
  }

  /** `after` keeps every task of owners other than `uid`, and every user, as they were in `before`. */
  predicate OthersKept(before: Store, after: Store, uid: Int32) {
    && after.users == before.users
    && forall k :: k in before.tasks && before.tasks[k].userId != uid ==>
         k in after.tasks && after.tasks[k] == before.tasks[k]
  }

  /** No action of a caller changes a user, or a task that someone else owns. */
  lemma OthersTasksUntouched(claims: seq<Claim>, st: Store, id: Int32, dto: Option<CreateTaskDto>, fault: Option<string>)
    requires GetCurrentUserId(claims).Some?
    ensures var uid := GetCurrentUserId(claims).value;
            && OthersKept(st, CreateTask(claims, st, dto, fault).store, uid)
            && OthersKept(st, UpdateTask(claims, st, id, dto, fault).store, uid)
            && OthersKept(st, DeleteTask(claims, st, id, fault).store, uid)
  {
    CreateKeepsOthers(claims, st, dto, fault);
    UpdateKeepsOthers(claims, st, id, dto, fault);
    DeleteKeepsOthers(claims, st, id, fault);
  }

  lemma CreateKeepsOthers(claims: seq<Claim>, st: Store, dto: Option<CreateTaskDto>, fault: Option<string>)
    requires GetCurrentUserId(claims).Some?
    ensures OthersKept(st, CreateTask(claims, st, dto, fault).store, GetCurrentUserId(claims).value)
  {
    var uid := GetCurrentUserId(claims).value;
    var c := CreateTask(claims, st, dto, fault);
    if c.reply.Ok? {
      var k :| k !in st.tasks && c.store == PutTask(st, FromDto(dto.value, k, uid));
    }
  }

  lemma UpdateKeepsOthers(claims: seq<Claim>, st: Store, id: Int32, dto: Option<CreateTaskDto>, fault: Option<string>)
    requires GetCurrentUserId(claims).Some?
    ensures OthersKept(st, UpdateTask(claims, st, id, dto, fault).store, GetCurrentUserId(claims).value)
  {
  }

  lemma DeleteKeepsOthers(claims: seq<Claim>, st: Store, id: Int32, fault: Option<string>)
    requires GetCurrentUserId(claims).Some?
    ensures OthersKept(st, DeleteTask(claims, st, id, fault).store, GetCurrentUserId(claims).value)
  {
  }

  /**
   * A task owned by someone else answers every single-task action exactly
   * as if it did not exist, and is left in place.
   */
  lemma ForeignTaskLooksMissing(claims: seq<Claim>, st: Store, id: Int32, dto: Option<CreateTaskDto>, fault: Option<string>)
    requires GetCurrentUserId(claims).Some?
    requires id in st.tasks && st.tasks[id].userId != GetCurrentUserId(claims).value
    ensures var hidden := RemoveTask(st, id);
            && GetTaskById(claims, st, id, fault).reply == GetTaskById(claims, hidden, id, fault).reply
            && UpdateTask(claims, st, id, dto, fault).reply == UpdateTask(claims, hidden, id, dto, fault).reply
            && DeleteTask(claims, st, id, fault).reply == DeleteTask(claims, hidden, id, fault).reply
            && UpdateTask(claims, st, id, dto, fault).store == st
            && DeleteTask(claims, st, id, fault).store == st
  {
    assert !OwnedBy(RemoveTask(st, id), id, GetCurrentUserId(claims).value);
  }

  /** The task list depends only on the caller's own tasks. */
  lemma GetTasksIgnoresOthers(claims: seq<Claim>, st1: Store, st2: Store, fault: Option<string>)
    requires GetCurrentUserId(claims).Some?
    requires var uid := GetCurrentUserId(claims).value;
             forall k :: OwnedBy(st1, k, uid) <==> OwnedBy(st2, k, uid)
    requires var uid := GetCurrentUserId(claims).value;
             forall k :: OwnedBy(st1, k, uid) ==> st1.tasks[k] == st2.tasks[k]
    ensures GetTasks(claims, st1, fault).reply == GetTasks(claims, st2, fault).reply
  {
    var uid := GetCurrentUserId(claims).value;
    TasksWhereLocal(st1, st2, OwnerIs(uid));
  }

  /** After a successful update the caller reads back the task with the payload applied. */
  lemma UpdateThenGet(claims: seq<Claim>, st: Store, id: Int32, dto: CreateTaskDto)
    requires UpdateTask(claims, st, id, Some(dto), None).reply.Ok?
    ensures var after := UpdateTask(claims, st, id, Some(dto), None).store;
            GetTaskById(claims, after, id, None).reply == Ok(WithDto(st.tasks[id], dto))
  {
  }

  /** After a successful delete the caller's lookup of that id is a 404. */
  lemma DeleteThenGet(claims: seq<Claim>, st: Store, id: Int32)
    requires DeleteTask(claims, st, id, None).reply.Ok?
    ensures var after := DeleteTask(claims, st, id, None).store;
            GetTaskById(claims, after, id, None).reply == Refuse(NotFound, NotFoundOrUnauthorized)
  {
  }

  /** A list of the caller's tasks holds an entry with key `id` exactly when the caller owns `id`, and that entry is the stored task. */
  lemma OwnListHolds(st: Store, uid: Int32, v: seq<UserTask>, id: Int32)
    requires ListsOwnTasks(st, uid, v)
    ensures (exists i :: 0 <= i < |v| && v[i].id == id) <==> OwnedBy(st, id, uid)
    ensures forall i :: 0 <= i < |v| && v[i].id == id ==> v[i] == st.tasks[id]
  {
    if OwnedBy(st, id, uid) {
      var i :| 0 <= i < |v| && v[i] == st.tasks[id];
    }
  }

  /** The caller's task list shows exactly the tasks the caller can read by id, as read. */
  lemma ListedIffFound(claims: seq<Claim>, st: Store, id: Int32)
    requires GetCurrentUserId(claims).Some?
    ensures var v := GetTasks(claims, st, None).reply.value;
            (exists i :: 0 <= i < |v| && v[i].id == id) <==> GetTaskById(claims, st, id, None).reply.Ok?
    ensures var v := GetTasks(claims, st, None).reply.value;
            forall i :: 0 <= i < |v| && v[i].id == id ==> GetTaskById(claims, st, id, None).reply == Ok(v[i])
  {
    var v := GetTasks(claims, st, None).reply.value;
    OwnListHolds(st, GetCurrentUserId(claims).value, v, id);
  }

  /** A created task is in its creator's list afterwards, under a key that was free, holding the payload. */
  lemma CreateThenListed(claims: seq<Claim>, st: Store, dto: CreateTaskDto)
    requires CreateTask(claims, st, Some(dto), None).reply.Ok?
    ensures var v := GetTasks(claims, CreateTask(claims, st, Some(dto), None).store, None).reply.value;
            exists i :: 0 <= i < |v| && v[i].id !in st.tasks && v[i] == FromDto(dto, v[i].id, GetCurrentUserId(claims).value)
  {
    var uid := GetCurrentUserId(claims).value;
    var after := CreateTask(claims, st, Some(dto), None).store;
    assert Storable(dto);
    var k :| k !in st.tasks && after == PutTask(st, FromDto(dto, k, uid));
    var v := GetTasks(claims, after, None).reply.value;
    OwnListHolds(after, uid, v, k);
    var i :| 0 <= i < |v| && v[i].id == k;
  }

  /**
   * A `TokenService` token names its holder under "UserId", which
   * `GetCurrentUserId` does not read: even when the host accepts it, every
   * task action answers 401 and writes nothing.
   */
  lemma ServiceTokenLockedOut(config: Config, u: User, issued: DateTime, st: Store, id: Int32,
                              dto: Option<CreateTaskDto>, fault: Option<string>)
    requires GenerateToken(config, u, issued).Some?
    ensures var claims := GenerateToken(config, u, issued).value.claims;
            && CreateTask(claims, st, dto, fault) == Step(Refuse(Unauthorized, InvalidToken), st)
            && GetTasks(claims, st, fault) == Step(Refuse(Unauthorized, InvalidToken), st)
            && GetTaskById(claims, st, id, fault) == Step(Refuse(Unauthorized, InvalidToken), st)
            && UpdateTask(claims, st, id, dto, fault) == Step(Refuse(Unauthorized, InvalidToken), st)
            && DeleteTask(claims, st, id, fault) == Step(Refuse(Unauthorized, InvalidToken), st)
  {
  }
}

=== FILE: tokens.dfy ===
/**
 * The two JWT issuers of the backend (`AuthController.GenerateJwtToken`
 * and `TokenService.GenerateToken`) and the bearer-token check the host
 * is configured with. A token is kept as the structured value the issuer
 * builds; its compact serialisation and HMAC-SHA256 signature (RFC 7519;
 * RFC 7518 section 3.2) are abstracted to "signed with this key".
 */
module Tokens {
  import opened Base
  import opened Models
  import opened Claims
  import opened Int32Text
  import opened Digest

  const KeySetting: string := "Jwt:Key"
  const IssuerSetting: string := "Jwt:Issuer"
  const AudienceSetting: string := "Jwt:Audience"

  /** `SecurityAlgorithms.HmacSha256`, written as "HS256" in the token header. */
  const HmacSha256: string := "http://www.w3.org/2001/04/xmldsig-more#hmac-sha256"

  /** How long a login token lives (`AddHours(2)`). */
  const LoginTokenHours: nat := 2
  /** How long a `TokenService` token lives (`AddDays(7)`). */
  const ServiceTokenDays: nat := 7
  /**
   * The smallest key HMAC-SHA256 signs with: as long as the hash, 256 bits.
   * The key is the UTF-8 of the "Jwt:Key" setting.
   */
  const MinKeyBytes: nat := 32

  /** The bearer handler's default tolerance on `exp` (five minutes). */
  const ClockSkew: nat := 5 * TicksPerMinute

  /** `IConfiguration`: a missing key reads as `null`. */
  datatype Config = Config(entries: map<string, string>) {
    function Get(key: string): (r: Option<string>)
      ensures r.Some? <==> key in entries
    {
      if key in entries then Some(entries[key]) else None
    }
  }

  /** `char.IsWhiteSpace`: the characters Unicode classes as white space. */
  predicate IsWhiteSpace(c: char) {
    || '\t' <= c <= '\r' || c == ' ' || c == '\U{0085}' || c == '\U{00A0}' || c == '\U{1680}'
    || '\U{2000}' <= c <= '\U{200A}' || c == '\U{2028}' || c == '\U{2029}' || c == '\U{202F}'
    || c == '\U{205F}' || c == '\U{3000}'
  }

  /** `string.IsNullOrWhiteSpace`, on a setting that may be missing. */
  predicate Blank(s: Option<string>) {
    s.None? || forall i :: 0 <= i < |s.value| ==> IsWhiteSpace(s.value[i])
  }

  /** The `iss` or `aud` a `JwtPayload` carries for a setting: none when it is null or empty. */
  function InPayload(setting: Option<string>): (r: Option<string>)
    ensures r.None? <==> setting.None? || setting.value == ""
    ensures r.Some? ==> r == setting
    ensures !Blank(setting) ==> r == setting
  {
    if setting.Some? && setting.value != "" then setting else None
  }

  /**
   * The audience check with `IgnoreTrailingSlashWhenValidatingAudience`
   * at its default, true: the token's audience is the valid one, or the
   * two differ only by one '/' at the end of either.
   */
  predicate AudienceFits(aud: string, valid: string) {
    aud == valid || aud == valid + "/" || valid == aud + "/"
  }

  /** A `JwtSecurityToken`: issuer, audience, claims, expiry, and the key it is signed with. */
  datatype Jwt = Jwt(
    issuer: Option<string>,
    audience: Option<string>,
    claims: seq<Claim>,
    expires: DateTime,
    signingKey: string,
    algorithm: string)

  /**
   * The configured signing key, when a token can be signed and checked with
   * it: present, and at least `MinKeyBytes` long in UTF-8. A missing key,
   * an empty one and a shorter one all make the issuer throw.
   */
  function SigningKey(config: Config): (r: Option<string>)
    ensures r.Some? <==> config.Get(KeySetting).Some? && |Utf8(config.Get(KeySetting).value)| >= MinKeyBytes
    ensures r.Some? ==> r == config.Get(KeySetting)
  {
    match config.Get(KeySetting)
    case Some(k) => if |Utf8(k)| >= MinKeyBytes then Some(k) else None
    case None => None
  }

  /**
   * Any key of 32 or more characters signs, such as the test
   * configuration's; one of fewer than 8 never does, the empty key
   * included. For an ASCII key, 32 characters is exactly the threshold.
   */
  lemma KeySizeBounds(config: Config)
    requires config.Get(KeySetting).Some?
    ensures var k := config.Get(KeySetting).value;
            && (|k| >= MinKeyBytes ==> SigningKey(config).Some?)
            && (|k| < MinKeyBytes / 4 ==> SigningKey(config).None?)
            && ((forall i :: 0 <= i < |k| ==> k[i] as int < 0x80) ==> (SigningKey(config).Some? <==> |k| >= MinKeyBytes))
  {
    var k := config.Get(KeySetting).value;
    if forall i :: 0 <= i < |k| ==> k[i] as int < 0x80 {
      AsciiUtf8(k);
    }
  }

  /** The claims of the login token: id, email, role. */
  function LoginClaims(u: User): seq<Claim> {
    [Claim(NameIdentifierType, Int32ToString(u.id)), Claim(NameType, u.email), Claim(RoleType, u.role)]
  }

  /** The claims of a `TokenService` token: email, role, and the id under "UserId". */
  function ServiceClaims(u: User): seq<Claim> {
    [Claim(NameType, u.email), Claim(RoleType, u.role), Claim(UserIdType, Int32ToString(u.id))]
  }

  lemma TypesDiffer()
    ensures NameType != NameIdentifierType && NameType != IdType
    ensures RoleType != NameIdentifierType && RoleType != IdType
    ensures UserIdType != NameIdentifierType && UserIdType != IdType
  {
    assert |NameType| != |NameIdentifierType|;
    assert |RoleType| != |NameIdentifierType|;
    assert |UserIdType| != |NameIdentifierType|;
  }

  /** `GetCurrentUserId` reads the user's id back from the login claims. */
  lemma LoginClaimsId(u: User)
    ensures GetCurrentUserId(LoginClaims(u)) == Some(u.id)
  {
    var claims := LoginClaims(u);
    FirstIdClaimDecides([], claims[0], claims[1..]);
    assert claims == [] + [claims[0]] + claims[1..];
    assert TryParseInt32(claims[0].value) == Some(u.id) by { Int32RoundTrip(u.id); }
  }

  /** The first `Name` claim of a login token is the email. */
  lemma LoginClaimsName(u: User)
    ensures FindFirstValue(LoginClaims(u), NameType) == Some(u.email)
  {
    var claims := LoginClaims(u);
    assert HasType(claims[1], NameType);
    assert !HasType(claims[0], NameType) by {
      assert |NameIdentifierType| != |NameType|;
    }
  }

  /** A login token puts its holder in exactly one role, the user's. */
  lemma LoginClaimsRole(u: User)
    ensures forall role :: IsInRole(LoginClaims(u), role) <==> role == u.role
  {
    var claims := LoginClaims(u);
    assert HasType(claims[2], RoleType);
    assert !HasType(claims[0], RoleType) by {
      assert |NameIdentifierType| != |RoleType|;
    }
    assert !HasType(claims[1], RoleType) by {
      assert |NameType| != |RoleType|;
    }
  }

  /**
   * `AuthController.GenerateJwtToken(user)` at time `now`; `None` is the
   * exception a missing, empty or too short `Jwt:Key` raises. The token
   * names the user by id (read back by `GetCurrentUserId`), by email
   * (`Name`) and by role, and expires two hours after `now`.
   */
  function GenerateJwtToken(config: Config, u: User, now: DateTime): (r: Option<Jwt>)
    ensures r.None? <==> SigningKey(config).None?
    ensures r.Some? ==>
              r.value.claims == [Claim(NameIdentifierType, Int32ToString(u.id)), Claim(NameType, u.email), Claim(RoleType, u.role)]
    ensures r.Some? ==> GetCurrentUserId(r.value.claims) == Some(u.id)
    ensures r.Some? ==> FindFirstValue(r.value.claims, NameType) == Some(u.email)
    ensures r.Some? ==> IsInRole(r.value.claims, u.role)
    ensures r.Some? ==> r.value.expires - now == 2 * 3600 * TicksPerSecond
    ensures r.Some? ==> r.value.issuer == InPayload(config.Get(IssuerSetting))
    ensures r.Some? ==> r.value.audience == InPayload(config.Get(AudienceSetting))
    ensures r.Some? ==> Some(r.value.signingKey) == SigningKey(config)
  {
    match SigningKey(config)
    case None => None
    case Some(key) =>
      LoginClaimsId(u);
      LoginClaimsName(u);
      LoginClaimsRole(u);
      Some(Jwt(InPayload(config.Get(IssuerSetting)), InPayload(config.Get(AudienceSetting)), LoginClaims(u),
               AddHours(now, LoginTokenHours), key, HmacSha256))
  }

  /**
   * `TokenService.GenerateToken`: `None` is the "JWT Key not configured."
   * exception, or the one `WriteToken` raises for a too short key; either
   * is logged and re-thrown.
   */
  function GenerateToken(config: Config, u: User, now: DateTime): (r: Option<Jwt>)
    ensures r.None? <==> SigningKey(config).None?
    ensures r.Some? ==>
              r.value.claims == [Claim(NameType, u.email), Claim(RoleType, u.role), Claim(UserIdType, Int32ToString(u.id))]
    ensures r.Some? ==> GetCurrentUserId(r.value.claims) == None
    ensures r.Some? ==> FindFirstValue(r.value.claims, NameType) == Some(u.email)
    ensures r.Some? ==> IsInRole(r.value.claims, u.role)
    ensures r.Some? ==> r.value.expires - now == 7 * 24 * 3600 * TicksPerSecond
    ensures r.Some? ==> r.value.issuer == InPayload(config.Get(IssuerSetting))
    ensures r.Some? ==> r.value.audience == InPayload(config.Get(IssuerSetting))
    ensures r.Some? ==> Some(r.value.signingKey) == SigningKey(config)
  {
    match SigningKey(config)
    case None => None
    case Some(key) =>
      var claims := ServiceClaims(u);
      TypesDiffer();
      assert HasType(claims[0], NameType);
      assert HasType(claims[1], RoleType);
      var issuer := InPayload(config.Get(IssuerSetting));
      Some(Jwt(issuer, issuer, claims,
               AddDays(now, ServiceTokenDays), key, HmacSha256))
  }

  /**
   * The bearer-token check of the host: signed with the configured key;
   * an issuer that is not blank and equals the configured one; a configured
   * audience that is not blank, and a token audience that is not blank and
   * fits it; and not past its expiry by more than the clock skew. An
   * accepted token's claims become the request's identity.
   */
  function Authenticate(config: Config, token: Jwt, now: DateTime): (r: Option<seq<Claim>>)
    ensures r.Some? ==> r.value == token.claims
    ensures r.Some? ==> SigningKey(config) == Some(token.signingKey)
    ensures r.Some? ==> !Blank(config.Get(IssuerSetting)) && token.issuer == config.Get(IssuerSetting)
    ensures r.Some? ==> !Blank(config.Get(AudienceSetting)) && !Blank(token.audience)
    ensures r.Some? ==> AudienceFits(token.audience.value, config.Get(AudienceSetting).value)
    ensures r.Some? ==> now <= token.expires + ClockSkew
  {
    var issuer, audience := config.Get(IssuerSetting), config.Get(AudienceSetting);
    if && SigningKey(config) == Some(token.signingKey)
       && !Blank(token.issuer) && token.issuer == issuer
       && !Blank(audience) && !Blank(token.audience) && AudienceFits(token.audience.value, audience.value)
       && now <= token.expires + ClockSkew
    then Some(token.claims)
    else None
  }

  /**
   * A login token, presented while it is live to a host with the same
   * configuration, is accepted exactly when neither "Jwt:Issuer" nor
   * "Jwt:Audience" is blank; it then authenticates a request whose
   * `GetCurrentUserId` is the user's id and whose principal is in the
   * user's role.
   */
  lemma LoginTokenRoundTrip(config: Config, u: User, issued: DateTime, now: DateTime)
    requires SigningKey(config).Some?
    requires issued <= now <= AddHours(issued, LoginTokenHours)
    ensures GenerateJwtToken(config, u, issued).Some?
    ensures var claims := Authenticate(config, GenerateJwtToken(config, u, issued).value, now);
            && (claims.Some? <==> !Blank(config.Get(IssuerSetting)) && !Blank(config.Get(AudienceSetting)))
            && (claims.Some? ==> GetCurrentUserId(claims.value) == Some(u.id) && IsInRole(claims.value, u.role))
  {
  }

  /**
   * A live `TokenService` token, whose audience is the issuer, is accepted
   * exactly when "Jwt:Issuer" and "Jwt:Audience" are not blank and agree
   * up to one trailing '/'.
   */
  lemma ServiceTokenNeedsIssuerAsAudience(config: Config, u: User, issued: DateTime, now: DateTime)
    requires GenerateToken(config, u, issued).Some?
    requires issued <= now <= AddDays(issued, ServiceTokenDays)
    ensures var issuer, audience := config.Get(IssuerSetting), config.Get(AudienceSetting);
            Authenticate(config, GenerateToken(config, u, issued).value, now).Some?
            <==> !Blank(issuer) && !Blank(audience) && AudienceFits(issuer.value, audience.value)
  {
  }

  /** No token is accepted once its expiry and the clock skew have passed. */
  lemma ExpiredTokenRejected(config: Config, token: Jwt, now: DateTime)
    requires now > token.expires + ClockSkew
    ensures Authenticate(config, token, now) == None
  {
  }
}
